=== FILE: README.md ===
# Lyric extraction core of ncbf-music-manager, in Dafny

This project models the part of ncbf-music-manager that turns worship-song presentations into ProPresenter lyric text. It models:

- **The legacy PowerPoint reader** (`crates/ppt`). It opens the "/PowerPoint Document" stream of a compound file and validates its record structure. It then walks the records: text headers, slide-persist atoms, UTF-16 and Windows-1252 text atoms. It filters out placeholder text, groups the entries into slides and orders each slide with titles first.
- **The modern PowerPoint reader** (`crates/pptx`). It reads the presentation's relationship part, orders the slide relationships by their numeric hints, and runs the shape state machine over each slide's XML. Each shape gives one positioned line, sorted into reading order.
- **The shared types** (`crates/core/src/types.rs`): presentations, slides, positioned lines, and format detection by extension and magic number.
- **The normalizer and title matcher** (`crates/core/src/normalize.rs`). The normalizer handles line endings, punctuation and apostrophe rules, whitespace collapsing, splitting into lines, and detecting the song's title on the first slide. The title matcher handles song names taken from file names and the similarity score.
- **The ProPresenter formatter** (`crates/core/src/propresenter.rs`) and the two entry points of the WebAssembly worker (`crates/worker-wasm/src/lib.rs`):
  - the size check and format detection that begin `extract_presentation_impl`;
  - `format_for_propresenter_impl`.

Everything is modelled with pure functions over immutable datatypes. Bytes are `seq<byte>`, text is `seq<char>`, and an opened archive or compound file is a map from part or stream names to contents.

Module layout follows the source:

| module | file | models |
|---|---|---|
| `Types` | types.dfy | `crates/core/src/types.rs` |
| `Errors` | errors.dfy | the error kinds of `crates/core/src/error.rs` |
| `Chars`, `Strings`, `Seqs`, `StableSort` | chars.dfy, strings.dfy, seqs.dfy, sorting.dfy | the standard-library operations the source calls (`to_lowercase`, `trim`, `lines`, `split_whitespace`, `str::len` and the stable `sort_by`), plus the model's own list vocabulary (`Seqs.Flatten`, `Filter`, `Reject`, `FlatMap`, `RemoveAt`), which the source does not call |
| `Bytes`, `Cp1252`, `Utf16` | bytes.dfy, cp1252.dfy, utf16.dfy | `read_u16_le`/`read_u32_le`, the Windows-1252 table of `extract_ansi_text`, and `char::decode_utf16` |
| `PptRecords`, `PptValidate`, `PptText`, `PptCollect`, `PptSlides`, `PptParser` | ppt_*.dfy | `crates/ppt/src/parser.rs` |
| `XmlEvents`, `PptxNames`, `PptxOrder`, `PptxShapes`, `PptxParser` | xml_events.dfy, pptx_*.dfy | `crates/pptx/src/parser.rs` |
| `NormalizeLine`, `NormalizeClean`, `TitleMatch`, `NormalizePresentation` | normalize_line.dfy, normalize_clean.dfy, title_match.dfy, normalize_presentation.dfy | `crates/core/src/normalize.rs` |
| `ProPresenter` | propresenter.dfy | `crates/core/src/propresenter.rs` |
| `WorkerWasm` | worker_wasm.dfy | `crates/worker-wasm/src/lib.rs` |

The legacy record walk is defined twice:

- as the recursive walk the source performs, once for validation and once for collecting text;
- as a flat list of record visits in pre-order.

Both passes are proved to be folds over that list. Every fact about record placement, stream order, and which texts are collected is stated on the list.

## Model

| member | source | states |
|---|---|---|
| Bytes.ReadU16LeBytes | crates/ppt/src/parser.rs:694-697 | the value read has the low byte at `off` and the high byte at `off + 1` |
| Bytes.ReadU32LeHalves | crates/ppt/src/parser.rs:699-706 | the value read is the little-endian combination of the two 16-bit halves at `off` and `off + 2` |
| Bytes.ReadWriteU16 | crates/ppt/src/parser.rs:713-718 | writing a 16-bit value and reading it back at any offset gives the value, whatever surrounds it |
| Bytes.ReadWriteU32 | crates/ppt/src/parser.rs:720-724 | writing a 32-bit value and reading it back at any offset gives the value |
| Bytes.WriteReadU32 | crates/ppt/src/parser.rs:699-706 | writing the value read from four bytes gives those four bytes back |
| Chars.ToLowerString | crates/core/src/normalize.rs:55-63 | lower-casing maps each character on its own and keeps the length |
| Chars.ByteLen | crates/core/src/normalize.rs:80-84 | the UTF-8 length `str::len` uses is between the character count and four times it, and zero only for the empty string |
| Chars.ByteLenIsCharCountIffAscii | crates/ppt/src/parser.rs:501 | the byte length equals the character count exactly when every character is ASCII |
| Cp1252.DecodeByte | crates/ppt/src/parser.rs:633-667 | ASCII and Latin-1 bytes decode to themselves, the five unassigned bytes decode to '?', and only byte 0 decodes to NUL |
| Cp1252.EncodeDecodeByte | crates/ppt/src/parser.rs:633-667 | every assigned byte decodes to a character that encodes back to the same byte |
| Cp1252.DecodeEncodeChar | crates/ppt/src/parser.rs:633-667 | every character the table can write decodes back to itself |
| Cp1252.DecodeEncodeString | crates/ppt/src/parser.rs:633-667 | a writable string round-trips through the byte encoding |
| Utf16.Units | crates/ppt/src/parser.rs:598-602 | the bytes read as little-endian units: half as many, unit k read at byte 2k |
| Utf16.DecodePrefix | crates/ppt/src/parser.rs:604-608 | decoding stops at the first NUL or ill-formed unit, so the text holds no NUL and no more characters than units |
| Utf16.DecodeEncode | crates/ppt/src/parser.rs:604-608 | a NUL-free string written as UTF-16 and followed by a NUL, a stray low surrogate or the end decodes back to itself |
| Utf16.UnitsOfUnitBytes | crates/ppt/src/parser.rs:598-602 | writing units as bytes and reading them back gives the same units |
| Types.NewPresentation | crates/core/src/types.rs:23-30 | a new presentation has the given name and format, no slides, no notes and no lines |
| Types.AddSlide | crates/core/src/types.rs:33-35 | adding a slide appends it and leaves name, format and notes unchanged |
| Types.AllLinesAddSlide | crates/core/src/types.rs:38-43 | after adding a slide, `all_lines` is the old lines followed by exactly that slide's line texts |
| Types.AllLinesOfBuilt | crates/core/src/types.rs:33-43 | a presentation built by adding slides in turn has those slides, and its `all_lines` is their line texts in order |
| Types.NewSlide | crates/core/src/types.rs:102-108 | a new slide has the given number and no lines or notes |
| Types.AddLine | crates/core/src/types.rs:111-113 | appends one unpositioned line with that text and changes nothing else |
| Types.AddLineWithPosition | crates/core/src/types.rs:116-118 | appends one line at (x, y); note that the source takes y before x |
| Types.SortByPosition | crates/core/src/types.rs:121-135 | the result is a permutation of the lines, sorted by y and then x, with missing coordinates first |
| Types.SortByPositionStable | crates/core/src/types.rs:121-135 | lines at the same position keep their relative order, because `sort_by` is stable |
| Types.NonEmptyLines | crates/core/src/types.rs:138-144 | only texts that are not all whitespace are returned |
| Types.NonEmptyLinesKeepsNonBlank | crates/core/src/types.rs:138-144 | every line that is not all whitespace is returned |
| Types.NonEmptyLinesAddLine | crates/core/src/types.rs:110-144 | adding a line appends it to the non-empty lines unless it is all whitespace, so they keep the slide's order and multiplicity |
| Types.NonEmptyLinesAddLineWithPosition | crates/core/src/types.rs:115-144 | the same for a line added with a position |
| Types.FromExtension | crates/core/src/types.rs:57-63 | "pptx" and "ppt" in any letter case name their format, and nothing else names a format |
| Types.FromExtensionIsAsciiCaseless | crates/core/src/types.rs:57-63 | only the ASCII spellings of "pptx" or "ppt", in any mix of case, are recognised |
| Types.FromMagic | crates/core/src/types.rs:66-84 | fewer than four bytes give nothing; the result is Pptx exactly when the data starts with the ZIP signature, and Ppt exactly when it starts with the compound-file signature |
| PptRecords.ReadHeaderType | crates/ppt/src/parser.rs:382-384 | the record type of a header is the little-endian value of its bytes 2 and 3 |
| PptRecords.ReadWriteHeader | crates/ppt/src/parser.rs:382-384 | a header written as eight bytes is read back unchanged at any offset |
| PptRecords.VisitsWellPlaced | crates/ppt/src/parser.rs:366-462 | every header and every record's content that the walk visits lies inside the range walked |
| PptRecords.VisitsIncreasing | crates/ppt/src/parser.rs:366-462 | the walk meets records at strictly increasing offsets, so each is visited once, in stream order |
| PptRecords.ZeroVisits | crates/ppt/src/parser.rs:377-459 | a zero-filled region reads as a run of empty, childless type-0 records |
| PptText.FromU32 | crates/ppt/src/parser.rs:74-87 | codes above 8 read as `Other` |
| PptText.FromU32Code | crates/ppt/src/parser.rs:743-755 | each text type is read back from its own code, and each code up to 8 names its type |
| PptText.BeforeNul | crates/ppt/src/parser.rs:625-626 | the bytes before the first zero byte, or all of them when there is no zero |
| PptText.ExtractAnsi | crates/ppt/src/parser.rs:618-675 | an empty record or one that runs past the stream gives nothing; otherwise the text is NUL-free, no longer than the record, and not all whitespace |
| PptText.ExtractAnsiOfEncoded | crates/ppt/src/parser.rs:618-675 | Windows-1252 text ended by a zero byte or by the record's end is read back unchanged, whatever follows the zero |
| PptText.ExtractAnsiHelloWorld | crates/ppt/src/parser.rs:726-732 | "Hello World", a zero byte and then garbage is read as "Hello World" |
| PptText.ExtractUnicode | crates/ppt/src/parser.rs:593-615 | an empty, overrunning or odd-length record gives nothing; otherwise the text is non-empty, NUL-free and at most half the record length |
| PptText.ExtractUnicodeOfRecord | crates/ppt/src/parser.rs:598-614 | a record that fits the stream and has an even length is decoded from its own bytes |
| PptText.ExtractUnicodeOfEncoded | crates/ppt/src/parser.rs:593-615 | a non-empty NUL-free string written as UTF-16LE, followed by a NUL, a stray low surrogate or the record's end, is read back unchanged |
| PptText.ExtractUnicodeHi | crates/ppt/src/parser.rs:734-741 | the four bytes of "Hi" read back as "Hi" |
| PptText.IsValidSlideTextAsWritten | crates/ppt/src/parser.rs:465-506 | accepted text is not blank, is slide content and contains no placeholder fragment (the full if-and-only-if is `PptText.IsValidSlideTextAsWrittenMeaning`) |
| PptText.IsValidSlideTextAsWrittenMeaning | crates/ppt/src/parser.rs:465-506 | the filter as written keeps exactly the text that is slide content, not blank, free of placeholder fragments, and whose trimmed form is not a single UTF-8 byte that is not alphanumeric |
| PptText.ContainsTrimmed | crates/ppt/src/parser.rs:466-492 | a pattern without whitespace at its ends occurs in a text exactly when it occurs in the trimmed text |
| PptText.TemplateInTrimmed | crates/ppt/src/parser.rs:479-492 | matching placeholder fragments in the trimmed text is matching them in the text as found |
| PptText.IsValidSlideTextMeaning | crates/ppt/src/parser.rs:465-506 | the intended filter keeps exactly the text that is slide content, not blank, free of placeholder fragments, and not a lone non-alphanumeric character |
| PptText.AsWrittenAgreesOnAscii | crates/ppt/src/parser.rs:495-503 | on ASCII text the filter as written and the intended filter agree |
| PptText.BulletPassesAsWritten | crates/ppt/src/parser.rs:501 | a lone bullet, the character byte 0x95 decodes to, passes the filter as written but not the intended one |
| PptText.PlaceholderPrefixRejected | crates/ppt/src/parser.rs:757-776 | the filter as written drops text that starts with a placeholder fragment |
| PptText.NotesAndBulletsRejected | crates/ppt/src/parser.rs:90-94 | under the filter as written, notes and unused text are never slide text, and neither is a lone "*" |
| PptText.NoPatternInShort | crates/ppt/src/parser.rs:479-492 | text shorter than every placeholder fragment (11 characters) contains none of them |
| PptText.ShortTextAccepted | crates/ppt/src/parser.rs:465-506 | the filter as written always keeps trimmed slide text of two to ten characters |
| PptValidate.ScanIsNoteAll | crates/ppt/src/parser.rs:249-305 | the validation scan is the per-record bookkeeping applied to the walk's visits in pre-order |
| PptValidate.NoteAllSummary | crates/ppt/src/parser.rs:249-305 | the scan's flags and counters say which record types occur among the visits, how many text records there are, and how many overruns |
| PptValidate.ValidateStream | crates/ppt/src/parser.rs:193-246 | a stream under 512 bytes, or one with more than ten overrunning records, is corrupted; one with no document record or no text is unsupported; otherwise validation succeeds with the scan's summary |
| PptValidate.NoteAllZeroRecords | crates/ppt/src/parser.rs:249-305 | records of type 0 change nothing |
| PptValidate.StructureTestValidates | crates/ppt/src/parser.rs:814-871 | the valid-structure stream passes with one text record and no malformed ones, and a text type above 8 is noted as unsupported |
| PptValidate.ThreeRecordVisits | crates/ppt/src/parser.rs:814-871 | a document container holding a text header and a text atom is walked as those three records, then the zero padding |
| PptValidate.TooSmallIsCorrupted | crates/ppt/src/parser.rs:778-788 | a stream shorter than 512 bytes is rejected as corrupted, whatever it holds |
| PptValidate.NoDocumentIsUnsupported | crates/ppt/src/parser.rs:790-812 | an 8-byte record of type 1 followed by zeros is an unsupported format |
| PptCollect.NoteText | crates/ppt/src/parser.rs:411-437 | noting a text keeps the current text type and slide count; it adds exactly one entry, the text with the current type, offset and slide count, when the filter as written accepts the text, and nothing otherwise |
| PptCollect.WalkIsCollectAll | crates/ppt/src/parser.rs:366-462 | the text-collecting walk is the per-record step applied to the visits in pre-order |
| PptCollect.CollectAllSources | crates/ppt/src/parser.rs:411-437 | every entry a fold adds is a text accepted by the filter as written and read from one of the visits it folds over |
| PptCollect.CollectAllOrdered | crates/ppt/src/parser.rs:398-437 | folding over increasing visits keeps entries in offset order with non-decreasing slide hints within the persist count |
| PptCollect.CollectTextEntriesFacts | crates/ppt/src/parser.rs:348-363 | every collected entry is text accepted by the filter as written and read from a text atom of the stream, and entries come in stream order with non-decreasing slide hints |
| PptCollect.AcceptedIsContent | crates/ppt/src/parser.rs:465-506 | entries the filter as written accepts are slide content and not blank |
| PptCollect.KeptStep | crates/ppt/src/parser.rs:411-437 | one more visit adds its entry to the kept entries exactly when it is a text atom the filter accepts under the type then in force |
| PptCollect.VisitEntries | crates/ppt/src/parser.rs:398-437 | one record appends its decoded text, with the current type, offset and slide count, exactly when the filter accepts it |
| PptCollect.VisitType | crates/ppt/src/parser.rs:403-409 | one record changes the text type only when it is a text header with room for the four-byte type, which it then sets |
| PptCollect.VisitPersist | crates/ppt/src/parser.rs:398-401 | one record advances the slide count exactly when it is a slide-persist atom |
| PptCollect.CollectVisitStep | crates/ppt/src/parser.rs:398-437 | after the visits before a record, the walk's state is the kept entries, the type of the last text header and the number of slide-persist atoms; the record moves it to the same description one visit further |
| PptCollect.CollectPrefix | crates/ppt/src/parser.rs:366-437 | folding over the first n visits gives exactly the accepted text atoms among them, in order, each with the type of the last text header before it and the number of slide-persist atoms before it |
| PptCollect.CollectTextEntriesExact | crates/ppt/src/parser.rs:348-363 | the collected entries are exactly the accepted text atoms of the whole stream, in visit order, each with its type and slide hint |
| PptCollect.EntriesUpToGrows | crates/ppt/src/parser.rs:411-437 | the entries kept from fewer visits begin those kept from more |
| PptCollect.AcceptedAtomCollected | crates/ppt/src/parser.rs:348-437 | every text atom of the stream that the filter accepts is collected, with its type and slide hint |
| PptSlides.GroupBySlideHintRuns | crates/ppt/src/parser.rs:519-531 | grouping by hint cuts the entries into maximal runs of equal hint, losing and reordering nothing |
| PptSlides.SplitByTitlesRuns | crates/ppt/src/parser.rs:570-590 | splitting at titles loses and reorders nothing, and puts every title other than the first at the head of a group |
| PptSlides.SlideGroups | crates/ppt/src/parser.rs:514-536 | the groups that become slides are non-empty and together are the entries |
| PptSlides.SlideGroupsFallback | crates/ppt/src/parser.rs:534-536 | the title fallback is taken exactly when there are several entries and all of them share one hint |
| PptSlides.SlideEntries | crates/ppt/src/parser.rs:544-560 | a group's lines are a permutation of its entries |
| PptSlides.BuildSlidesOfNonEmpty | crates/ppt/src/parser.rs:540-564 | one slide per non-empty group, numbered by the group's place |
| PptSlides.OrganizeIntoSlides | crates/ppt/src/parser.rs:509-567 | there are no slides exactly when there are no entries; slides are numbered 1, 2, ..., are non-empty and have no notes |
| PptSlides.OrganizeLines | crates/ppt/src/parser.rs:540-564 | slide k holds exactly the entries of group k, ordered by position with titles first |
| PptSlides.SlideEntriesTitlesFirst | crates/ppt/src/parser.rs:548-560 | within a slide, no non-title line comes before a title line |
| PptSlides.SlideEntriesOfOrdered | crates/ppt/src/parser.rs:544-560 | entries already in stream order keep their order: the titles in order, then the rest in order |
| PptParser.ParsePpt | crates/ppt/src/parser.rs:111-185 | an unopenable container is a CFB error and a missing document stream is unsupported; otherwise the result is the stream's validation error or the presentation built from the entries the walk collects with the filter as written |
| PptParser.PresentationOf | crates/ppt/src/parser.rs:117-153 | the presentation has the file's name, the Ppt format, no notes, and the organized slides of the collected entries |
| PptParser.PresentationLines | crates/ppt/src/parser.rs:337-567 | every line of a parsed presentation is text accepted by the filter as written and read from one of the stream's text atoms, and slides are numbered 1, 2, ... |
| PptParser.LineOfEntry | crates/ppt/src/parser.rs:509-567 | every entry shows as a line of the slides organized from the entries |
| PptParser.EntriesShown | crates/ppt/src/parser.rs:117-153 | every collected entry shows as a line of the parsed presentation |
| PptParser.AcceptedAtomShown | crates/ppt/src/parser.rs:337-567 | every text atom of the stream that the filter as written accepts shows as a line of the parsed presentation |
| PptParser.PresentationTexts | crates/ppt/src/parser.rs:337-567 | a text is a line of the parsed presentation exactly when some collected entry reads it |
| PptParser.ParsePptSlideOrder | crates/ppt/src/parser.rs:540-564 | within each slide, titles come first and each part keeps stream order, because the position sort never moves an entry |
| XmlEvents.LastValue | crates/pptx/src/parser.rs:55-68 | the value of the last attribute with that key, present exactly when some attribute has that key |
| XmlEvents.AssignAttrIsLast | crates/pptx/src/parser.rs:55-68 | the attribute loop leaves the last matching value, or the previous value when nothing matches |
| XmlEvents.AttrValue | crates/pptx/src/parser.rs:51-68 | a string field starts empty and is overwritten by the attribute loop |
| PptxNames.LocalName | crates/pptx/src/parser.rs:292-298 | the part after the first ':', or the whole name when it has none |
| PptxNames.LocalNameOfPrefixed | crates/pptx/src/parser.rs:292-298 | the local part of a prefixed name is whatever follows its prefix |
| PptxNames.LocalNameExamples | crates/pptx/src/parser.rs:328-332 | "p:sp" gives "sp" and "sp" stays "sp" |
| PptxNames.TrimEndMatches | crates/pptx/src/parser.rs:303 | the result is a prefix that no longer ends in the pattern, and what was removed is a run of copies of the pattern |
| PptxNames.TrailingDigits | crates/pptx/src/parser.rs:306-310 | the maximal run of ASCII digits at the end of the string |
| PptxNames.ExtractSlideNumber | crates/pptx/src/parser.rs:301-312 | the result is nothing exactly when the stem has no trailing digits or their value exceeds `usize::MAX` |
| PptxNames.SlideNumberRoundTrip | crates/pptx/src/parser.rs:301-312 | a name ending in the decimal spelling of n, optionally followed by ".xml" or ".rels", gives n whenever n fits a `usize` |
| PptxNames.SlideNumberOverflow | crates/pptx/src/parser.rs:311 | a number above `usize::MAX` does not parse |
| PptxNames.NoTrailingDigitNoNumber | crates/pptx/src/parser.rs:306-309 | without a digit at the end of the stem there is no number |
| PptxNames.SlideNumberOfId | crates/pptx/src/parser.rs:319-324 | "rId12" gives 12 |
| PptxNames.SlideNumberOfTarget | crates/pptx/src/parser.rs:319-324 | "slide123.xml" gives 123 |
| PptxNames.NoDigitsNoNumber | crates/pptx/src/parser.rs:319-324 | "nodigits" gives nothing |
| PptxNames.ParseCoordRoundTrip | crates/pptx/src/parser.rs:164-171 | an integer coordinate written in decimal reads back as itself |
| PptxOrder.SlidePath | crates/pptx/src/parser.rs:74-78 | an absolute target loses its leading '/', and any other target is put under "ppt/" |
| PptxOrder.RefOf | crates/pptx/src/parser.rs:73-79 | the slide's path comes from the Target; its hint is the Id's number, or the Target's number when the Id has none |
| PptxOrder.CollectRefs | crates/pptx/src/parser.rs:48-91 | the loop fails with an XML error exactly when the events contain a syntax error |
| PptxOrder.CollectRefsIsFlatMap | crates/pptx/src/parser.rs:48-91 | without a syntax error, the entries are exactly those of the slide relationships (not layouts or masters), in document order |
| PptxOrder.LexLeqAntisymmetric | crates/pptx/src/parser.rs:99 | two paths that compare equal are equal |
| PptxOrder.OrderRefs | crates/pptx/src/parser.rs:93-101 | the sorted entries are a permutation of the input, sorted by the comparator |
| PptxOrder.OrderRefsHintedFirst | crates/pptx/src/parser.rs:94-101 | hinted entries come before unhinted ones, hints ascend, and unhinted entries ascend by path |
| PptxOrder.OrderRefsStable | crates/pptx/src/parser.rs:93-101 | entries that compare equal keep their input order |
| PptxOrder.SlideOrder | crates/pptx/src/parser.rs:38-104 | slide ordering fails with an XML error exactly when the relationship part has a syntax error |
| PptxOrder.SlideOrderPaths | crates/pptx/src/parser.rs:38-104 | without a syntax error, the order is the paths of the sorted slide relationships |
| PptxShapes.ApplyOffset | crates/pptx/src/parser.rs:158-177 | an offset element changes only the coordinates, and only for attributes that parse |
| PptxShapes.StepKeepsShapes | crates/pptx/src/parser.rs:143-254 | one step of the machine keeps the shapes emitted so far and emits only shapes with text |
| PptxShapes.ExtractShapes | crates/pptx/src/parser.rs:133-257 | every extracted shape has non-empty trimmed text |
| PptxShapes.TextOnlyInParagraph | crates/pptx/src/parser.rs:215-220 | text is appended only inside a paragraph, and nothing is emitted |
| PptxShapes.ParagraphBreak | crates/pptx/src/parser.rs:181-186 | a paragraph in a text body adds a line break only after text already collected |
| PptxShapes.ShapeEnd | crates/pptx/src/parser.rs:226-237 | the end of a shape emits it exactly when it is open and its trimmed text is non-empty, and resets the text state |
| PptxShapes.OffsetOnlyInShape | crates/pptx/src/parser.rs:158-177 | an offset with no open shape changes nothing |
| PptxShapes.AccumulateIsShapeText | crates/pptx/src/parser.rs:178-243 | starting from no text, the machine's accumulator gives the paragraphs' texts joined by line breaks |
| PptxShapes.ShapeFromEvents | crates/pptx/src/parser.rs:138-256 | a shape with an offset and a text body emits exactly one shape at that offset whose text is its trimmed paragraphs joined by line breaks, or nothing when that is empty |
| PptxShapes.OffsetRoundTrip | crates/pptx/src/parser.rs:190-214 | an offset element with decimal x and y sets the shape to that position |
| PptxShapes.SlideFromShapes | crates/pptx/src/parser.rs:119-127 | one line per shape with text, numbered as given, in reading order (by y, then x) |
| PptxShapes.SlideFromShapesStable | crates/pptx/src/parser.rs:119-127 | lines at the same position keep the document order of their shapes |
| PptxShapes.SlideFromEventsLines | crates/pptx/src/parser.rs:107-130 | each extracted shape gives exactly one line of the slide, and the lines are in position order |
| PptxParser.ReadPart | crates/pptx/src/parser.rs:260-274 | reading succeeds exactly when the part exists, and otherwise is a zip error |
| PptxParser.ParseSlide | crates/pptx/src/parser.rs:107-130 | a missing part is a zip error; otherwise the result is the slide of the part's events |
| PptxParser.ParseSlides | crates/pptx/src/parser.rs:29-32 | the loop succeeds exactly when every slide part exists, and then gives slide k from part k with number first + k |
| PptxParser.Parse | crates/pptx/src/parser.rs:19-35 | a missing relationship part is a zip error and a malformed one is an XML error; a result has the file's name, the Pptx format and no notes |
| PptxParser.ParseSlidesInOrder | crates/pptx/src/parser.rs:19-35 | a successful parse has one slide per slide relationship, in slide order, numbered 1 to N, each the slide of its part |
| PptxParser.MissingSlidePartFails | crates/pptx/src/parser.rs:29-32 | a slide relationship whose part is missing makes the whole parse fail with a zip error |
| NormalizeLine.ReplaceCr | crates/core/src/normalize.rs:154 | every CR becomes LF, and nothing else changes |
| NormalizeLine.NormalizeEndingsByBreak | crates/core/src/normalize.rs:154 | the two replacements turn every CRLF, lone CR or LF into exactly one LF |
| NormalizeLine.EndingsKeep | crates/core/src/normalize.rs:154 | a character other than CR and LF survives line-ending normalization exactly when it was there |
| NormalizeLine.StripApostrophe | crates/core/src/normalize.rs:160-177 | an apostrophe-like character contributes one ASCII apostrophe when both neighbours are letters, and nothing otherwise |
| NormalizeLine.StripPunctuation | crates/core/src/normalize.rs:160-177 | a punctuation character contributes nothing, even when it is also apostrophe-like |
| NormalizeLine.StripOther | crates/core/src/normalize.rs:160-177 | any other character is kept in place |
| NormalizeLine.Collapse | crates/core/src/normalize.rs:10-11 | the result has no run of spaces or tabs and no tab, and starts with a blank exactly when the input did |
| NormalizeLine.CollapseKeeps | crates/core/src/normalize.rs:10-11 | collapsing keeps every character that is not a space or tab, in order |
| NormalizeLine.CleanLine | crates/core/src/normalize.rs:182-191 | each line in line-preserving mode is trimmed and has no blank run and no tab |
| NormalizeLine.CleanLineKeepsChar | crates/core/src/normalize.rs:182-191 | cleaning a line keeps exactly its non-whitespace characters |
| NormalizeLine.JoinedCleanKeeps | crates/core/src/normalize.rs:182-191 | the cleaned lines joined again keep exactly the non-whitespace characters of the text |
| NormalizeLine.NormalizeLineChars | crates/core/src/normalize.rs:150-198 | every output character is an ASCII apostrophe, a space, a line feed, or a character that is neither punctuation nor apostrophe-like |
| NormalizeLine.NormalizeLineKeeps | crates/core/src/normalize.rs:150-198 | a character that is not whitespace, punctuation or apostrophe-like is in the output exactly when it is in the input |
| NormalizeLine.PreservedLinesAreClean | crates/core/src/normalize.rs:182-191 | in line-preserving mode every output line is trimmed and has no run of spaces or tabs |
| NormalizeLine.NormalizeToLinesWith | crates/core/src/normalize.rs:204-212 | the lines are non-empty, trimmed and free of line feeds |
| NormalizeLine.NormalizeToLinesPreserved | crates/core/src/normalize.rs:204-212 | in line-preserving mode the lines are exactly the non-empty cleaned lines of the stripped text, in order |
| NormalizeLine.WithPreserveLineBreaks | crates/core/src/normalize.rs:139-142 | the builder sets the flag to the given value |
| NormalizeLine.NoPunctuationRemains | crates/core/src/normalize.rs:150-198 | for any table that leaves space, line feed and the ASCII apostrophe alone, no character of the table, CR or tab survives |
| NormalizeLine.Line | crates/core/src/normalize.rs:150-198 | with the punctuation table as written at lines 21-30, no character of that table, CR or tab survives |
| NormalizeLine.ToLines | crates/core/src/normalize.rs:204-212 | with the table as written, each line is non-empty, trimmed and free of line feeds |
| NormalizeLine.CurlyQuotesPlainAsWritten | crates/core/src/normalize.rs:21-30 | the table as written lists U+0022 three times, so the curly double quotes are plain characters |
| NormalizeLine.AsWrittenKeepsCurlyQuotes | crates/core/src/normalize.rs:23 | with the table as written, curly double quotes survive normalization in both modes |
| NormalizeLine.CurlyQuotesRemoved | crates/core/src/normalize.rs:21-30 | with the intended table, no double quotation mark of any kind survives |
| NormalizeClean.EndingsByBreakIdentity | crates/core/src/normalize.rs:153-154 | text without carriage returns keeps its line endings |
| NormalizeClean.CollapseClean | crates/core/src/normalize.rs:186-195 | a string with no tab and no two blanks in a row is not changed by collapsing |
| NormalizeClean.LinesSingle | crates/core/src/normalize.rs:182-185 | a non-empty string without line feeds is one line |
| NormalizeClean.NormalizeSingleLine | crates/core/src/normalize.rs:150-198 | when the character loop already yields one clean line, both modes return it unchanged |
| NormalizeClean.StripRangePlain | crates/core/src/normalize.rs:160-177 | the character loop copies characters that are neither punctuation nor apostrophe-like |
| NormalizeClean.CleanLineJoin | crates/core/src/normalize.rs:182-195 | two clean lines joined by one space make a clean line |
| NormalizeClean.LeadingApostropheLine | crates/core/src/normalize.rs:160-172 | a line of letters and spaces that starts with an apostrophe-like character is returned without it |
| NormalizeClean.InnerApostropheLine | crates/core/src/normalize.rs:160-172 | in a line of letters and spaces, an apostrophe-like character between two letters comes out as one ASCII apostrophe and the rest is unchanged |
| NormalizeClean.InnerApostropheStrip | crates/core/src/normalize.rs:160-177 | the character loop over plain characters around one apostrophe between letters replaces it by an ASCII apostrophe |
| NormalizeClean.LeadingApostropheDropped | crates/core/src/normalize.rs:302-311 | in both modes, "'Tis the season" normalizes to "Tis the season" |
| NormalizeClean.AsciiApostropheInWord | crates/core/src/normalize.rs:292-297 | in both modes, "don't" normalizes to itself |
| NormalizeClean.CurlyApostropheInWord | crates/core/src/normalize.rs:160-172 | in both modes, "don\u{2019}t" normalizes to "don't" with an ASCII apostrophe |
| TitleMatch.ComparisonWords | crates/core/src/normalize.rs:55-63 | every comparison word is non-empty lower-case alphanumeric |
| TitleMatch.ForComparison | crates/core/src/normalize.rs:55-63 | the comparison form has only spaces and lower-case letters and digits, and its words are the comparison words |
| TitleMatch.ForComparisonIdempotent | crates/core/src/normalize.rs:55-63 | the comparison form of the comparison form is itself |
| TitleMatch.ForComparisonIgnoresCase | crates/core/src/normalize.rs:55-63 | a lower-cased text has the same comparison form |
| TitleMatch.StripExtension | crates/core/src/normalize.rs:40-43 | the part before the last dot, or the whole name when it has none |
| TitleMatch.StripFilenameSuffix | crates/core/src/normalize.rs:14-17 | the name is cut where the leftmost end-anchored suffix match starts, and no earlier position starts one |
| TitleMatch.SongName | crates/core/src/normalize.rs:38-50 | the song name has only spaces and lower-case letters and digits |
| TitleMatch.NameWithoutKeywordEndingKept | crates/core/src/normalize.rs:14-17 | a name whose last non-space character cannot end a keyword is not cut |
| TitleMatch.Similarity | crates/core/src/normalize.rs:69-98 | the score is in [0, 1], is 0 when either string is empty, and is 1 for equal non-empty strings |
| TitleMatch.SimilaritySymmetric | crates/core/src/normalize.rs:69-98 | the score does not depend on the order of its arguments |
| TitleMatch.ContainedIsShorter | crates/core/src/normalize.rs:80-84 | a proper substring is shorter in bytes |
| TitleMatch.SimilarityOneIff | crates/core/src/normalize.rs:69-98 | a score of 1 means equal strings, or strings neither of which contains the other that have the same non-empty set of words |
| TitleMatch.LikelyTitleBounds | crates/core/src/normalize.rs:103-121 | a title needs a non-empty song name and a comparison form of 2 to 60 bytes |
| TitleMatch.ExactTitleIsLikely | crates/core/src/normalize.rs:103-121 | a text whose comparison form is the song name, of 2 to 60 bytes, is a title |
| TitleMatch.LikelyTitleIgnoresCase | crates/core/src/normalize.rs:103-121 | the title test ignores case |
| NormalizePresentation.NormalizedLines | crates/core/src/normalize.rs:215-226 | every line is non-empty and trimmed, with no line feed |
| NormalizePresentation.LinesOfAllLines | crates/core/src/normalize.rs:215-226 | normalizing slide by slide is normalizing the presentation's `all_lines` in order |
| NormalizePresentation.FindTitle | crates/core/src/normalize.rs:245-255 | the first first-slide text whose trimmed form is likely the title, or nothing when none is |
| NormalizePresentation.SkipLinesSpec | crates/core/src/normalize.rs:258-270 | the first-slide loop skips exactly the title's text, or nothing |
| NormalizePresentation.LinesWithoutTitle | crates/core/src/normalize.rs:235-273 | without a likely title on the first slide, the lines are those of `normalize_presentation` |
| NormalizePresentation.NoTitleIff | crates/core/src/normalize.rs:245-255 | there is no title exactly when no text of the first slide is likely the song's title |
| NormalizePresentation.LinesWithFoundTitle | crates/core/src/normalize.rs:235-273 | with a title, it is the normalized first likely-title text of the first slide, and the lines are `normalize_presentation` of the slides with that text removed |
| ProPresenter.Clamp | crates/core/src/propresenter.rs:28 | `max(n, 1)`: 1 exactly when n is at most 1, else n |
| ProPresenter.WithLinesPerSlide | crates/core/src/propresenter.rs:26-29 | a positive count is kept and 0 becomes 1 |
| ProPresenter.ChunksShape | crates/core/src/propresenter.rs:49 | the chunks concatenate to the input, none is empty or longer than k, and all but the last hold exactly k |
| ProPresenter.ChunksCount | crates/core/src/propresenter.rs:49 | there are ceil(n / k) chunks |
| ProPresenter.ChunkAt | crates/core/src/propresenter.rs:49 | chunk i is the slice from i * k to i * k + k, cut at the end of the input |
| ProPresenter.SplitIntoSlides | crates/core/src/propresenter.rs:87-94 | ceil(n / max(k, 1)) slides, all but the last with exactly that many lines, together holding the input in order |
| ProPresenter.FormatWithNewline | crates/core/src/propresenter.rs:57-64 | empty exactly when the formatted text is empty; otherwise the formatted text followed by one newline |
| ProPresenter.FormatEmptyIff | crates/core/src/propresenter.rs:43-54 | the formatted text is empty only for no lines or a single empty line |
| ProPresenter.FormatIsSplitIntoSlides | crates/core/src/propresenter.rs:43-54 | the formatter and `split_into_slides` agree on the slides for the same requested count |
| ProPresenter.GroupSeparated | crates/core/src/propresenter.rs:43-54 | grouping the separated lines of slides without empty lines gives the slides back |
| ProPresenter.FormatLines | crates/core/src/propresenter.rs:43-54 | the lines of the formatted text are the slides' lines, with an empty line between consecutive slides |
| ProPresenter.FormatRoundTrip | crates/core/src/propresenter.rs:43-54 | reading the text back as blank-line-separated blocks of lines gives the slides, whose concatenation is the input |
| WorkerWasm.ExtensionOf | crates/worker-wasm/src/lib.rs:68-70 | the longest suffix without a '.', which follows the last '.' when there is one |
| WorkerWasm.ExtensionOfName | crates/worker-wasm/src/lib.rs:68-70 | the extension of "stem.ext" is "ext", whatever dots the stem holds |
| WorkerWasm.PrefixOfHead | crates/worker-wasm/src/lib.rs:66 | testing a signature against the first eight bytes is testing it against the data |
| WorkerWasm.DetectFormat | crates/worker-wasm/src/lib.rs:59-73 | data under eight bytes is too small, and that is the only cause of that error; the ZIP signature gives Pptx, then the compound-file signature gives Ppt, then the extension decides, and otherwise the format is undetected |
| WorkerWasm.DetectFromName | crates/worker-wasm/src/lib.rs:66-73 | without a known signature, "pptx" or "ppt" in any case as the extension decides, and any other extension is undetected |
| WorkerWasm.FormatForProPresenter | crates/worker-wasm/src/lib.rs:132-171 | the count, corrected to use the clamped lines-per-slide the formatter uses, is the title slide plus the formatter's slides; without a title the text is the formatter's text with a final newline; with one, the text starts with the title line and ends with a newline |
| WorkerWasm.OutputBlocks | crates/worker-wasm/src/lib.rs:132-171 | read back as blank-line-separated blocks, the text is the title slide followed by the lyric slides, and the slide count is the number of blocks |
| WorkerWasm.LyricSlideCountAsWritten | crates/worker-wasm/src/lib.rs:162-166 | the count divides by the unclamped lines-per-slide, so 0 with any lines panics; the sum wraps at 2^32 |
| WorkerWasm.FormatForProPresenterAsWritten | crates/worker-wasm/src/lib.rs:132-171 | the code as written panics exactly when there are lines and lines-per-slide is 0; otherwise its text is the model's |
| WorkerWasm.AsWrittenAgrees | crates/worker-wasm/src/lib.rs:162-168 | where the code neither divides by zero nor wraps, it agrees with the model |
| WorkerWasm.AsWrittenPanicsOnZero | crates/worker-wasm/src/lib.rs:165 | one line with lines-per-slide 0 panics as written, yet the text has one slide |
| WorkerWasm.AsWrittenWrapsCount | crates/worker-wasm/src/lib.rs:165 | with lines-per-slide 2^32 - 1, two lines make one slide of text but are counted as none |

## Left out

- Opening the containers: the ZIP archive, the compound file, and reading streams (`ZipArchive::new`, `CompoundFile::open`, `read_powerpoint_stream`, `read_file_from_archive`). An opened archive is `PptxParser.Package`: the XML events of each readable part. An opened compound file is `PptParser.CompoundFile`: its streams' bytes. A failure to open is the `None` case of `PptParser.ParsePpt`'s argument.
- The "Current User" stream check of `validate_cfb_structure`: it only logs, so it has no effect.
- Logging (`log::debug!`, `log::warn!`) throughout, including the warning when a PPT yields no text.
- The XML tokenizer (quick_xml): entity unescaping, `trim_text(true)`, and the byte-level reading of names and attributes. Slide XML is a sequence of `XmlEvents.XmlEvent` values. A tokenizer error is the `Malformed` event: the relationship loop fails on it, and the shape loop skips it as the source does after logging. quick_xml's attribute iterator rejects a repeated attribute name with an error, which `.flatten()` at crates/pptx/src/parser.rs:54 drops, so the first value wins. A tag that repeats an attribute is therefore an input the real reader never passes to the attribute loop, and `XmlEvents.LastValue` says nothing about it.
- PptxNames.ParseCoord: reads a coordinate as an optional sign and decimal digits only. `parse::<f64>` also accepts fractions, exponents, "inf" and "NaN", and coordinates are `f64`. Positions are integers here, so the NaN case of `partial_cmp(...).unwrap_or(Equal)` in `sort_by_position` is not modelled.
- Chars.ToLower: lower-cases only Latin-1 (U+0000 to U+00FF) and is the identity above. `char::is_alphanumeric` and `char::is_alphabetic` (`Chars.IsAlphanumeric`, `Chars.IsAlphabetic`) are likewise exact only below U+0100: in "Ж’Ж" the source keeps the apostrophe between the two Cyrillic letters, and the model drops it. `char::is_whitespace` is exact.
- TitleMatch.Similarity: computes with exact rationals (`real`), where the source uses `f64`. Rounding in the Jaccard ratio and the 0.7 threshold of `is_likely_title` is not modelled.
- The regular-expression engine: the whitespace regex and the filename-suffix regex are rewritten as the string functions `NormalizeLine.Collapse` and `TitleMatch.StripFilenameSuffix`. The `regex` crate's matching engine itself is not modelled; each function states what its pattern matches.
- PptxNames.ExtractSlideNumber: uses a 64-bit `usize`, as on the native targets. WorkerWasm.LyricSlideCountAsWritten uses the 32-bit `usize` of `wasm32`.
- The rest of `extract_presentation_impl` after format detection: running the chosen parser and the normalizer, which are modelled on their own. The serialization of `ExtractionResult` and `FormatResult`, and the wasm-bindgen and serde_wasm_bindgen glue of `extract_presentation` and `format_for_propresenter`, are also left out.
- Integer overflow in the legacy record walk: offsets are unbounded, whereas `pos + 8 + len` is a `usize` sum. On 64-bit targets it cannot wrap for streams that fit in memory.
- `ProPresenterFormatter::default` and the `Default` of `TextNormalizer` are the constants `ProPresenter.New()` and `NormalizeLine.DEFAULT`. `TextNormalizer::new` is `NormalizeLine.NEW`. The derived `Default` sets `preserve_line_breaks` to false, while `new` sets it to true.
- WorkerWasm.FormatForProPresenter: counts slides with the clamped lines-per-slide the formatter uses. The division by the unclamped `usize` value at crates/worker-wasm/src/lib.rs:165, with its division by zero and 32-bit wrap-around, is `WorkerWasm.FormatForProPresenterAsWritten`.

The model follows the code, including where the code looks wrong (see "## Findings"): the PowerPoint reader uses the slide-text filter as written (`PptText.IsValidSlideTextAsWritten`), and the normalizer uses the punctuation table as written (`NormalizeLine.IsPunctuationAsWritten`). The intended versions are separate definitions with their own lemmas. The one exception is the worker's slide count, described above.

Two behaviours of the code a reader might not expect:

- Placeholder detection (`is_valid_slide_text`) looks for twelve fixed fragments, each matched with its exact case (`PptText.TEMPLATE_PATTERNS`).
- In line-preserving mode, applying `normalize_line` twice can give a different result from applying it once: "a\n\n" gives "a\n", and "a\n" gives "a".

## Findings

| source | as written | input that shows it | evidently intended | confidence | as-written member | corrected member |
|---|---|---|---|---|---|---|
| crates/core/src/normalize.rs:23 | the punctuation table lists U+0022 three times where the comment shows straight, left and right double quotes | "\u{201C}Holy\u{201D}" keeps both curly quotes | the left and right double quotation marks U+201C and U+201D are removed like '"' | medium, not executed | NormalizeLine.AsWrittenKeepsCurlyQuotes | NormalizeLine.CurlyQuotesRemoved |
| crates/ppt/src/parser.rs:501 | `trimmed.len() == 1` compares the UTF-8 byte length, so a lone non-ASCII symbol is never treated as a single character | a text atom holding the byte 0x95, which decodes to "•" (three UTF-8 bytes), is kept as slide text | a lone non-alphanumeric character is dropped whatever its encoding | high, not executed | PptText.BulletPassesAsWritten | PptText.IsValidSlideTextMeaning |
| crates/worker-wasm/src/lib.rs:165 | the slide count divides by `lines_per_slide` before it is clamped to at least 1 | `lines = ["Only line"]`, `lines_per_slide = 0` panics with a division by zero, while the formatter clamps to 1 and produces "Only line\n" | the count uses the same clamped value the formatter uses, giving 1 | high, not executed | WorkerWasm.AsWrittenPanicsOnZero | WorkerWasm.OutputBlocks |
| crates/worker-wasm/src/lib.rs:165 | `lines.len() + lines_per_slide - 1` is a `usize` sum, which is 32 bits on `wasm32` | two lines with `lines_per_slide = 4294967295`: the sum wraps to 0 in a release build (a debug build panics), so the text has one slide but the count is 0 | a ceiling division that cannot overflow, giving 1 | medium, not executed | WorkerWasm.AsWrittenWrapsCount | WorkerWasm.FormatForProPresenter |

=== FILE: src/bytes.dfy ===
/**
 * Bytes and the little-endian integer reads of the legacy parser
 * (`read_u16_le`, `read_u32_le`), with the matching writes.
 */
module Bytes {

  type byte = b: int | 0 <= b < 256

  const U16_LIMIT: int := 0x1_0000
  const U32_LIMIT: int := 0x1_0000_0000

  /** `read_u16_le`: bytes `off` and `off + 1`, least significant first. */
  function ReadU16Le(data: seq<byte>, off: nat): (v: nat)
    requires off + 2 <= |data|
    ensures v < U16_LIMIT
  {
    data[off] as int + 256 * (data[off + 1] as int)
  }

  /** The low byte of the value is at `off`, the high byte at `off + 1`. */
  lemma ReadU16LeBytes(data: seq<byte>, off: nat)
    requires off + 2 <= |data|
    ensures var v := ReadU16Le(data, off); v % 256 == data[off] && v / 256 == data[off + 1]
  {
  }

  /** `read_u32_le`: bytes `off` .. `off + 3`, least significant first. */
  function ReadU32Le(data: seq<byte>, off: nat): (v: nat)
    requires off + 4 <= |data|
    ensures v < U32_LIMIT
  {
    ReadU16Le(data, off) + U16_LIMIT * ReadU16Le(data, off + 2)
  }

  /** The low half of the value is the 16-bit value at `off`, the high half the one at `off + 2`. */
  lemma ReadU32LeHalves(data: seq<byte>, off: nat)
    requires off + 4 <= |data|
    ensures var v := ReadU32Le(data, off);
      v % U16_LIMIT == ReadU16Le(data, off) && v / U16_LIMIT == ReadU16Le(data, off + 2)
  {
  }

  /** The two bytes of `v`, least significant first. */
  function WriteU16Le(v: nat): (bs: seq<byte>)
    requires v < U16_LIMIT
    ensures |bs| == 2
  {
    [v % 256, v / 256]
  }

  /** The four bytes of `v`, least significant first. */
  function WriteU32Le(v: nat): (bs: seq<byte>)
    requires v < U32_LIMIT
    ensures |bs| == 4
  {
    WriteU16Le(v % U16_LIMIT) + WriteU16Le(v / U16_LIMIT)
  }

  /** Reading back what was written gives the value, whatever surrounds it. */
  lemma ReadWriteU16(pre: seq<byte>, v: nat, post: seq<byte>)
    requires v < U16_LIMIT
    ensures ReadU16Le(pre + WriteU16Le(v) + post, |pre|) == v
  {
    var d := pre + WriteU16Le(v) + post;
    assert d[|pre|] == v % 256 && d[|pre| + 1] == v / 256;
  }

  lemma ReadWriteU32(pre: seq<byte>, v: nat, post: seq<byte>)
    requires v < U32_LIMIT
    ensures ReadU32Le(pre + WriteU32Le(v) + post, |pre|) == v
  {
    var lo, hi := WriteU16Le(v % U16_LIMIT), WriteU16Le(v / U16_LIMIT);
    assert pre + WriteU32Le(v) + post == pre + lo + (hi + post);
    ReadWriteU16(pre, v % U16_LIMIT, hi + post);
    assert pre + WriteU32Le(v) + post == (pre + lo) + hi + post;
    ReadWriteU16(pre + lo, v / U16_LIMIT, post);
  }

  /** Writing what was read gives the bytes back. */
  lemma WriteReadU32(data: seq<byte>, off: nat)
    requires off + 4 <= |data|
    ensures WriteU32Le(ReadU32Le(data, off)) == data[off..off + 4]
  {
    var v := ReadU32Le(data, off);
    ReadU32LeHalves(data, off);
    ReadU16LeBytes(data, off);
    ReadU16LeBytes(data, off + 2);
    assert WriteU16Le(v % U16_LIMIT) == [data[off], data[off + 1]];
    assert WriteU16Le(v / U16_LIMIT) == [data[off + 2], data[off + 3]];
  }
}

=== FILE: src/chars.dfy ===
/**
 * Character classes used by the Rust standard library calls of the source
 * (`char::is_whitespace`, `is_alphabetic`, `is_numeric`, `to_lowercase`) and
 * the UTF-8 width behind `str::len`.
 *
 * White_Space is the full Unicode property. Alphabetic, Numeric and the
 * lower-case mapping are exact for code points below U+0100 (ASCII and
 * Latin-1) and treat every higher code point as neither a letter nor a digit
 * and as its own lower case.
 */
module Chars {

  /** Unicode White_Space, the class behind `trim`, `split_whitespace` and regex `\s`. */
  predicate IsWhitespace(c: char)
  {
    || ('\U{0009}' <= c <= '\U{000D}')
    || c == '\U{0020}'
    || c == '\U{0085}'
    || c == '\U{00A0}'
    || c == '\U{1680}'
    || ('\U{2000}' <= c <= '\U{200A}')
    || c == '\U{2028}'
    || c == '\U{2029}'
    || c == '\U{202F}'
    || c == '\U{205F}'
    || c == '\U{3000}'
  }

  predicate IsAsciiDigit(c: char)
  {
    '0' <= c <= '9'
  }

  predicate IsAsciiUpper(c: char)
  {
    'A' <= c <= 'Z'
  }

  predicate IsAsciiLower(c: char)
  {
    'a' <= c <= 'z'
  }

  /** Unicode Alphabetic restricted to U+0000..U+00FF. */
  predicate IsAlphabetic(c: char)
  {
    || IsAsciiUpper(c)
    || IsAsciiLower(c)
    || c == '\U{00AA}'
    || c == '\U{00B5}'
    || c == '\U{00BA}'
    || ('\U{00C0}' <= c <= '\U{00D6}')
    || ('\U{00D8}' <= c <= '\U{00F6}')
    || ('\U{00F8}' <= c <= '\U{00FF}')
  }

  /** Unicode general category N (Nd, Nl, No) restricted to U+0000..U+00FF. */
  predicate IsNumeric(c: char)
  {
    || IsAsciiDigit(c)
    || c == '\U{00B2}'
    || c == '\U{00B3}'
    || c == '\U{00B9}'
    || ('\U{00BC}' <= c <= '\U{00BE}')
  }

  predicate IsAlphanumeric(c: char)
  {
    IsAlphabetic(c) || IsNumeric(c)
  }

  /** Upper-case letters of Latin-1: A-Z and U+00C0..U+00DE without the multiplication sign. */
  predicate IsUpperLatin1(c: char)
  {
    IsAsciiUpper(c) || ('\U{00C0}' <= c <= '\U{00DE}' && c != '\U{00D7}')
  }

  /** Lower-case mapping of one character. */
  function ToLower(c: char): (r: char)
    ensures !IsUpperLatin1(r)
    ensures IsAlphanumeric(c) <==> IsAlphanumeric(r)
    ensures IsWhitespace(c) <==> IsWhitespace(r)
    ensures IsUpperLatin1(c) ==> r as int == c as int + 32
    ensures !IsUpperLatin1(c) ==> r == c
  {
    if IsUpperLatin1(c) then (c as int + 32) as char else c
  }

  /** Lower-case mapping of a string, one character at a time. */
  function ToLowerString(s: string): (r: string)
    ensures |r| == |s|
    ensures forall i :: 0 <= i < |s| ==> r[i] == ToLower(s[i])
  {
    seq(|s|, i requires 0 <= i < |s| => ToLower(s[i]))
  }

  /** Number of bytes of the UTF-8 encoding of `c`. */
  function Utf8Width(c: char): (w: nat)
    ensures 1 <= w <= 4
    ensures w == 1 <==> c as int < 0x80
  {
    if c as int < 0x80 then 1
    else if c as int < 0x800 then 2
    else if c as int < 0x1_0000 then 3
    else 4
  }

  /** Rust's `str::len`: the length of the UTF-8 encoding, in bytes. */
  function ByteLen(s: string): (n: nat)
    ensures |s| <= n <= 4 * |s|
    ensures n == 0 <==> |s| == 0
  {
    if |s| == 0 then 0 else Utf8Width(s[0]) + ByteLen(s[1..])
  }

  lemma {:induction false} ByteLenAppend(a: string, b: string)
    ensures ByteLen(a + b) == ByteLen(a) + ByteLen(b)
  {
    if |a| > 0 {
      assert (a + b)[1..] == a[1..] + b;
      ByteLenAppend(a[1..], b);
    } else {
      assert a + b == b;
    }
  }

  /** A string is ASCII iff its byte length equals its character count. */
  lemma {:induction false} ByteLenIsCharCountIffAscii(s: string)
    ensures ByteLen(s) == |s| <==> forall i :: 0 <= i < |s| ==> s[i] as int < 0x80
  {
    if |s| > 0 {
      ByteLenIsCharCountIffAscii(s[1..]);
      assert forall i :: 1 <= i < |s| ==> s[i] == s[1..][i - 1];
    }
  }
}

=== FILE: src/cp1252.dfy ===
/**
 * The Windows-1252 byte-to-character table the legacy text atoms are decoded
 * with (crates/ppt/src/parser.rs, `extract_ansi_text`). The five bytes the
 * table leaves unassigned (0x81, 0x8D, 0x8F, 0x90, 0x9D) decode to '?'.
 */
module Cp1252 {
  import opened Wrappers
  import opened Bytes

  /** The assignments of the 0x80..0x9F block; the unassigned bytes become '?'. */
  function DecodeHigh(b: byte): char
  {
    match b
    case 0x80 => '\U{20AC}'
    case 0x82 => '\U{201A}'
    case 0x83 => '\U{0192}'
    case 0x84 => '\U{201E}'
    case 0x85 => '\U{2026}'
    case 0x86 => '\U{2020}'
    case 0x87 => '\U{2021}'
    case 0x88 => '\U{02C6}'
    case 0x89 => '\U{2030}'
    case 0x8A => '\U{0160}'
    case 0x8B => '\U{2039}'
    case 0x8C => '\U{0152}'
    case 0x8E => '\U{017D}'
    case 0x91 => '\U{2018}'
    case 0x92 => '\U{2019}'
    case 0x93 => '\U{201C}'
    case 0x94 => '\U{201D}'
    case 0x95 => '\U{2022}'
    case 0x96 => '\U{2013}'
    case 0x97 => '\U{2014}'
    case 0x98 => '\U{02DC}'
    case 0x99 => '\U{2122}'
    case 0x9A => '\U{0161}'
    case 0x9B => '\U{203A}'
    case 0x9C => '\U{0153}'
    case 0x9E => '\U{017E}'
    case 0x9F => '\U{0178}'
    case _ => '?'
  }

  /** The same assignments read backwards. */
  function EncodeHigh(c: char): Option<byte>
  {
    match c
    case '\U{20AC}' => Some(0x80)
    case '\U{201A}' => Some(0x82)
    case '\U{0192}' => Some(0x83)
    case '\U{201E}' => Some(0x84)
    case '\U{2026}' => Some(0x85)
    case '\U{2020}' => Some(0x86)
    case '\U{2021}' => Some(0x87)
    case '\U{02C6}' => Some(0x88)
    case '\U{2030}' => Some(0x89)
    case '\U{0160}' => Some(0x8A)
    case '\U{2039}' => Some(0x8B)
    case '\U{0152}' => Some(0x8C)
    case '\U{017D}' => Some(0x8E)
    case '\U{2018}' => Some(0x91)
    case '\U{2019}' => Some(0x92)
    case '\U{201C}' => Some(0x93)
    case '\U{201D}' => Some(0x94)
    case '\U{2022}' => Some(0x95)
    case '\U{2013}' => Some(0x96)
    case '\U{2014}' => Some(0x97)
    case '\U{02DC}' => Some(0x98)
    case '\U{2122}' => Some(0x99)
    case '\U{0161}' => Some(0x9A)
    case '\U{203A}' => Some(0x9B)
    case '\U{0153}' => Some(0x9C)
    case '\U{017E}' => Some(0x9E)
    case '\U{0178}' => Some(0x9F)
    case _ => None
  }

  predicate IsUnassigned(b: byte)
  {
    b == 0x81 || b == 0x8D || b == 0x8F || b == 0x90 || b == 0x9D
  }

  /** Bytes outside 0x80..0x9F stand for the code point of the same value. */
  predicate IsIdentityByte(b: byte)
  {
    b < 0x80 || 0xA0 <= b
  }

  function DecodeByte(b: byte): (c: char)
    ensures IsIdentityByte(b) ==> c as int == b
    ensures IsUnassigned(b) ==> c == '?'
    ensures c == '\0' <==> b == 0
  {
    if IsIdentityByte(b) then b as char
    else DecodeHigh(b)
  }

  /** The byte a character is written as, if the table has one. */
  function EncodeChar(c: char): (r: Option<byte>)
    ensures r.Some? ==> !IsUnassigned(r.value)
  {
    if c as int < 0x80 || (0xA0 <= c as int < 0x100) then Some(c as int)
    else EncodeHigh(c)
  }

  /** Every assigned byte decodes to a character that encodes back to it. */
  lemma EncodeDecodeByte(b: byte)
    requires !IsUnassigned(b)
    ensures EncodeChar(DecodeByte(b)) == Some(b)
  {
  }

  /** Every character the table can write decodes back to itself. */
  lemma DecodeEncodeChar(c: char)
    requires EncodeChar(c).Some?
    ensures DecodeByte(EncodeChar(c).value) == c
  {
  }

  function DecodeBytes(bs: seq<byte>): (s: string)
    ensures |s| == |bs|
    ensures forall i :: 0 <= i < |bs| ==> s[i] == DecodeByte(bs[i])
  {
    seq(|bs|, i requires 0 <= i < |bs| => DecodeByte(bs[i]))
  }

  predicate Encodable(s: string)
  {
    forall i :: 0 <= i < |s| ==> EncodeChar(s[i]).Some?
  }

  function EncodeString(s: string): (bs: seq<byte>)
    requires Encodable(s)
    ensures |bs| == |s|
    ensures forall i :: 0 <= i < |s| ==> bs[i] == EncodeChar(s[i]).value
  {
    seq(|s|, i requires 0 <= i < |s| => EncodeChar(s[i]).value)
  }

  lemma DecodeEncodeString(s: string)
    requires Encodable(s)
    ensures DecodeBytes(EncodeString(s)) == s
  {
    forall i | 0 <= i < |s| ensures DecodeBytes(EncodeString(s))[i] == s[i] {
      DecodeEncodeChar(s[i]);
    }
  }

  /** A NUL-free string is written without zero bytes. */
  lemma EncodeStringNoZero(s: string)
    requires Encodable(s) && '\0' !in s
    ensures 0 !in EncodeString(s)
  {
    forall i | 0 <= i < |s| ensures EncodeString(s)[i] != 0 {
      DecodeEncodeChar(s[i]);
    }
  }
}

=== FILE: src/errors.dfy ===
/** The error kinds of the extraction core (crates/core/src/error.rs), without their message text. */
module Errors {

  datatype Error =
    | IoError            // the input could not be read
    | UnsupportedFormat  // the format is not supported or could not be recognized
    | PptxParseError
    | PptParseError
    | ExtractionError
    | CorruptedFile      // too small a stream, or too many malformed records
    | ZipError           // the zip archive or one of its members could not be read
    | XmlError           // the relationship part is not well-formed XML
    | CfbError           // the compound-file container could not be opened or read
}

=== FILE: src/normalize_clean.dfy ===
/**
 * Lines the normalizer leaves as they are, and the apostrophe examples of
 * normalize.rs's tests, stated on the whole output of `normalize_line` with
 * the punctuation table as written.
 */
module NormalizeClean {
  import opened Chars
  import opened Strings
  import opened Seqs
  import opened NormalizeLine

  /** Text without carriage returns keeps its line endings as they are. */
  lemma {:induction false} EndingsByBreakIdentity(s: string)
    requires '\r' !in s
    ensures EndingsByBreak(s) == s
  {
    if |s| > 0 {
      assert '\r' !in s[1..];
      EndingsByBreakIdentity(s[1..]);
      assert s == [s[0]] + s[1..];
    }
  }

  /** A string with no tab and no two blanks in a row collapses to itself. */
  lemma {:induction false} CollapseClean(s: string)
    requires NoBlankRun(s) && '\t' !in s
    ensures Collapse(s) == s
    decreases |s|
  {
    if |s| > 0 {
      var t := s[1..];
      CleanTail(s);
      CollapseClean(t);
      if IsBlank(s[0]) {
        assert DropBlanks(t) == t by {
          CleanAfterBlank(s);
        }
        assert Collapse(s) == " " + Collapse(t);
        assert s == " " + t;
      } else {
        assert s == [s[0]] + t;
      }
    }
  }

  lemma CleanTail(s: string)
    requires |s| > 0 && NoBlankRun(s) && '\t' !in s
    ensures NoBlankRun(s[1..]) && '\t' !in s[1..]
  {
    var t := s[1..];
    forall i | 0 < i < |t| ensures !(IsBlank(t[i - 1]) && IsBlank(t[i])) {
      assert t[i - 1] == s[i] && t[i] == s[i + 1];
    }
  }

  lemma CleanAfterBlank(s: string)
    requires |s| > 0 && NoBlankRun(s) && IsBlank(s[0])
    ensures |s| == 1 || !IsBlank(s[1])
  {
    if |s| > 1 {
      assert !(IsBlank(s[0]) && IsBlank(s[1]));
    }
  }

  /** A non-empty string without line breaks is one line. */
  lemma LinesSingle(s: string)
    requires |s| > 0 && '\n' !in s
    ensures Lines(s) == [s]
  {
    SplitNoSeparator(s, '\n');
    var p := Split(s, '\n');
    assert p[..|p| - 1] == [];
  }

  /**
   * When the character loop already yields one clean line (no line break, no
   * tab, no blank at either end, no two blanks in a row), both modes return it unchanged.
   */
  lemma NormalizeSingleLine(punct: char -> bool, text: string, s: string)
    requires '\r' !in text && Strip(punct, text) == s
    requires |s| > 0 && '\n' !in s && '\t' !in s && IsTrimmed(s) && NoBlankRun(s)
    ensures NormalizeLineWith(punct, true, text) == s
    ensures NormalizeLineWith(punct, false, text) == s
  {
    NormalizeEndingsByBreak(text);
    EndingsByBreakIdentity(text);
    assert Stripped(punct, text) == s;
    CollapseClean(s);
    TrimTrimmed(s);
    LinesSingle(s);
    assert CleanLines(punct, text) == [s];
  }

  /** The character loop over characters that are neither punctuation nor apostrophe-like copies them. */
  lemma {:induction false} StripRangePlain(punct: char -> bool, cs: string, lo: nat, hi: nat)
    requires lo <= hi <= |cs|
    requires forall k :: lo <= k < hi ==> !punct(cs[k]) && !IsApostrophe(cs[k])
    ensures StripRange(punct, cs, lo, hi) == cs[lo..hi]
    decreases hi - lo
  {
    if lo < hi {
      StripRangePlain(punct, cs, lo + 1, hi);
      assert cs[lo..hi] == [cs[lo]] + cs[lo + 1..hi];
    }
  }

  // ---------------------------------------------------------------- lines that are already clean

  /** A single line as the normalizer leaves it. */
  predicate IsCleanLine(s: string)
  {
    |s| > 0 && '\n' !in s && '\t' !in s && IsTrimmed(s) && NoBlankRun(s)
  }

  /** Two clean lines joined by one space make a clean line. */
  lemma CleanLineJoin(a: string, b: string)
    requires IsCleanLine(a) && IsCleanLine(b)
    ensures IsCleanLine(a + " " + b)
  {
    var s := a + " " + b;
    assert s[0] == a[0] && s[|s| - 1] == b[|b| - 1];
    forall i | 0 < i < |s| ensures !(IsBlank(s[i - 1]) && IsBlank(s[i])) {
      if i < |a| {
        assert s[i - 1] == a[i - 1] && s[i] == a[i];
      } else if i == |a| {
        assert s[i - 1] == a[|a| - 1];
      } else if i == |a| + 1 {
        assert s[i] == b[0];
      } else {
        assert s[i - 1] == b[i - |a| - 2] && s[i] == b[i - |a| - 1];
      }
    }
  }

  /** ASCII letters and the space are plain for the table as written and not apostrophe-like. */
  predicate IsLetterOrSpace(c: char)
  {
    IsAsciiUpper(c) || IsAsciiLower(c) || c == ' '
  }

  lemma LetterOrSpacePlain(c: char)
    requires IsLetterOrSpace(c)
    ensures !IsPunctuationAsWritten(c) && !IsApostrophe(c) && c != '\r'
  {
  }

  /** The character loop copies a run of letters and spaces. */
  lemma StripLetters(cs: string, lo: nat, hi: nat)
    requires lo <= hi <= |cs|
    requires forall k :: lo <= k < hi ==> IsLetterOrSpace(cs[k])
    ensures StripRange(IsPunctuationAsWritten, cs, lo, hi) == cs[lo..hi]
  {
    forall k | lo <= k < hi ensures !IsPunctuationAsWritten(cs[k]) && !IsApostrophe(cs[k]) {
      LetterOrSpacePlain(cs[k]);
    }
    StripRangePlain(IsPunctuationAsWritten, cs, lo, hi);
  }

  /**
   * A line of letters and spaces that starts with an apostrophe-like
   * character loses it and is otherwise kept.
   */
  lemma LeadingApostropheLine(cs: string)
    requires |cs| > 0 && IsApostrophe(cs[0]) && !IsPunctuationAsWritten(cs[0])
    requires forall k :: 1 <= k < |cs| ==> IsLetterOrSpace(cs[k])
    requires IsCleanLine(cs[1..])
    ensures Line(NEW, cs) == cs[1..] && Line(DEFAULT, cs) == cs[1..]
  {
    StripApostrophe(IsPunctuationAsWritten, cs, 0);
    StripLetters(cs, 1, |cs|);
    forall k | 0 <= k < |cs| ensures cs[k] != '\r' {
      if k > 0 {
        LetterOrSpacePlain(cs[k]);
      }
    }
    NormalizeSingleLine(IsPunctuationAsWritten, cs, cs[1..]);
  }

  /**
   * In a line of letters and spaces, an apostrophe-like character between two
   * letters becomes one ASCII apostrophe.
   */
  lemma InnerApostropheLine(cs: string, i: nat)
    requires i < |cs| && IsApostrophe(cs[i]) && !IsPunctuationAsWritten(cs[i]) && InsideWord(cs, i)
    requires forall k :: 0 <= k < |cs| && k != i ==> IsLetterOrSpace(cs[k])
    requires IsCleanLine(cs[..i] + "'" + cs[i + 1..])
    ensures var r := cs[..i] + "'" + cs[i + 1..]; Line(NEW, cs) == r && Line(DEFAULT, cs) == r
  {
    forall k | 0 <= k < |cs| && k != i ensures !IsPunctuationAsWritten(cs[k]) && !IsApostrophe(cs[k]) {
      LetterOrSpacePlain(cs[k]);
    }
    InnerApostropheStrip(IsPunctuationAsWritten, cs, i);
    LettersNoCr(cs, i);
    NormalizeSingleLine(IsPunctuationAsWritten, cs, cs[..i] + "'" + cs[i + 1..]);
  }

  /** The character loop over plain characters around one apostrophe between letters. */
  lemma InnerApostropheStrip(punct: char -> bool, cs: string, i: nat)
    requires i < |cs| && IsApostrophe(cs[i]) && !punct(cs[i]) && InsideWord(cs, i)
    requires forall k :: 0 <= k < |cs| && k != i ==> !punct(cs[k]) && !IsApostrophe(cs[k])
    ensures Strip(punct, cs) == cs[..i] + "'" + cs[i + 1..]
  {
    StripApostrophe(punct, cs, i);
    assert StripRange(punct, cs, 0, i) == cs[..i] by {
      StripRangePlain(punct, cs, 0, i);
      assert cs[0..i] == cs[..i];
    }
    assert StripRange(punct, cs, i + 1, |cs|) == cs[i + 1..] by {
      StripRangePlain(punct, cs, i + 1, |cs|);
    }
  }

  /** Letters, spaces and one apostrophe-like character hold no carriage return. */
  lemma LettersNoCr(cs: string, i: nat)
    requires i < |cs| && IsApostrophe(cs[i])
    requires forall k :: 0 <= k < |cs| && k != i ==> IsLetterOrSpace(cs[k])
    ensures '\r' !in cs
  {
    forall k | 0 <= k < |cs| ensures cs[k] != '\r' {
      if k != i {
        LetterOrSpacePlain(cs[k]);
      }
    }
  }

  // ---------------------------------------------------------------- examples

  /** The characters of "'Tis the season". */
  lemma TisTheSeasonChars(cs: string)
    requires cs == "'Tis the season"
    ensures |cs| > 0 && IsApostrophe(cs[0]) && !IsPunctuationAsWritten(cs[0])
    ensures forall k :: 1 <= k < |cs| ==> IsLetterOrSpace(cs[k])
  {
  }

  /** "Tis the season" is already a clean line. */
  lemma TisTheSeasonClean(cs: string)
    requires cs == "'Tis the season"
    ensures cs[1..] == "Tis the season" && IsCleanLine(cs[1..])
  {
    assert cs[1..] == "Tis" + " " + "the season";
    assert IsCleanLine("Tis");
    TheSeasonClean();
    CleanLineJoin("Tis", "the season");
  }

  lemma TheSeasonClean()
    ensures IsCleanLine("the season")
  {
    assert "the season" == "the" + " " + "season";
    assert IsCleanLine("the") && IsCleanLine("season");
    CleanLineJoin("the", "season");
  }

  /** "'Tis the season": an apostrophe at the start of a word is dropped, the rest is kept. */
  lemma LeadingApostropheDropped()
    ensures Line(NEW, "'Tis the season") == "Tis the season"
    ensures Line(DEFAULT, "'Tis the season") == "Tis the season"
  {
    var cs := "'Tis the season";
    TisTheSeasonChars(cs);
    TisTheSeasonClean(cs);
    LeadingApostropheLine(cs);
  }

  /** "don't": an ASCII apostrophe between letters is kept. */
  lemma AsciiApostropheInWord()
    ensures Line(NEW, "don't") == "don't" && Line(DEFAULT, "don't") == "don't"
  {
    var cs := "don't";
    assert cs[..3] + "'" + cs[4..] == "don't";
    assert IsCleanLine("don't");
    InnerApostropheLine(cs, 3);
  }

  /** "don\u{2019}t": a curly apostrophe between letters becomes a straight one. */
  lemma CurlyApostropheInWord()
    ensures Line(NEW, "don\U{2019}t") == "don't" && Line(DEFAULT, "don\U{2019}t") == "don't"
  {
    var cs := "don\U{2019}t";
    assert cs[..3] + "'" + cs[4..] == "don't";
    assert IsCleanLine("don't");
    InnerApostropheLine(cs, 3);
  }
}

=== FILE: src/normalize_line.dfy ===
/**
 * Line normalization of lyric text: line endings, punctuation removal,
 * in-word apostrophes, runs of spaces and tabs, and trimming, as done by
 * `TextNormalizer::normalize_line` and `normalize_to_lines`.
 *
 * The punctuation table is a parameter (a predicate on characters) so that
 * the table as written (three identical straight quotation marks) and the
 * intended table (straight, left and right double quotation marks) can both
 * be stated; the rest of the model uses the table as written, and the
 * intended one appears only in the statements about the correction.
 */
module NormalizeLine {
  import opened Chars
  import opened Strings
  import opened Seqs

  /** The punctuation table as written: the three quotation-mark entries are all U+0022. */
  predicate IsPunctuationAsWritten(c: char)
  {
    || c == '.' || c == ',' || c == ';' || c == ':' || c == '?' || c == '!'
    || c == '"' || c == '"' || c == '"'
    || c == '\U{201E}' || c == '\U{201A}'
    || c == '\U{00AB}' || c == '\U{00BB}' || c == '\U{2039}' || c == '\U{203A}'
    || c == '(' || c == ')' || c == '[' || c == ']' || c == '{' || c == '}' || c == '<' || c == '>'
    || c == '\U{2014}' || c == '\U{2013}' || c == '-'
    || c == '/' || c == '\\' || c == '|'
    || c == '@' || c == '#' || c == '$' || c == '%' || c == '^' || c == '&' || c == '*' || c == '_'
    || c == '+' || c == '=' || c == '~' || c == '`'
  }

  /** The punctuation table as intended: U+0022, U+201C and U+201D as the quotation marks. */
  predicate IsPunctuation(c: char)
  {
    || c == '.' || c == ',' || c == ';' || c == ':' || c == '?' || c == '!'
    || c == '"' || c == '\U{201C}' || c == '\U{201D}'
    || c == '\U{201E}' || c == '\U{201A}'
    || c == '\U{00AB}' || c == '\U{00BB}' || c == '\U{2039}' || c == '\U{203A}'
    || c == '(' || c == ')' || c == '[' || c == ']' || c == '{' || c == '}' || c == '<' || c == '>'
    || c == '\U{2014}' || c == '\U{2013}' || c == '-'
    || c == '/' || c == '\\' || c == '|'
    || c == '@' || c == '#' || c == '$' || c == '%' || c == '^' || c == '&' || c == '*' || c == '_'
    || c == '+' || c == '=' || c == '~' || c == '`'
  }

  /** Apostrophe-like characters; the backtick is also punctuation, which is checked first. */
  predicate IsApostrophe(c: char)
  {
    c == '\'' || c == '\U{2019}' || c == '\U{2018}' || c == '`'
  }

  /** A character the normalizer passes through unchanged wherever it stands. */
  predicate IsPlain(punct: char -> bool, c: char)
  {
    !punct(c) && !IsApostrophe(c) && !IsWhitespace(c)
  }

  /** A character that may appear in the output of a normalizer with table `punct`. */
  predicate MayRemain(punct: char -> bool, c: char)
  {
    c == '\'' || c == ' ' || c == '\n' || (!punct(c) && !IsApostrophe(c) && c != '\r' && c != '\t')
  }

  // ---------------------------------------------------------------- line endings

  /** `replace("\r\n", "\n")`, scanning left to right. */
  function ReplaceCrLf(s: string): (r: string)
    ensures |r| <= |s|
    ensures forall c :: c in r ==> c in s
  {
    if |s| == 0 then ""
    else if |s| >= 2 && s[0] == '\r' && s[1] == '\n' then "\n" + ReplaceCrLf(s[2..])
    else [s[0]] + ReplaceCrLf(s[1..])
  }

  /** `replace('\r', "\n")`. */
  function ReplaceCr(s: string): (r: string)
    ensures |r| == |s| && '\r' !in r
    ensures forall i :: 0 <= i < |s| ==> r[i] == if s[i] == '\r' then '\n' else s[i]
  {
    seq(|s|, i requires 0 <= i < |s| => if s[i] == '\r' then '\n' else s[i])
  }

  /** The two replacements `normalize_line` starts with. */
  function NormalizeEndings(s: string): (r: string)
  {
    ReplaceCr(ReplaceCrLf(s))
  }

  /** Line endings in one pass: a CR LF pair or a lone CR becomes one LF. */
  function EndingsByBreak(s: string): (r: string)
  {
    if |s| == 0 then ""
    else if s[0] == '\r' then "\n" + EndingsByBreak(if |s| >= 2 && s[1] == '\n' then s[2..] else s[1..])
    else [s[0]] + EndingsByBreak(s[1..])
  }

  lemma ReplaceCrAppend(a: string, b: string)
    ensures ReplaceCr(a + b) == ReplaceCr(a) + ReplaceCr(b)
  {
  }

  /** The two passes agree with the one-pass reading: every line break becomes a single LF. */
  lemma {:induction false} NormalizeEndingsByBreak(s: string)
    ensures NormalizeEndings(s) == EndingsByBreak(s)
    ensures '\r' !in NormalizeEndings(s)
    decreases |s|
  {
    if |s| > 0 {
      if |s| >= 2 && s[0] == '\r' && s[1] == '\n' {
        NormalizeEndingsByBreak(s[2..]);
        ReplaceCrAppend("\n", ReplaceCrLf(s[2..]));
      } else if s[0] == '\r' {
        NormalizeEndingsByBreak(s[1..]);
        ReplaceCrAppend([s[0]], ReplaceCrLf(s[1..]));
      } else {
        NormalizeEndingsByBreak(s[1..]);
        ReplaceCrAppend([s[0]], ReplaceCrLf(s[1..]));
      }
    }
  }

  /** A character other than CR and LF survives the line-ending pass, and nothing else is added. */
  lemma {:induction false} EndingsKeep(s: string, c: char)
    requires c != '\r' && c != '\n'
    ensures c in EndingsByBreak(s) <==> c in s
    decreases |s|
  {
    if |s| > 0 {
      if s[0] == '\r' {
        var t := if |s| >= 2 && s[1] == '\n' then s[2..] else s[1..];
        EndingsKeep(t, c);
        if |s| >= 2 && s[1] == '\n' {
          assert s == [s[0], s[1]] + t;
        } else {
          assert s == [s[0]] + t;
        }
      } else {
        EndingsKeep(s[1..], c);
        assert s == [s[0]] + s[1..];
      }
    }
  }

  // ---------------------------------------------------------------- punctuation and apostrophes

  /** Both neighbours of position `i` are letters. */
  predicate InsideWord(cs: string, i: nat)
  {
    0 < i && i + 1 < |cs| && IsAlphabetic(cs[i - 1]) && IsAlphabetic(cs[i + 1])
  }

  /** What the character loop appends for position `i`. */
  function Emit(punct: char -> bool, cs: string, i: nat): string
    requires i < |cs|
  {
    if punct(cs[i]) then ""
    else if IsApostrophe(cs[i]) then (if InsideWord(cs, i) then "'" else "")
    else [cs[i]]
  }

  /** The character loop of `normalize_line` over the positions `lo..hi`. */
  function StripRange(punct: char -> bool, cs: string, lo: nat, hi: nat): (r: string)
    requires lo <= hi <= |cs|
    ensures forall k :: 0 <= k < |r| ==> r[k] == '\'' || (r[k] in cs[lo..hi] && !punct(r[k]) && !IsApostrophe(r[k]))
    decreases hi - lo
  {
    if lo == hi then ""
    else Emit(punct, cs, lo) + StripRange(punct, cs, lo + 1, hi)
  }

  /** The whole character loop. */
  function Strip(punct: char -> bool, cs: string): (r: string)
  {
    StripRange(punct, cs, 0, |cs|)
  }

  lemma {:induction false} StripRangeSplit(punct: char -> bool, cs: string, lo: nat, mid: nat, hi: nat)
    requires lo <= mid <= hi <= |cs|
    ensures StripRange(punct, cs, lo, hi) == StripRange(punct, cs, lo, mid) + StripRange(punct, cs, mid, hi)
    decreases mid - lo
  {
    if lo < mid {
      StripRangeSplit(punct, cs, lo + 1, mid, hi);
    }
  }

  /**
   * An apostrophe-like character that is not punctuation contributes exactly one ASCII
   * apostrophe when both its neighbours are letters and nothing otherwise; everything
   * before and after it is processed independently of that choice.
   */
  lemma StripApostrophe(punct: char -> bool, cs: string, i: nat)
    requires i < |cs| && IsApostrophe(cs[i]) && !punct(cs[i])
    ensures Strip(punct, cs) == StripRange(punct, cs, 0, i) + (if InsideWord(cs, i) then "'" else "") + StripRange(punct, cs, i + 1, |cs|)
  {
    StripRangeSplit(punct, cs, 0, i, |cs|);
  }

  /** A punctuation character contributes nothing, even when it is also apostrophe-like. */
  lemma StripPunctuation(punct: char -> bool, cs: string, i: nat)
    requires i < |cs| && punct(cs[i])
    ensures Strip(punct, cs) == StripRange(punct, cs, 0, i) + StripRange(punct, cs, i + 1, |cs|)
  {
    StripRangeSplit(punct, cs, 0, i, |cs|);
  }

  /** A character that is neither punctuation nor apostrophe-like is kept, in place. */
  lemma StripOther(punct: char -> bool, cs: string, i: nat)
    requires i < |cs| && !punct(cs[i]) && !IsApostrophe(cs[i])
    ensures Strip(punct, cs) == StripRange(punct, cs, 0, i) + [cs[i]] + StripRange(punct, cs, i + 1, |cs|)
  {
    StripRangeSplit(punct, cs, 0, i, |cs|);
  }

  /** A character that is neither punctuation nor apostrophe-like is in the output iff it is in the input. */
  lemma {:induction false} StripKeeps(punct: char -> bool, cs: string, lo: nat, hi: nat, c: char)
    requires lo <= hi <= |cs|
    requires !punct(c) && !IsApostrophe(c) && c != '\''
    ensures c in StripRange(punct, cs, lo, hi) <==> c in cs[lo..hi]
    decreases hi - lo
  {
    if lo < hi {
      StripKeeps(punct, cs, lo + 1, hi, c);
      assert cs[lo..hi] == [cs[lo]] + cs[lo + 1..hi];
    }
  }

  // ---------------------------------------------------------------- runs of spaces and tabs

  /** The characters of the regex class `[ \t]`. */
  predicate IsBlank(c: char)
  {
    c == ' ' || c == '\t'
  }

  predicate NotBlank(c: char)
  {
    !IsBlank(c)
  }

  /** No two adjacent characters are both spaces or tabs. */
  predicate NoBlankRun(s: string)
  {
    forall i :: 0 < i < |s| ==> !(IsBlank(s[i - 1]) && IsBlank(s[i]))
  }

  /** Drops the leading run of spaces and tabs. */
  function DropBlanks(s: string): (r: string)
    ensures |r| <= |s| && r == s[|s| - |r|..]
    ensures |r| == 0 || !IsBlank(r[0])
    ensures forall i :: 0 <= i < |s| - |r| ==> IsBlank(s[i])
  {
    if |s| > 0 && IsBlank(s[0]) then
      var r := DropBlanks(s[1..]);
      assert s[1..][|s| - 1 - |r|..] == s[|s| - |r|..];
      assert forall i :: 1 <= i < |s| - |r| ==> s[i] == s[1..][i - 1];
      r
    else s
  }

  /** `[ \t]+` replaced by a single space, left to right. */
  function Collapse(s: string): (r: string)
    ensures NoBlankRun(r) && '\t' !in r
    ensures (|r| > 0 && IsBlank(r[0])) <==> (|s| > 0 && IsBlank(s[0]))
    decreases |s|
  {
    if |s| == 0 then ""
    else if IsBlank(s[0]) then
      var t := Collapse(DropBlanks(s[1..]));
      assert forall i :: 0 < i < |t| ==> !(IsBlank(t[i - 1]) && IsBlank(t[i]));
      " " + t
    else
      var t := Collapse(s[1..]);
      [s[0]] + t
  }

  /** Collapsing keeps every character that is not a space or a tab, in order. */
  lemma {:induction false} CollapseKeeps(s: string)
    ensures Filter(NotBlank, Collapse(s)) == Filter(NotBlank, s)
    decreases |s|
  {
    if |s| > 0 {
      if IsBlank(s[0]) {
        CollapseBlankStep(s);
        CollapseKeeps(DropBlanks(s[1..]));
      } else {
        CollapseOtherStep(s);
        CollapseKeeps(s[1..]);
      }
    }
  }

  /** A leading run of blanks adds nothing to either side of `CollapseKeeps`. */
  lemma CollapseBlankStep(s: string)
    requires |s| > 0 && IsBlank(s[0])
    ensures var d := DropBlanks(s[1..]);
      && Filter(NotBlank, s) == Filter(NotBlank, d)
      && Filter(NotBlank, Collapse(s)) == Filter(NotBlank, Collapse(d))
  {
    var t := s[1..];
    var d := DropBlanks(t);
    FilterSkip(NotBlank, t, |t| - |d|);
    var c := Collapse(s);
    assert c == " " + Collapse(d);
    assert c[0] == ' ' && c[1..] == Collapse(d);
  }

  /** A leading character that is not blank is kept on both sides of `CollapseKeeps`. */
  lemma CollapseOtherStep(s: string)
    requires |s| > 0 && !IsBlank(s[0])
    ensures Filter(NotBlank, s) == [s[0]] + Filter(NotBlank, s[1..])
    ensures Filter(NotBlank, Collapse(s)) == [s[0]] + Filter(NotBlank, Collapse(s[1..]))
  {
    var c := Collapse(s);
    assert c == [s[0]] + Collapse(s[1..]);
    assert c[0] == s[0] && c[1..] == Collapse(s[1..]);
  }

  /** Collapsing adds only single spaces. */
  lemma {:induction false} CollapseChars(s: string)
    ensures forall c :: c in Collapse(s) ==> c == ' ' || c in s
    decreases |s|
  {
    if |s| > 0 {
      if IsBlank(s[0]) {
        var d := DropBlanks(s[1..]);
        CollapseChars(d);
      } else {
        CollapseChars(s[1..]);
      }
    }
  }

  /** A character that is not blank is in the collapsed string iff it is in the original. */
  lemma CollapseKeepsChar(s: string, c: char)
    requires !IsBlank(c)
    ensures c in Collapse(s) <==> c in s
  {
    CollapseKeeps(s);
    FilterKeepsChar(NotBlank, Collapse(s), c);
    FilterKeepsChar(NotBlank, s, c);
  }

  lemma {:induction false} FilterKeepsChar(p: char -> bool, s: string, c: char)
    requires p(c)
    ensures c in Filter(p, s) <==> c in s
  {
    if |s| > 0 {
      FilterKeepsChar(p, s[1..], c);
      assert s == [s[0]] + s[1..];
      FilterAppend(p, [s[0]], s[1..]);
    }
  }

  /** A slice of a string without blank runs has none either. */
  lemma SliceNoBlankRun(s: string, i: nat, j: nat)
    requires i <= j <= |s| && NoBlankRun(s)
    ensures NoBlankRun(s[i..j])
  {
    var t := s[i..j];
    forall k | 0 < k < |t| ensures !(IsBlank(t[k - 1]) && IsBlank(t[k])) {
      assert t[k - 1] == s[i + k - 1] && t[k] == s[i + k];
    }
  }

  /** Trimming keeps the absence of blank runs and of tabs. */
  lemma TrimClean(s: string)
    requires NoBlankRun(s) && '\t' !in s
    ensures NoBlankRun(Trim(s)) && '\t' !in Trim(s)
  {
    TrimAt(s);
    SliceNoBlankRun(s, TrimOffset(s), TrimOffset(s) + |Trim(s)|);
  }

  /** One line of the line-preserving mode: collapsed, then trimmed. */
  function CleanLine(l: string): (r: string)
    ensures IsTrimmed(r) && NoBlankRun(r) && '\t' !in r
  {
    TrimClean(Collapse(l));
    Trim(Collapse(l))
  }

  /** A character that is not whitespace is in the trimmed string iff it is in the original. */
  lemma TrimKeepsChar(s: string, c: char)
    requires !IsWhitespace(c)
    ensures c in Trim(s) <==> c in s
  {
    TrimAt(s);
    var i := TrimOffset(s);
    var j := i + |Trim(s)|;
    if c in s {
      var k :| 0 <= k < |s| && s[k] == c;
      assert i <= k < j;
      assert Trim(s)[k - i] == c;
    }
  }

  /** Every character of a trimmed string is in the string. */
  lemma TrimChars(s: string)
    ensures forall c :: c in Trim(s) ==> c in s
  {
    TrimAt(s);
  }

  /** Cleaning adds only spaces. */
  lemma CleanLineChars(l: string)
    ensures forall c :: c in CleanLine(l) ==> c == ' ' || c in l
  {
    CollapseChars(l);
    TrimChars(Collapse(l));
  }

  /** Cleaning keeps every non-whitespace character. */
  lemma CleanLineKeepsChar(l: string, c: char)
    requires !IsWhitespace(c)
    ensures c in CleanLine(l) <==> c in l
  {
    CollapseKeepsChar(l, c);
    TrimKeepsChar(Collapse(l), c);
  }

  // ---------------------------------------------------------------- the whole line

  /** Line endings and the character loop, the part both modes share. */
  function Stripped(punct: char -> bool, text: string): string
  {
    Strip(punct, NormalizeEndings(text))
  }

  /** The cleaned lines of the line-preserving mode, before they are joined. */
  function CleanLines(punct: char -> bool, text: string): seq<string>
  {
    Map(CleanLine, Lines(Stripped(punct, text)))
  }

  /** `normalize_line` with the punctuation table `punct`. */
  function NormalizeLineWith(punct: char -> bool, preserveLineBreaks: bool, text: string): string
  {
    if preserveLineBreaks then Join(CleanLines(punct, text), "\n")
    else Trim(Collapse(Stripped(punct, text)))
  }

  /** The character loop leaves no CR, and no punctuation or apostrophe-like character other than ASCII apostrophes. */
  lemma StrippedChars(punct: char -> bool, text: string)
    ensures forall c :: c in Stripped(punct, text) ==> c != '\r' && (c == '\'' || (!punct(c) && !IsApostrophe(c)))
  {
    var e := NormalizeEndings(text);
    NormalizeEndingsByBreak(text);
    assert e[0..|e|] == e;
  }

  /** A character that is neither whitespace, punctuation nor apostrophe-like survives the character loop. */
  lemma StrippedKeeps(punct: char -> bool, text: string, c: char)
    requires IsPlain(punct, c)
    ensures c in Stripped(punct, text) <==> c in text
  {
    var e := NormalizeEndings(text);
    NormalizeEndingsByBreak(text);
    EndingsKeep(text, c);
    StripKeeps(punct, e, 0, |e|, c);
    assert e[0..|e|] == e;
  }

  /** Characters of the lines of `s` come from `s`. */
  lemma LinesChars(s: string)
    requires '\r' !in s
    ensures forall k, c :: 0 <= k < |Lines(s)| && c in Lines(s)[k] ==> c in s
  {
    if |s| > 0 {
      LinesWithoutCr(s);
      forall k, c | 0 <= k < |Lines(s)| && c in Lines(s)[k] ensures c in s {
        SplitContains(s, '\n', c);
        assert c in Split(s, '\n')[k];
      }
    }
  }

  /** The cleaned lines of a text without CR, joined: only spaces and line feeds are added. */
  lemma JoinedCleanChars(s: string)
    requires '\r' !in s
    ensures forall c :: c in Join(Map(CleanLine, Lines(s)), "\n") ==> c == ' ' || c == '\n' || c in s
  {
    var parts := Map(CleanLine, Lines(s));
    LinesChars(s);
    forall c | c in Join(parts, "\n") && c != '\n' && c != ' ' ensures c in s {
      JoinContains(parts, '\n', c);
      var k :| 0 <= k < |parts| && c in parts[k];
      CleanLineChars(Lines(s)[k]);
    }
  }

  /** The cleaned lines of a text without CR, joined, keep exactly its non-whitespace characters. */
  lemma JoinedCleanKeeps(s: string, c: char)
    requires '\r' !in s && !IsWhitespace(c)
    ensures c in Join(Map(CleanLine, Lines(s)), "\n") <==> c in s
  {
    var parts := Map(CleanLine, Lines(s));
    JoinContains(parts, '\n', c);
    if |s| > 0 {
      LinesWithoutCr(s);
      SplitContains(s, '\n', c);
      if c in s {
        InSomePiece(s, c);
      }
      if exists k :: 0 <= k < |parts| && c in parts[k] {
        var k :| 0 <= k < |parts| && c in parts[k];
        CleanLineKeepsChar(Lines(s)[k], c);
        LinesChars(s);
      }
    }
  }

  lemma {:induction false} InSomePiece(s: string, c: char)
    requires '\r' !in s && !IsWhitespace(c) && |s| > 0
    requires exists k :: 0 <= k < |Split(s, '\n')| && c in Split(s, '\n')[k]
    ensures exists k :: 0 <= k < |Lines(s)| && c in CleanLine(Lines(s)[k])
  {
    var p := Split(s, '\n');
    var ls := Lines(s);
    var k :| 0 <= k < |p| && c in p[k];
    assert k < |ls| && ls[k] == p[k] by {
      LinesWithoutCr(s);
    }
    CleanLineKeepsChar(ls[k], c);
  }

  /** Every output character is an apostrophe, a space, a line feed, or a character the table keeps. */
  lemma NormalizeLineChars(punct: char -> bool, preserveLineBreaks: bool, text: string)
    ensures forall c :: c in NormalizeLineWith(punct, preserveLineBreaks, text) ==> MayRemain(punct, c)
  {
    var s := Stripped(punct, text);
    StrippedChars(punct, text);
    if preserveLineBreaks {
      JoinedCleanChars(s);
    } else {
      CollapseChars(s);
      TrimChars(Collapse(s));
    }
    var r := NormalizeLineWith(punct, preserveLineBreaks, text);
    assert '\t' !in r by {
      if preserveLineBreaks {
        var parts := CleanLines(punct, text);
        JoinContains(parts, '\n', '\t');
      } else {
        TrimChars(Collapse(s));
      }
    }
  }

  /** A character that is not whitespace, punctuation or apostrophe-like is in the output iff it is in the input. */
  lemma NormalizeLineKeeps(punct: char -> bool, preserveLineBreaks: bool, text: string, c: char)
    requires IsPlain(punct, c)
    ensures c in NormalizeLineWith(punct, preserveLineBreaks, text) <==> c in text
  {
    var s := Stripped(punct, text);
    StrippedKeeps(punct, text, c);
    StrippedChars(punct, text);
    if preserveLineBreaks {
      JoinedCleanKeeps(s, c);
    } else {
      CollapseKeepsChar(s, c);
      TrimKeepsChar(Collapse(s), c);
    }
  }

  /** The cleaned lines of a text without CR contain no line feed and no CR. */
  lemma CleanLinesPlain(s: string)
    requires '\r' !in s
    ensures forall k :: 0 <= k < |Lines(s)| ==> '\n' !in CleanLine(Lines(s)[k]) && '\r' !in CleanLine(Lines(s)[k])
  {
    LinesChars(s);
    forall k | 0 <= k < |Lines(s)| ensures '\n' !in CleanLine(Lines(s)[k]) && '\r' !in CleanLine(Lines(s)[k]) {
      CleanLineChars(Lines(s)[k]);
    }
  }

  /** In the line-preserving mode every output line is trimmed and has no run of spaces or tabs. */
  lemma PreservedLinesAreClean(punct: char -> bool, text: string)
    ensures var out := Split(NormalizeLineWith(punct, true, text), '\n');
      forall k :: 0 <= k < |out| ==> IsTrimmed(out[k]) && NoBlankRun(out[k]) && '\t' !in out[k]
  {
    var parts := CleanLines(punct, text);
    var s := Stripped(punct, text);
    var out := Split(NormalizeLineWith(punct, true, text), '\n');
    if |parts| == 0 {
      assert out == Split("", '\n') == [""];
    } else {
      assert out == parts by {
        assert forall k :: 0 <= k < |parts| ==> '\n' !in parts[k] by {
          StrippedChars(punct, text);
          CleanLinesPlain(s);
        }
        SplitJoin(parts, '\n');
      }
      forall k | 0 <= k < |parts| ensures IsTrimmed(parts[k]) && NoBlankRun(parts[k]) && '\t' !in parts[k] {
        assert parts[k] == CleanLine(Lines(s)[k]);
      }
    }
  }

  // ---------------------------------------------------------------- lines

  predicate NonEmpty(s: string)
  {
    |s| > 0
  }

  /** `normalize_to_lines`: the trimmed, non-empty lines of the normalized text. */
  function NormalizeToLinesWith(punct: char -> bool, preserveLineBreaks: bool, text: string): (r: seq<string>)
    ensures forall k :: 0 <= k < |r| ==> |r[k]| > 0 && IsTrimmed(r[k]) && '\n' !in r[k]
  {
    var ls := Lines(NormalizeLineWith(punct, preserveLineBreaks, text));
    TrimmedLines(ls);
    Filter(NonEmpty, Map(Trim, ls))
  }

  lemma TrimmedLines(ls: seq<string>)
    requires forall k :: 0 <= k < |ls| ==> '\n' !in ls[k]
    ensures forall k :: 0 <= k < |Map(Trim, ls)| ==> IsTrimmed(Map(Trim, ls)[k]) && '\n' !in Map(Trim, ls)[k]
  {
    forall k | 0 <= k < |ls| ensures '\n' !in Trim(ls[k]) {
      TrimChars(ls[k]);
    }
  }

  lemma JoinNoCr(parts: seq<string>)
    requires forall k :: 0 <= k < |parts| ==> '\r' !in parts[k]
    ensures '\r' !in Join(parts, "\n")
  {
    JoinContains(parts, '\n', '\r');
  }

  lemma {:induction false} MapTrimIdentity(ls: seq<string>)
    requires forall k :: 0 <= k < |ls| ==> IsTrimmed(ls[k])
    ensures Map(Trim, ls) == ls
  {
    if |ls| > 0 {
      TrimTrimmed(ls[0]);
      MapTrimIdentity(ls[1..]);
    }
  }

  /** Joining trimmed single-line parts and reading their lines back gives the parts, up to empty ones. */
  lemma LinesOfJoin(parts: seq<string>)
    requires forall k :: 0 <= k < |parts| ==> IsTrimmed(parts[k]) && '\n' !in parts[k] && '\r' !in parts[k]
    ensures Filter(NonEmpty, Map(Trim, Lines(Join(parts, "\n")))) == Filter(NonEmpty, parts)
  {
    var out := Join(parts, "\n");
    if |parts| == 0 {
      assert out == "";
    } else {
      SplitJoin(parts, '\n');
      if |out| == 0 {
        assert parts == [""];
        assert Filter(NonEmpty, parts) == [];
      } else {
        JoinNoCr(parts);
        LinesOfSplit(out, parts);
      }
    }
  }

  lemma LinesOfSplit(s: string, parts: seq<string>)
    requires |s| > 0 && '\r' !in s && Split(s, '\n') == parts
    requires forall k :: 0 <= k < |parts| ==> IsTrimmed(parts[k])
    ensures Filter(NonEmpty, Map(Trim, Lines(s))) == Filter(NonEmpty, parts)
  {
    LinesWithoutCr(s);
    var ls := Lines(s);
    if parts[|parts| - 1] == "" {
      assert ls == parts[..|parts| - 1];
      MapTrimIdentity(ls);
      assert parts == ls + [""];
      FilterAppend(NonEmpty, ls, [""]);
    } else {
      assert ls == parts;
      MapTrimIdentity(ls);
    }
  }

  /**
   * In the line-preserving mode the lines are exactly the non-empty cleaned lines of the
   * stripped text, in order: joining and splitting again loses and adds nothing.
   */
  lemma NormalizeToLinesPreserved(punct: char -> bool, text: string)
    ensures NormalizeToLinesWith(punct, true, text) == Filter(NonEmpty, CleanLines(punct, text))
  {
    StrippedChars(punct, text);
    CleanLinesPlain(Stripped(punct, text));
    LinesOfJoin(CleanLines(punct, text));
  }

  // ---------------------------------------------------------------- the normalizer

  /** `TextNormalizer`: one setting, whether line breaks are preserved. */
  datatype Normalizer = Normalizer(preserveLineBreaks: bool)

  /** `TextNormalizer::new()` preserves line breaks; the derived `Default` does not. */
  const NEW: Normalizer := Normalizer(true)
  const DEFAULT: Normalizer := Normalizer(false)

  /** `with_preserve_line_breaks`. */
  function WithPreserveLineBreaks(n: Normalizer, preserve: bool): (r: Normalizer)
    ensures r.preserveLineBreaks == preserve
  {
    n.(preserveLineBreaks := preserve)
  }

  /** For any table that leaves space, line feed and the ASCII apostrophe alone, no character it names survives. */
  lemma NoPunctuationRemains(punct: char -> bool, preserveLineBreaks: bool, text: string)
    requires !punct(' ') && !punct('\n') && !punct('\'')
    ensures forall c :: c in NormalizeLineWith(punct, preserveLineBreaks, text) ==> !punct(c) && c != '\r' && c != '\t'
  {
    NormalizeLineChars(punct, preserveLineBreaks, text);
  }

  /** `normalize_line`, with the punctuation table as line 23 of normalize.rs writes it. */
  function Line(n: Normalizer, text: string): (r: string)
    ensures forall c :: c in r ==> !IsPunctuationAsWritten(c) && c != '\r' && c != '\t'
  {
    NoPunctuationRemains(IsPunctuationAsWritten, n.preserveLineBreaks, text);
    NormalizeLineWith(IsPunctuationAsWritten, n.preserveLineBreaks, text)
  }

  /** `normalize_to_lines`, with the punctuation table as written. */
  function ToLines(n: Normalizer, text: string): (r: seq<string>)
    ensures forall k :: 0 <= k < |r| ==> |r[k]| > 0 && IsTrimmed(r[k]) && '\n' !in r[k]
  {
    NormalizeToLinesWith(IsPunctuationAsWritten, n.preserveLineBreaks, text)
  }

  // ---------------------------------------------------------------- curly quotation marks

  /** Left and right double quotation marks are plain characters for the table as written. */
  lemma CurlyQuotesPlainAsWritten()
    ensures IsPlain(IsPunctuationAsWritten, '\U{201C}') && IsPlain(IsPunctuationAsWritten, '\U{201D}')
  {
  }

  /** With the table as written, left and right double quotation marks pass through every normalization. */
  lemma AsWrittenKeepsCurlyQuotes(preserveLineBreaks: bool, text: string, q: char)
    requires q == '\U{201C}' || q == '\U{201D}'
    ensures q in text ==> q in NormalizeLineWith(IsPunctuationAsWritten, preserveLineBreaks, text)
  {
    CurlyQuotesPlainAsWritten();
    NormalizeLineKeeps(IsPunctuationAsWritten, preserveLineBreaks, text, q);
  }

  /** With the intended table no double quotation mark of any kind survives. */
  lemma CurlyQuotesRemoved(preserveLineBreaks: bool, text: string)
    ensures var r := NormalizeLineWith(IsPunctuation, preserveLineBreaks, text);
      '"' !in r && '\U{201C}' !in r && '\U{201D}' !in r
  {
    NoPunctuationRemains(IsPunctuation, preserveLineBreaks, text);
  }
}

=== FILE: src/normalize_presentation.dfy ===
/**
 * Presentation-level normalization: every slide's texts turned into lyric
 * lines (`normalize_presentation`), and the variant that first looks for a
 * title line on the first slide (`normalize_presentation_with_title`).
 */
module NormalizePresentation {
  import opened Wrappers
  import opened Strings
  import opened Seqs
  import opened Types
  import opened NormalizeLine
  import opened TitleMatch

  /** A lyric line as every normalized line is: non-empty, trimmed, a single line. */
  predicate IsLyricLine(l: string)
  {
    |l| > 0 && IsTrimmed(l) && '\n' !in l
  }

  /** The normalized lines of a sequence of strings, one after the other. */
  function StringsLines(n: Normalizer, ts: seq<string>): (r: seq<string>)
    ensures forall k :: 0 <= k < |r| ==> IsLyricLine(r[k])
  {
    if |ts| == 0 then [] else ToLines(n, ts[0]) + StringsLines(n, ts[1..])
  }

  lemma {:induction false} StringsLinesAppend(n: Normalizer, a: seq<string>, b: seq<string>)
    ensures StringsLines(n, a + b) == StringsLines(n, a) + StringsLines(n, b)
  {
    if |a| > 0 {
      assert (a + b)[1..] == a[1..] + b;
      StringsLinesAppend(n, a[1..], b);
    } else {
      assert a + b == b;
    }
  }

  /** The per-text step of both loops: normalize the text into lines. */
  function PerText(n: Normalizer): SlideText -> seq<string>
  {
    (t: SlideText) => ToLines(n, t.text)
  }

  /** The loop over one slide's texts, for any per-text step `f`. */
  function TextsLines(f: SlideText -> seq<string>, texts: seq<SlideText>): seq<string>
  {
    if |texts| == 0 then [] else f(texts[0]) + TextsLines(f, texts[1..])
  }

  lemma TextsLinesLyric(n: Normalizer, texts: seq<SlideText>)
    ensures forall k :: 0 <= k < |TextsLines(PerText(n), texts)| ==> IsLyricLine(TextsLines(PerText(n), texts)[k])
  {
    TextsLinesOfTexts(n, texts);
  }

  /** `normalize_presentation`: the loop over slides, then over each slide's texts. */
  function NormalizedLines(n: Normalizer, slides: seq<ExtractedSlide>): (r: seq<string>)
    ensures forall k :: 0 <= k < |r| ==> IsLyricLine(r[k])
  {
    TextsLinesLyric(n, if |slides| == 0 then [] else slides[0].lines);
    if |slides| == 0 then [] else TextsLines(PerText(n), slides[0].lines) + NormalizedLines(n, slides[1..])
  }

  lemma {:induction false} TextsLinesOfTexts(n: Normalizer, texts: seq<SlideText>)
    ensures TextsLines(PerText(n), texts) == StringsLines(n, Map((t: SlideText) => t.text, texts))
  {
    if |texts| > 0 {
      TextsLinesOfTexts(n, texts[1..]);
      assert Map((t: SlideText) => t.text, texts)[1..] == Map((t: SlideText) => t.text, texts[1..]);
    }
  }

  lemma TextsLinesOfSlide(n: Normalizer, slide: ExtractedSlide)
    ensures TextsLines(PerText(n), slide.lines) == StringsLines(n, LineTexts(slide))
  {
    TextsLinesOfTexts(n, slide.lines);
    assert Map((t: SlideText) => t.text, slide.lines) == LineTexts(slide);
  }

  /** Normalizing slide by slide is normalizing the presentation's `all_lines`. */
  lemma {:induction false} LinesOfAllLines(n: Normalizer, slides: seq<ExtractedSlide>)
    ensures NormalizedLines(n, slides) == StringsLines(n, FlatMap(LineTexts, slides))
  {
    if |slides| > 0 {
      LinesOfAllLines(n, slides[1..]);
      TextsLinesOfSlide(n, slides[0]);
      StringsLinesAppend(n, LineTexts(slides[0]), FlatMap(LineTexts, slides[1..]));
    }
  }

  // ---------------------------------------------------------------- with title

  /** The first text at or after `j` whose trimmed form is likely the song's title. */
  function FindTitle(texts: seq<SlideText>, song: string, j: nat): (r: Option<nat>)
    requires j <= |texts|
    ensures r.None? ==> forall k :: j <= k < |texts| ==> !IsLikelyTitle(Trim(texts[k].text), song)
    ensures r.Some? ==> j <= r.value < |texts| && IsLikelyTitle(Trim(texts[r.value].text), song)
    ensures r.Some? ==> forall k :: j <= k < r.value ==> !IsLikelyTitle(Trim(texts[k].text), song)
    decreases |texts| - j
  {
    if j == |texts| then None
    else if IsLikelyTitle(Trim(texts[j].text), song) then Some(j)
    else FindTitle(texts, song, j + 1)
  }

  /** The title's index on the first slide, if any. */
  function TitleIndex(slides: seq<ExtractedSlide>, filename: string): (r: Option<nat>)
    ensures r.Some? ==> |slides| > 0 && r.value < |slides[0].lines|
  {
    if |slides| == 0 then None else FindTitle(slides[0].lines, SongName(filename), 0)
  }

  /** The loop over the first slide's texts from `j` on, skipping the title's index. */
  function SkipLines(f: SlideText -> seq<string>, texts: seq<SlideText>, skip: Option<nat>, j: nat): seq<string>
    requires j <= |texts|
    decreases |texts| - j
  {
    if j == |texts| then []
    else (if skip == Some(j) then [] else f(texts[j])) + SkipLines(f, texts, skip, j + 1)
  }

  /** Skipping an index that is not ahead skips nothing. */
  lemma {:induction false} SkipNothing(f: SlideText -> seq<string>, texts: seq<SlideText>, skip: Option<nat>, j: nat)
    requires j <= |texts|
    requires skip.None? || skip.value < j
    ensures SkipLines(f, texts, skip, j) == TextsLines(f, texts[j..])
    decreases |texts| - j
  {
    if j < |texts| {
      SkipNothing(f, texts, skip, j + 1);
      assert texts[j..][1..] == texts[j + 1..];
    }
  }

  /** Skipping index `i` is normalizing the texts with index `i` removed. */
  lemma {:induction false} SkipOne(f: SlideText -> seq<string>, texts: seq<SlideText>, i: nat, j: nat)
    requires j <= i < |texts|
    ensures SkipLines(f, texts, Some(i), j) == TextsLines(f, texts[j..i] + texts[i + 1..])
    decreases i - j
  {
    if j == i {
      SkipNothing(f, texts, Some(i), i + 1);
      assert texts[j..i] + texts[i + 1..] == texts[i + 1..];
    } else {
      SkipOne(f, texts, i, j + 1);
      var rest := texts[j + 1..i] + texts[i + 1..];
      var all := texts[j..i] + texts[i + 1..];
      assert all == [texts[j]] + rest;
      assert all[0] == texts[j] && all[1..] == rest;
      assert TextsLines(f, all) == f(texts[j]) + TextsLines(f, rest);
      assert SkipLines(f, texts, Some(i), j) == f(texts[j]) + SkipLines(f, texts, Some(i), j + 1);
    }
  }

  /** The first-slide loop skips exactly the title's text, or nothing. */
  lemma SkipLinesSpec(f: SlideText -> seq<string>, texts: seq<SlideText>, skip: Option<nat>)
    requires skip.Some? ==> skip.value < |texts|
    ensures skip.None? ==> SkipLines(f, texts, skip, 0) == TextsLines(f, texts)
    ensures skip.Some? ==> SkipLines(f, texts, skip, 0) == TextsLines(f, RemoveAt(texts, skip.value))
  {
    if skip.Some? {
      SkipOne(f, texts, skip.value, 0);
      assert texts[0..skip.value] + texts[skip.value + 1..] == RemoveAt(texts, skip.value);
    } else {
      SkipNothing(f, texts, skip, 0);
      assert texts[0..] == texts;
    }
  }

  /** A detected title and the remaining lyric lines. */
  datatype TitledLines = TitledLines(title: Option<string>, lines: seq<string>)

  /** `normalize_presentation_with_title`: the source's loop over the first slide, then the rest. */
  function LinesWithTitle(n: Normalizer, slides: seq<ExtractedSlide>, filename: string): (r: TitledLines)
    ensures r.title.Some? ==> |slides| > 0
  {
    var idx := TitleIndex(slides, filename);
    var title := if idx.Some? then Some(Line(n, Trim(slides[0].lines[idx.value].text))) else None;
    if |slides| == 0 then TitledLines(title, [])
    else TitledLines(title, SkipLines(PerText(n), slides[0].lines, idx, 0) + NormalizedLines(n, slides[1..]))
  }

  /** Without a likely title on the first slide, the result is `normalize_presentation`'s. */
  lemma LinesWithoutTitle(n: Normalizer, slides: seq<ExtractedSlide>, filename: string)
    requires LinesWithTitle(n, slides, filename).title.None?
    ensures LinesWithTitle(n, slides, filename).lines == NormalizedLines(n, slides)
  {
    if |slides| > 0 {
      SkipLinesSpec(PerText(n), slides[0].lines, None);
    }
  }

  /** There is no title exactly when no text of the first slide is likely the song's title. */
  lemma NoTitleIff(n: Normalizer, slides: seq<ExtractedSlide>, filename: string)
    ensures LinesWithTitle(n, slides, filename).title.None? <==>
      forall k :: 0 <= k < |FirstTexts(slides)| ==> !IsLikelyTitle(Trim(FirstTexts(slides)[k].text), SongName(filename))
  {
    var idx := TitleIndex(slides, filename);
    assert LinesWithTitle(n, slides, filename).title.None? <==> idx.None?;
    if idx.Some? {
      var k := idx.value;
      assert IsLikelyTitle(Trim(FirstTexts(slides)[k].text), SongName(filename));
    }
  }

  /**
   * With a title, it is the normalized form of the first text on the first
   * slide that is likely the song's title, and the other lines are exactly
   * what `normalize_presentation` gives once that one text is removed.
   */
  lemma LinesWithFoundTitle(n: Normalizer, slides: seq<ExtractedSlide>, filename: string)
    requires LinesWithTitle(n, slides, filename).title.Some?
    ensures TitleIndex(slides, filename).Some?
    ensures TitleAt(n, slides, filename, TitleIndex(slides, filename).value, LinesWithTitle(n, slides, filename))
  {
    var i := TitleIndex(slides, filename).value;
    var r := LinesWithTitle(n, slides, filename);
    SkipLinesSpec(PerText(n), slides[0].lines, Some(i));
    var first := slides[0].(lines := RemoveAt(slides[0].lines, i));
    assert ([first] + slides[1..])[0] == first;
    assert ([first] + slides[1..])[1..] == slides[1..];
    assert r.lines == NormalizedLines(n, [first] + slides[1..]);
  }

  /** The texts of the first slide, where the title is looked for. */
  function FirstTexts(slides: seq<ExtractedSlide>): seq<SlideText>
  {
    if |slides| == 0 then [] else slides[0].lines
  }

  /** `r` took its title from text `i` of the first slide, the first that qualifies, and dropped only it. */
  ghost predicate TitleAt(n: Normalizer, slides: seq<ExtractedSlide>, filename: string, i: nat, r: TitledLines)
  {
    && |slides| > 0 && i < |slides[0].lines|
    && IsLikelyTitle(Trim(slides[0].lines[i].text), SongName(filename))
    && (forall k :: 0 <= k < i ==> !IsLikelyTitle(Trim(slides[0].lines[k].text), SongName(filename)))
    && r.title == Some(Line(n, Trim(slides[0].lines[i].text)))
    && r.lines == NormalizedLines(n, [slides[0].(lines := RemoveAt(slides[0].lines, i))] + slides[1..])
  }
}

=== FILE: src/ppt_collect.dfy ===
/**
 * The extraction pass over the legacy stream (`collect_text_entries` and
 * `parse_records_recursive` in crates/ppt/src/parser.rs): text atoms that
 * pass the slide-text filter become entries tagged with the current text type,
 * their record offset and the number of slide-persist atoms seen so far.
 */
module PptCollect {
  import opened Wrappers
  import opened Bytes
  import opened PptRecords
  import opened PptText

  /** `TextEntry`: one accepted text with its metadata. */
  datatype TextEntry = TextEntry(text: string, textType: TextType, position: nat, slideHint: nat)

  /** The state threaded through the walk. */
  datatype Collector = Collector(entries: seq<TextEntry>, textType: TextType, slidePersistCount: nat)

  /** The walk starts with the body type and no slide-persist atoms seen. */
  const START: Collector := Collector([], Body, 0)

  /** A text that passes the filter becomes one entry with the walk's current type and hint; nothing else changes. */
  function NoteText(c: Collector, pos: nat, text: Option<string>): (r: Collector)
    ensures r.textType == c.textType && r.slidePersistCount == c.slidePersistCount
    ensures r.entries == c.entries <==> !(text.Some? && IsValidSlideTextAsWritten(text.value, c.textType))
    ensures r.entries != c.entries ==> text.Some? && r.entries == c.entries + [TextEntry(text.value, c.textType, pos, c.slidePersistCount)]
  {
    if text.Some? && IsValidSlideTextAsWritten(text.value, c.textType) then
      c.(entries := c.entries + [TextEntry(text.value, c.textType, pos, c.slidePersistCount)])
    else c
  }

  /** The `match rec_type` of the extraction pass, for one record whose content fits. */
  function CollectRecord(data: seq<byte>, c: Collector, pos: nat, h: Header): Collector
  {
    if h.recType == RT_SLIDE_PERSIST_ATOM then c.(slidePersistCount := c.slidePersistCount + 1)
    else if h.recType == RT_TEXT_HEADER_ATOM then
      if h.len >= 4 && pos + HEADER_SIZE + 4 <= |data| then c.(textType := FromU32(ReadU32Le(data, pos + HEADER_SIZE)))
      else c
    else if h.recType == RT_TEXT_CHARS_ATOM then NoteText(c, pos, ExtractUnicode(data, pos + HEADER_SIZE, h.len))
    else if h.recType == RT_TEXT_BYTES_ATOM then NoteText(c, pos, ExtractAnsi(data, pos + HEADER_SIZE, h.len))
    else c
  }

  /**
   * `parse_records_recursive`: the loop over sibling records, recursing into
   * containers; a record that overruns its parent ends the loop at that level.
   */
  function Walk(data: seq<byte>, pos: nat, end: nat, c: Collector): Collector
    requires pos <= end <= |data|
    decreases end - pos
  {
    if pos + HEADER_SIZE > end then c
    else
      var h := ReadHeader(data, pos);
      var contentEnd := pos + HEADER_SIZE + h.len;
      if contentEnd > end then c
      else
        var c1 := CollectRecord(data, c, pos, h);
        var c2 := if IsContainer(h) then Walk(data, pos + HEADER_SIZE, contentEnd, c1) else c1;
        Walk(data, contentEnd, end, c2)
  }

  function CollectVisit(data: seq<byte>, c: Collector, v: Visit): Collector
  {
    match v
    case Record(pos, h) => CollectRecord(data, c, pos, h)
    case Overrun(_) => c
  }

  function CollectAll(data: seq<byte>, vs: seq<Visit>, c: Collector): Collector
  {
    if |vs| == 0 then c else CollectAll(data, vs[1..], CollectVisit(data, c, vs[0]))
  }

  lemma {:induction false} CollectAllAppend(data: seq<byte>, a: seq<Visit>, b: seq<Visit>, c: Collector)
    ensures CollectAll(data, a + b, c) == CollectAll(data, b, CollectAll(data, a, c))
  {
    if |a| > 0 {
      assert (a + b)[1..] == a[1..] + b;
      CollectAllAppend(data, a[1..], b, CollectVisit(data, c, a[0]));
    } else {
      assert a + b == b;
    }
  }

  /** The walk is the per-record step applied to the visits in pre-order. */
  lemma {:induction false} WalkIsCollectAll(data: seq<byte>, pos: nat, end: nat, c: Collector)
    requires pos <= end <= |data|
    ensures Walk(data, pos, end, c) == CollectAll(data, Visits(data, pos, end), c)
    decreases end - pos
  {
    if pos + HEADER_SIZE <= end {
      var h := ReadHeader(data, pos);
      var contentEnd := pos + HEADER_SIZE + h.len;
      if contentEnd <= end {
        var c1 := CollectRecord(data, c, pos, h);
        var inner := if IsContainer(h) then Visits(data, pos + HEADER_SIZE, contentEnd) else [];
        var rest := Visits(data, contentEnd, end);
        if IsContainer(h) {
          WalkIsCollectAll(data, pos + HEADER_SIZE, contentEnd, c1);
        }
        var c2 := CollectAll(data, inner, c1);
        assert c2 == if IsContainer(h) then Walk(data, pos + HEADER_SIZE, contentEnd, c1) else c1;
        WalkIsCollectAll(data, contentEnd, end, c2);
        assert Walk(data, pos, end, c) == Walk(data, contentEnd, end, c2);
        assert CollectAll(data, Visits(data, pos, end), c) == CollectAll(data, rest, c2) by {
          VisitsStep(data, pos, end);
          assert CollectAll(data, [Record(pos, h)], c) == c1;
          CollectAllAppend(data, [Record(pos, h)], inner, c);
          CollectAllAppend(data, [Record(pos, h)] + inner, rest, c);
        }
      }
    }
  }

  /** `collect_text_entries`: the walk over the whole stream. */
  function CollectTextEntries(data: seq<byte>): seq<TextEntry>
  {
    Walk(data, 0, |data|, START).entries
  }

  /** The visit is a text atom whose content decodes to `text`. */
  predicate Yields(data: seq<byte>, v: Visit, text: string)
  {
    && v.Record?
    && ((v.header.recType == RT_TEXT_CHARS_ATOM && ExtractUnicode(data, v.pos + HEADER_SIZE, v.header.len) == Some(text))
        || (v.header.recType == RT_TEXT_BYTES_ATOM && ExtractAnsi(data, v.pos + HEADER_SIZE, v.header.len) == Some(text)))
  }

  /** The entry was read from one of the visited text atoms, at that atom's offset. */
  predicate ComesFrom(data: seq<byte>, e: TextEntry, vs: seq<Visit>)
  {
    exists i :: 0 <= i < |vs| && vs[i].pos == e.position && Yields(data, vs[i], e.text)
  }

  /** The entry passes `is_valid_slide_text`, with its byte-length test of a lone character. */
  predicate Accepted(e: TextEntry)
  {
    IsValidSlideTextAsWritten(e.text, e.textType)
  }

  /** Entries in stream order: strictly increasing offsets, non-decreasing slide hints. */
  predicate Ordered(es: seq<TextEntry>)
  {
    forall i, j :: 0 <= i < j < |es| ==> es[i].position < es[j].position && es[i].slideHint <= es[j].slideHint
  }

  /** The entries a fold adds are accepted texts read from the visits it folds over. */
  lemma {:induction false} CollectAllSources(data: seq<byte>, vs: seq<Visit>, c: Collector)
    ensures var r := CollectAll(data, vs, c);
      && c.entries <= r.entries
      && forall k :: |c.entries| <= k < |r.entries| ==> Accepted(r.entries[k]) && ComesFrom(data, r.entries[k], vs)
  {
    if |vs| > 0 {
      var c1 := CollectVisit(data, c, vs[0]);
      CollectAllSources(data, vs[1..], c1);
      var r := CollectAll(data, vs, c);
      assert r == CollectAll(data, vs[1..], c1);
      forall k | |c.entries| <= k < |r.entries| ensures Accepted(r.entries[k]) && ComesFrom(data, r.entries[k], vs) {
        if k >= |c1.entries| {
          var i :| 0 <= i < |vs[1..]| && vs[1..][i].pos == r.entries[k].position && Yields(data, vs[1..][i], r.entries[k].text);
          assert vs[i + 1] == vs[1..][i];
        } else {
          assert k == |c.entries| && r.entries[k] == c1.entries[k];
          assert vs[0].pos == r.entries[k].position && Yields(data, vs[0], r.entries[k].text);
        }
      }
    }
  }

  /** Folding over increasing visits keeps the entries ordered and their hints within the count. */
  lemma {:induction false} CollectAllOrdered(data: seq<byte>, vs: seq<Visit>, c: Collector)
    requires Increasing(vs) && Ordered(c.entries)
    requires forall i :: 0 <= i < |c.entries| ==> c.entries[i].slideHint <= c.slidePersistCount
    requires forall i, j :: 0 <= i < |c.entries| && 0 <= j < |vs| ==> c.entries[i].position < vs[j].pos
    ensures var r := CollectAll(data, vs, c);
      && Ordered(r.entries)
      && forall i :: 0 <= i < |r.entries| ==> r.entries[i].slideHint <= r.slidePersistCount
  {
    if |vs| > 0 {
      var c1 := CollectVisit(data, c, vs[0]);
      assert c1.slidePersistCount >= c.slidePersistCount;
      assert c1.entries == c.entries || (c1.entries == c.entries + [c1.entries[|c.entries|]]
        && c1.entries[|c.entries|].position == vs[0].pos && c1.entries[|c.entries|].slideHint == c.slidePersistCount);
      forall i, j | 0 <= i < |c1.entries| && 0 <= j < |vs[1..]| ensures c1.entries[i].position < vs[1..][j].pos {
        assert vs[1..][j] == vs[j + 1];
      }
      CollectAllOrdered(data, vs[1..], c1);
    }
  }

  /**
   * Every collected entry is an accepted text read from a text atom of the
   * stream, and the entries come in stream order with non-decreasing slide
   * hints.
   */
  lemma CollectTextEntriesFacts(data: seq<byte>)
    ensures var es := CollectTextEntries(data);
      && Ordered(es)
      && forall k :: 0 <= k < |es| ==> Accepted(es[k]) && ComesFrom(data, es[k], Visits(data, 0, |data|))
  {
    var vs := Visits(data, 0, |data|);
    WalkIsCollectAll(data, 0, |data|, START);
    VisitsIncreasing(data, 0, |data|);
    CollectAllSources(data, vs, START);
    CollectAllOrdered(data, vs, START);
  }

  /** Accepted entries are slide content that is not blank. */
  lemma AcceptedIsContent(e: TextEntry)
    requires Accepted(e)
    ensures IsSlideContent(e.textType) && e.text != ""
  {
  }

  // ---------------------------------------------------------------- the entries, visit by visit

  /** The slide-persist atoms among the first `n` visits. */
  function PersistCount(vs: seq<Visit>, n: nat): nat
    requires n <= |vs|
  {
    if n == 0 then 0
    else PersistCount(vs, n - 1) + if vs[n - 1].Record? && vs[n - 1].header.recType == RT_SLIDE_PERSIST_ATOM then 1 else 0
  }

  /** The type a visit sets: a text-header atom whose content holds the four-byte type. */
  function HeaderType(data: seq<byte>, v: Visit): Option<TextType>
  {
    if v.Record? && v.header.recType == RT_TEXT_HEADER_ATOM && v.header.len >= 4 && v.pos + HEADER_SIZE + 4 <= |data|
    then Some(FromU32(ReadU32Le(data, v.pos + HEADER_SIZE)))
    else None
  }

  /** The type in force after the first `n` visits: that of the last text header among them, or body. */
  function TypeAfter(data: seq<byte>, vs: seq<Visit>, n: nat): TextType
    requires n <= |vs|
  {
    if n == 0 then Body
    else if HeaderType(data, vs[n - 1]).Some? then HeaderType(data, vs[n - 1]).value
    else TypeAfter(data, vs, n - 1)
  }

  /** The text a visit decodes to, if it is a text atom whose content decodes. */
  function TextOf(data: seq<byte>, v: Visit): Option<string>
  {
    if v.Record? && v.header.recType == RT_TEXT_CHARS_ATOM then ExtractUnicode(data, v.pos + HEADER_SIZE, v.header.len)
    else if v.Record? && v.header.recType == RT_TEXT_BYTES_ATOM then ExtractAnsi(data, v.pos + HEADER_SIZE, v.header.len)
    else None
  }

  /** Visit `i` is a text atom whose text passes the filter under the type then in force. */
  predicate AcceptedAt(data: seq<byte>, vs: seq<Visit>, i: nat)
    requires i < |vs|
  {
    TextOf(data, vs[i]).Some? && IsValidSlideTextAsWritten(TextOf(data, vs[i]).value, TypeAfter(data, vs, i))
  }

  /** The entry visit `i` gives when it is accepted. */
  function EntryAt(data: seq<byte>, vs: seq<Visit>, i: nat): TextEntry
    requires i < |vs| && TextOf(data, vs[i]).Some?
  {
    TextEntry(TextOf(data, vs[i]).value, TypeAfter(data, vs, i), vs[i].pos, PersistCount(vs, i))
  }

  /** `TextOf` over the stream `data`, as a function of the visit. */
  function TextsOf(data: seq<byte>): Visit -> Option<string>
  {
    (v: Visit) => TextOf(data, v)
  }

  /**
   * The entries of the visits among the first `n` whose text, read by `text`,
   * `accept` takes under the type then in force, in visit order.
   */
  function EntriesUpTo(accept: (string, TextType) -> bool, text: Visit -> Option<string>, data: seq<byte>, vs: seq<Visit>, n: nat)
    : seq<TextEntry>
    requires n <= |vs|
  {
    if n == 0 then []
    else
      var s, t := text(vs[n - 1]), TypeAfter(data, vs, n - 1);
      var more := if s.Some? && accept(s.value, t) then [TextEntry(s.value, t, vs[n - 1].pos, PersistCount(vs, n - 1))] else [];
      EntriesUpTo(accept, text, data, vs, n - 1) + more
  }

  /** The entries `collect_text_entries` keeps among the first `n` visits of `data`. */
  function Kept(data: seq<byte>, vs: seq<Visit>, n: nat): seq<TextEntry>
    requires n <= |vs|
  {
    EntriesUpTo(IsValidSlideTextAsWritten, TextsOf(data), data, vs, n)
  }

  /** One more visit adds its entry exactly when it is accepted. */
  lemma KeptStep(data: seq<byte>, vs: seq<Visit>, n: nat)
    requires n < |vs|
    ensures Kept(data, vs, n + 1) == Kept(data, vs, n) + if AcceptedAt(data, vs, n) then [EntryAt(data, vs, n)] else []
  {
    assert TextsOf(data)(vs[n]) == TextOf(data, vs[n]);
  }

  /** What one visit does to the entries: appends its text when the filter accepts it. */
  lemma VisitEntries(data: seq<byte>, c: Collector, v: Visit)
    ensures var t := TextOf(data, v);
      CollectVisit(data, c, v).entries
      == c.entries + if t.Some? && IsValidSlideTextAsWritten(t.value, c.textType)
                     then [TextEntry(t.value, c.textType, v.pos, c.slidePersistCount)] else []
  {}

  /** What one visit does to the text type: a text header with room for it sets it. */
  lemma VisitType(data: seq<byte>, c: Collector, v: Visit)
    ensures CollectVisit(data, c, v).textType
      == if HeaderType(data, v).Some? then HeaderType(data, v).value else c.textType
  {}

  /** What one visit does to the slide hint: a slide-persist atom advances it. */
  lemma VisitPersist(data: seq<byte>, c: Collector, v: Visit)
    ensures CollectVisit(data, c, v).slidePersistCount
      == c.slidePersistCount + if v.Record? && v.header.recType == RT_SLIDE_PERSIST_ATOM then 1 else 0
  {}

  /** One step of the fold is the state after one more visit. */
  lemma CollectVisitStep(data: seq<byte>, vs: seq<Visit>, n: nat)
    requires n < |vs|
    ensures var c := Collector(Kept(data, vs, n), TypeAfter(data, vs, n), PersistCount(vs, n));
      CollectVisit(data, c, vs[n])
      == Collector(Kept(data, vs, n + 1), TypeAfter(data, vs, n + 1), PersistCount(vs, n + 1))
  {
    var c := Collector(Kept(data, vs, n), TypeAfter(data, vs, n), PersistCount(vs, n));
    KeptStep(data, vs, n);
    VisitEntries(data, c, vs[n]);
    VisitType(data, c, vs[n]);
    VisitPersist(data, c, vs[n]);
  }

  /** Folding over the first `n` visits from the start gives the entries, type and count the visits determine. */
  lemma {:induction false} CollectPrefix(data: seq<byte>, vs: seq<Visit>, n: nat)
    requires n <= |vs|
    ensures CollectAll(data, vs[..n], START)
      == Collector(Kept(data, vs, n), TypeAfter(data, vs, n), PersistCount(vs, n))
  {
    if n > 0 {
      CollectPrefix(data, vs, n - 1);
      assert vs[..n] == vs[..n - 1] + [vs[n - 1]];
      CollectAllAppend(data, vs[..n - 1], [vs[n - 1]], START);
      CollectVisitStep(data, vs, n - 1);
    }
  }

  /**
   * `collect_text_entries` yields exactly the accepted text atoms of the
   * stream, in stream order, each with the type of the last text header
   * before it and the number of slide-persist atoms before it.
   */
  lemma CollectTextEntriesExact(data: seq<byte>)
    ensures var vs := Visits(data, 0, |data|);
      CollectTextEntries(data) == Kept(data, vs, |vs|)
  {
    var vs := Visits(data, 0, |data|);
    WalkIsCollectAll(data, 0, |data|, START);
    CollectPrefix(data, vs, |vs|);
    assert vs[..|vs|] == vs;
  }

  /** The entries of fewer visits are a prefix of the entries of more. */
  lemma {:induction false} EntriesUpToGrows(accept: (string, TextType) -> bool, text: Visit -> Option<string>, data: seq<byte>, vs: seq<Visit>, n: nat, m: nat)
    requires n <= m <= |vs|
    ensures var e, f := EntriesUpTo(accept, text, data, vs, n), EntriesUpTo(accept, text, data, vs, m);
      |e| <= |f| && f[..|e|] == e
    decreases m - n
  {
    if n < m {
      EntriesUpToGrows(accept, text, data, vs, n, m - 1);
      var e, a, b := EntriesUpTo(accept, text, data, vs, n), EntriesUpTo(accept, text, data, vs, m - 1), EntriesUpTo(accept, text, data, vs, m);
      assert b[..|a|] == a;
      assert b[..|e|] == b[..|a|][..|e|];
    }
  }

  /** Nothing is lost: every accepted text atom of the stream is among the entries. */
  lemma AcceptedAtomCollected(data: seq<byte>, i: nat)
    requires i < |Visits(data, 0, |data|)| && AcceptedAt(data, Visits(data, 0, |data|), i)
    ensures EntryAt(data, Visits(data, 0, |data|), i) in CollectTextEntries(data)
  {
    var vs := Visits(data, 0, |data|);
    KeptStep(data, vs, i);
    KeptIsPrefix(data, i + 1);
    LastOfPrefixIn(CollectTextEntries(data), Kept(data, vs, i + 1), EntryAt(data, vs, i));
  }

  /** The entries kept from the first `n` visits begin the collected list. */
  lemma KeptIsPrefix(data: seq<byte>, n: nat)
    requires n <= |Visits(data, 0, |data|)|
    ensures var pre, all := Kept(data, Visits(data, 0, |data|), n), CollectTextEntries(data);
      |pre| <= |all| && all[..|pre|] == pre
  {
    var vs := Visits(data, 0, |data|);
    CollectTextEntriesExact(data);
    EntriesUpToGrows(IsValidSlideTextAsWritten, TextsOf(data), data, vs, n, |vs|);
  }

  /** The last element of a prefix is an element of the whole. */
  lemma LastOfPrefixIn<T>(all: seq<T>, pre: seq<T>, x: T)
    requires 0 < |pre| <= |all| && all[..|pre|] == pre && pre[|pre| - 1] == x
    ensures x in all
  {
    assert all[|pre| - 1] == x;
  }
}

=== FILE: src/ppt_parser.dfy ===
/**
 * `PptParser::parse` (crates/ppt/src/parser.rs): open the compound file,
 * require the "PowerPoint Document" stream, validate it, extract and
 * organize its text, and build the presentation.
 */
module PptParser {
  import opened Wrappers
  import opened Bytes
  import opened Errors
  import opened Seqs
  import opened Types
  import opened PptRecords
  import opened PptValidate
  import opened PptText
  import opened PptCollect
  import opened PptSlides

  const POWERPOINT_DOCUMENT: string := "/PowerPoint Document"

  /** An opened compound file: the paths of its streams and their bytes. */
  datatype CompoundFile = CompoundFile(streams: map<string, seq<byte>>)

  /**
   * The whole parse. `container` is None when the compound file could not be
   * opened. The "Current User" stream is only logged about, so it plays no part.
   */
  function ParsePpt(container: Option<CompoundFile>, filename: string): (r: Result<Presentation, Error>)
    ensures container.None? ==> r == Err(CfbError)
    ensures container.Some? && POWERPOINT_DOCUMENT !in container.value.streams ==> r == Err(UnsupportedFormat)
    ensures container.Some? && POWERPOINT_DOCUMENT in container.value.streams ==>
      var data := container.value.streams[POWERPOINT_DOCUMENT];
      && (ValidateStream(data).Err? ==> r == Err(ValidateStream(data).error))
      && (ValidateStream(data).Ok? ==> r.Ok? && r.value.slides == OrganizeIntoSlides(CollectTextEntries(data)))
    ensures r.Ok? ==> r.value.filename == filename && r.value.format == Ppt && r.value.notes == None
  {
    if container.None? then Err(CfbError)
    else if POWERPOINT_DOCUMENT !in container.value.streams then Err(UnsupportedFormat)
    else
      var data := container.value.streams[POWERPOINT_DOCUMENT];
      var validation := ValidateStream(data);
      if validation.Err? then Err(validation.error)
      else
        Ok(PresentationOf(filename, data))
  }

  /** The presentation built from a validated stream: a new presentation with each organized slide added in turn. */
  function PresentationOf(filename: string, data: seq<byte>): (p: Presentation)
    ensures p.filename == filename && p.format == Ppt && p.notes == None
    ensures p.slides == OrganizeIntoSlides(CollectTextEntries(data))
  {
    var slides := OrganizeIntoSlides(CollectTextEntries(data));
    AllLinesOfBuilt(filename, Ppt, slides);
    BuildKeepsHeader(filename, Ppt, slides);
    Build(filename, Ppt, slides)
  }

  lemma EntryOfLine(es: seq<TextEntry>, k: nat, i: nat) returns (e: TextEntry)
    requires |es| > 0 && k < |OrganizeIntoSlides(es)| && i < |OrganizeIntoSlides(es)[k].lines|
    ensures e in es && e.text == OrganizeIntoSlides(es)[k].lines[i].text
  {
    OrganizeLines(es, k);
    var gs := SlideGroups(es);
    var ents := SlideEntries(gs[k]);
    assert LineTexts(OrganizeIntoSlides(es)[k])[i] == OrganizeIntoSlides(es)[k].lines[i].text;
    e := ents[i];
    assert e in multiset(gs[k]);
    FlattenContains(gs, k, e);
  }

  /** A collected entry is accepted text read from one of the stream's text atoms. */
  predicate FromStream(data: seq<byte>, e: TextEntry)
  {
    e in CollectTextEntries(data) && Accepted(e) && ComesFrom(data, e, Visits(data, 0, |data|))
  }

  lemma EntryFromStream(data: seq<byte>, e: TextEntry)
    requires e in CollectTextEntries(data)
    ensures FromStream(data, e)
  {
    var es := CollectTextEntries(data);
    CollectTextEntriesFacts(data);
    var j :| 0 <= j < |es| && es[j] == e;
  }

  /**
   * Every line of a parsed presentation is accepted slide text that was read
   * from one of the stream's text atoms, and slides are numbered 1, 2, ...
   */
  lemma PresentationLines(filename: string, data: seq<byte>, k: nat, i: nat)
    requires k < |PresentationOf(filename, data).slides|
    requires i < |PresentationOf(filename, data).slides[k].lines|
    ensures PresentationOf(filename, data).slides[k].number == k + 1
    ensures exists e :: FromStream(data, e) && e.text == PresentationOf(filename, data).slides[k].lines[i].text
  {
    var es := CollectTextEntries(data);
    var e := EntryOfLine(es, k, i);
    EntryFromStream(data, e);
  }

  /** Some line of some slide reads `t`. */
  predicate Shows(slides: seq<ExtractedSlide>, t: string)
  {
    exists k, i :: 0 <= k < |slides| && 0 <= i < |slides[k].lines| && slides[k].lines[i].text == t
  }

  /** Every entry shows as a line of the slide its group becomes. */
  lemma LineOfEntry(es: seq<TextEntry>, e: TextEntry)
    requires e in es
    ensures Shows(OrganizeIntoSlides(es), e.text)
  {
    var gs := SlideGroups(es);
    var k := FlattenMember(gs, e);
    OrganizeLines(es, 0);
    OrganizeLines(es, k);
    var ents := SlideEntries(gs[k]);
    assert e in multiset(ents);
    var i :| 0 <= i < |ents| && ents[i] == e;
    assert LineTexts(OrganizeIntoSlides(es)[k])[i] == e.text;
  }

  /**
   * The converse of `PresentationLines`: every collected entry shows as a
   * line of the presentation.
   */
  lemma EntriesShown(filename: string, data: seq<byte>, e: TextEntry)
    requires e in CollectTextEntries(data)
    ensures Shows(PresentationOf(filename, data).slides, e.text)
  {
    LineOfEntry(CollectTextEntries(data), e);
  }

  /** Every text atom of the stream that the filter accepts shows as a line of the presentation. */
  lemma AcceptedAtomShown(filename: string, data: seq<byte>, j: nat)
    requires j < |Visits(data, 0, |data|)| && AcceptedAt(data, Visits(data, 0, |data|), j)
    ensures Shows(PresentationOf(filename, data).slides, TextOf(data, Visits(data, 0, |data|)[j]).value)
  {
    AcceptedAtomCollected(data, j);
    EntriesShown(filename, data, EntryAt(data, Visits(data, 0, |data|), j));
  }

  /** A text is a line of the parsed presentation exactly when some collected entry reads it. */
  lemma PresentationTexts(filename: string, data: seq<byte>, t: string)
    ensures Shows(PresentationOf(filename, data).slides, t) <==> exists e :: e in CollectTextEntries(data) && e.text == t
  {
    var slides := PresentationOf(filename, data).slides;
    if Shows(slides, t) {
      var k, i :| 0 <= k < |slides| && 0 <= i < |slides[k].lines| && slides[k].lines[i].text == t;
      PresentationLines(filename, data, k, i);
    }
    if e :| e in CollectTextEntries(data) && e.text == t {
      EntriesShown(filename, data, e);
    }
  }

  lemma OrderedParts(a: seq<TextEntry>, b: seq<TextEntry>)
    requires Ordered(a + b)
    ensures Ordered(a) && Ordered(b)
  {
    forall i, j | 0 <= i < j < |b| ensures b[i].position < b[j].position && b[i].slideHint <= b[j].slideHint {
      assert (a + b)[|a| + i] == b[i] && (a + b)[|a| + j] == b[j];
    }
    forall i, j | 0 <= i < j < |a| ensures a[i].position < a[j].position && a[i].slideHint <= a[j].slideHint {
      assert (a + b)[i] == a[i] && (a + b)[j] == a[j];
    }
  }

  lemma {:induction false} OrderedGroups(gs: seq<seq<TextEntry>>, k: nat)
    requires Ordered(Flatten(gs)) && k < |gs|
    ensures Ordered(gs[k])
  {
    OrderedParts(gs[0], Flatten(gs[1..]));
    if k > 0 {
      OrderedGroups(gs[1..], k - 1);
    }
  }

  /**
   * Within each slide of a parsed presentation, titles come first and each
   * part keeps stream order: the position sort never moves an entry.
   */
  lemma ParsePptSlideOrder(data: seq<byte>, k: nat)
    requires |CollectTextEntries(data)| > 0
    ensures var es := CollectTextEntries(data); var gs := SlideGroups(es);
      k < |gs| ==> SlideEntries(gs[k]) == Filter(IsTitleEntry, gs[k]) + Reject(IsTitleEntry, gs[k])
  {
    var es := CollectTextEntries(data);
    var gs := SlideGroups(es);
    if k < |gs| {
      CollectTextEntriesFacts(data);
      OrderedGroups(gs, k);
      SlideEntriesOfOrdered(gs[k]);
    }
  }
}

=== FILE: src/ppt_records.dfy ===
/**
 * The record layer of the legacy "PowerPoint Document" stream
 * (crates/ppt/src/parser.rs): 8-byte record headers, container nesting, and
 * the pre-order walk both passes of the parser perform.
 */
module PptRecords {
  import opened Bytes

  const RT_DOCUMENT: nat := 0x1388
  const RT_SLIDE: nat := 0x03E8
  const RT_SLIDE_PERSIST_ATOM: nat := 0x03F0
  const RT_TEXT_HEADER_ATOM: nat := 0x0F9F
  const RT_TEXT_CHARS_ATOM: nat := 0x0FA0
  const RT_TEXT_BYTES_ATOM: nat := 0x0FA8
  const RT_CSTRING: nat := 0x0FBA

  const HEADER_SIZE: nat := 8

  /** recVer/recInstance, recType and recLen, as read from the stream. */
  datatype Header = Header(verInstance: nat, recType: nat, len: nat)

  function ReadHeader(data: seq<byte>, pos: nat): (h: Header)
    requires pos + HEADER_SIZE <= |data|
    ensures h.verInstance < U16_LIMIT && h.recType < U16_LIMIT && h.len < U32_LIMIT
  {
    Header(ReadU16Le(data, pos), ReadU16Le(data, pos + 2), ReadU32Le(data, pos + 4))
  }

  /** The record type is the little-endian value of bytes 2 and 3 of the header. */
  lemma ReadHeaderType(data: seq<byte>, pos: nat)
    requires pos + HEADER_SIZE <= |data|
    ensures var h := ReadHeader(data, pos); h.recType % 256 == data[pos + 2] && h.recType / 256 == data[pos + 3]
  {
    ReadU16LeBytes(data, pos + 2);
  }

  /** The bytes of a header, the inverse of `ReadHeader`. */
  function WriteHeader(h: Header): (bs: seq<byte>)
    requires h.verInstance < U16_LIMIT && h.recType < U16_LIMIT && h.len < U32_LIMIT
    ensures |bs| == HEADER_SIZE
  {
    WriteU16Le(h.verInstance) + WriteU16Le(h.recType) + WriteU32Le(h.len)
  }

  lemma ReadWriteHeader(pre: seq<byte>, h: Header, post: seq<byte>)
    requires h.verInstance < U16_LIMIT && h.recType < U16_LIMIT && h.len < U32_LIMIT
    ensures ReadHeader(pre + WriteHeader(h) + post, |pre|) == h
  {
    var data := pre + WriteHeader(h) + post;
    ReadWriteU16(pre, h.verInstance, WriteU16Le(h.recType) + WriteU32Le(h.len) + post);
    assert data == pre + WriteU16Le(h.verInstance) + (WriteU16Le(h.recType) + WriteU32Le(h.len) + post);
    ReadWriteU16(pre + WriteU16Le(h.verInstance), h.recType, WriteU32Le(h.len) + post);
    assert data == pre + WriteU16Le(h.verInstance) + WriteU16Le(h.recType) + (WriteU32Le(h.len) + post);
    ReadWriteU32(pre + WriteU16Le(h.verInstance) + WriteU16Le(h.recType), h.len, post);
  }

  /** A record whose low four bits of recVer/recInstance are 0xF holds child records. */
  predicate IsContainer(h: Header)
  {
    h.verInstance % 16 == 0x0F
  }

  /** One step of the walk: a record read at `pos`, or a header whose length overruns its parent. */
  datatype Visit = Record(pos: nat, header: Header) | Overrun(pos: nat)

  /**
   * The records the walk meets between `pos` and `end`, in the order it meets
   * them: a record, then its children if it is a container, then its
   * siblings. A header whose content would pass `end` ends the walk at this
   * level (the parent carries on after its own content).
   */
  function Visits(data: seq<byte>, pos: nat, end: nat): seq<Visit>
    requires pos <= end <= |data|
    decreases end - pos
  {
    if pos + HEADER_SIZE > end then []
    else
      var h := ReadHeader(data, pos);
      var contentEnd := pos + HEADER_SIZE + h.len;
      if contentEnd > end then [Overrun(pos)]
      else
        [Record(pos, h)]
        + (if IsContainer(h) then Visits(data, pos + HEADER_SIZE, contentEnd) else [])
        + Visits(data, contentEnd, end)
  }

  predicate WellPlaced(data: seq<byte>, v: Visit, lo: nat, hi: nat)
  {
    lo <= v.pos && v.pos + HEADER_SIZE <= hi <= |data|
    && (v.Record? ==> v.header == ReadHeader(data, v.pos) && v.pos + HEADER_SIZE + v.header.len <= hi)
  }

  predicate AllWellPlaced(data: seq<byte>, vs: seq<Visit>, lo: nat, hi: nat)
  {
    forall i :: 0 <= i < |vs| ==> WellPlaced(data, vs[i], lo, hi)
  }

  predicate Increasing(vs: seq<Visit>)
  {
    forall i, j :: 0 <= i < j < |vs| ==> vs[i].pos < vs[j].pos
  }

  /** One record at `pos` that fits: the record, its children if it is a container, then its siblings. */
  lemma VisitsStep(data: seq<byte>, pos: nat, end: nat)
    requires pos + HEADER_SIZE <= end <= |data|
    requires pos + HEADER_SIZE + ReadHeader(data, pos).len <= end
    ensures var h := ReadHeader(data, pos); var contentEnd := pos + HEADER_SIZE + h.len;
      Visits(data, pos, end)
      == [Record(pos, h)]
         + (if IsContainer(h) then Visits(data, pos + HEADER_SIZE, contentEnd) else [])
         + Visits(data, contentEnd, end)
  {
  }

  /** Every visited header, and every visited record's content, lies inside the range walked. */
  lemma {:induction false} VisitsWellPlaced(data: seq<byte>, pos: nat, end: nat)
    requires pos <= end <= |data|
    ensures AllWellPlaced(data, Visits(data, pos, end), pos, end)
    decreases end - pos
  {
    var vs := Visits(data, pos, end);
    if pos + HEADER_SIZE > end {
      assert vs == [];
    } else {
      var h := ReadHeader(data, pos);
      var contentEnd := pos + HEADER_SIZE + h.len;
      if contentEnd > end {
        assert vs == [Overrun(pos)];
      } else {
        var inner := if IsContainer(h) then Visits(data, pos + HEADER_SIZE, contentEnd) else [];
        var rest := Visits(data, contentEnd, end);
        assert vs == [Record(pos, h)] + inner + rest by {
          VisitsStep(data, pos, end);
        }
        assert forall i :: 0 <= i < |inner| ==> pos <= inner[i].pos && WellPlaced(data, inner[i], inner[i].pos, end) by {
          if IsContainer(h) {
            VisitsWellPlaced(data, pos + HEADER_SIZE, contentEnd);
          }
        }
        assert forall i :: 0 <= i < |rest| ==> pos <= rest[i].pos && WellPlaced(data, rest[i], rest[i].pos, end) by {
          VisitsWellPlaced(data, contentEnd, end);
        }
        assert AllWellPlaced(data, [Record(pos, h)], pos, end);
        WellPlacedConcat(data, [Record(pos, h)], inner, rest, pos, end);
      }
    }
  }

  lemma WellPlacedConcat(data: seq<byte>, a: seq<Visit>, b: seq<Visit>, c: seq<Visit>, lo: nat, hi: nat)
    requires AllWellPlaced(data, a, lo, hi)
    requires forall i :: 0 <= i < |b| ==> lo <= b[i].pos && WellPlaced(data, b[i], b[i].pos, hi)
    requires forall i :: 0 <= i < |c| ==> lo <= c[i].pos && WellPlaced(data, c[i], c[i].pos, hi)
    ensures AllWellPlaced(data, a + b + c, lo, hi)
  {
  }

  /** The offsets the walk visits lie in the range walked, a header's length before its end. */
  lemma VisitsWithin(data: seq<byte>, pos: nat, end: nat)
    requires pos <= end <= |data|
    ensures forall i :: 0 <= i < |Visits(data, pos, end)| ==>
      pos <= Visits(data, pos, end)[i].pos && Visits(data, pos, end)[i].pos + HEADER_SIZE <= end
  {
    VisitsWellPlaced(data, pos, end);
  }

  lemma IncreasingConcat(a: seq<Visit>, m: nat, b: seq<Visit>)
    requires Increasing(a) && Increasing(b)
    requires forall i :: 0 <= i < |a| ==> a[i].pos < m
    requires forall i :: 0 <= i < |b| ==> m <= b[i].pos
    ensures Increasing(a + b)
  {
  }

  /** A record, then children after its header and before its end, then siblings after its end. */
  lemma IncreasingStep(pos: nat, h: Header, contentEnd: nat, inner: seq<Visit>, rest: seq<Visit>)
    requires pos < contentEnd
    requires Increasing(inner) && Increasing(rest)
    requires forall i :: 0 <= i < |inner| ==> pos < inner[i].pos < contentEnd
    requires forall i :: 0 <= i < |rest| ==> contentEnd <= rest[i].pos
    ensures Increasing([Record(pos, h)] + inner + rest)
  {
    IncreasingConcat([Record(pos, h)], pos + 1, inner);
    IncreasingConcat([Record(pos, h)] + inner, contentEnd, rest);
  }

  /** The walk meets records at strictly increasing offsets: each is visited once, in stream order. */
  lemma {:induction false} VisitsIncreasing(data: seq<byte>, pos: nat, end: nat)
    requires pos <= end <= |data|
    ensures Increasing(Visits(data, pos, end))
    decreases end - pos
  {
    var vs := Visits(data, pos, end);
    if pos + HEADER_SIZE > end {
      assert vs == [];
    } else {
      var h := ReadHeader(data, pos);
      var contentEnd := pos + HEADER_SIZE + h.len;
      if contentEnd > end {
        assert vs == [Overrun(pos)];
      } else {
        var inner := if IsContainer(h) then Visits(data, pos + HEADER_SIZE, contentEnd) else [];
        var rest := Visits(data, contentEnd, end);
        assert vs == [Record(pos, h)] + inner + rest by {
          VisitsStep(data, pos, end);
        }
        assert Increasing(rest) && forall i :: 0 <= i < |rest| ==> contentEnd <= rest[i].pos by {
          VisitsIncreasing(data, contentEnd, end);
          VisitsWithin(data, contentEnd, end);
        }
        assert Increasing(inner) && forall i :: 0 <= i < |inner| ==> pos < inner[i].pos < contentEnd by {
          if IsContainer(h) {
            VisitsIncreasing(data, pos + HEADER_SIZE, contentEnd);
            VisitsWithin(data, pos + HEADER_SIZE, contentEnd);
          }
        }
        IncreasingStep(pos, h, contentEnd, inner, rest);
      }
    }
  }

  predicate ZeroFrom(data: seq<byte>, pos: nat, end: nat)
    requires pos <= end <= |data|
  {
    forall k :: pos <= k < end ==> data[k] == 0
  }

  /** A zero-filled region reads as a run of empty, childless records of type 0. */
  lemma {:induction false} ZeroVisits(data: seq<byte>, pos: nat, end: nat)
    requires pos <= end <= |data| && ZeroFrom(data, pos, end)
    ensures forall i :: 0 <= i < |Visits(data, pos, end)| ==> Visits(data, pos, end)[i] == Record(Visits(data, pos, end)[i].pos, Header(0, 0, 0))
    decreases end - pos
  {
    if pos + HEADER_SIZE <= end {
      var h := ReadHeader(data, pos);
      assert h == Header(0, 0, 0);
      ZeroVisits(data, pos + HEADER_SIZE, end);
    }
  }
}

=== FILE: src/ppt_slides.dfy ===
/**
 * Turning collected text entries into slides (`organize_into_slides` and
 * `split_by_titles` in crates/ppt/src/parser.rs): entries are grouped by
 * slide hint, a single group falls back to splitting at titles, and each
 * slide lists its titles before its other text.
 */
module PptSlides {
  import opened Wrappers
  import opened Seqs
  import StableSort
  import opened Types
  import opened PptText
  import opened PptCollect

  predicate IsTitleEntry(e: TextEntry)
  {
    IsTitleType(e.textType)
  }

  predicate NonEmptyGroups(gs: seq<seq<TextEntry>>)
  {
    forall k :: 0 <= k < |gs| ==> |gs[k]| > 0
  }

  /** Every entry of the group has the hint of its first entry. */
  predicate SameHint(g: seq<TextEntry>)
  {
    forall i :: 0 <= i < |g| ==> g[i].slideHint == g[0].slideHint
  }

  /** Maximal runs of equal slide hints: non-empty, uniform, and neighbours differ. */
  predicate IsHintRuns(gs: seq<seq<TextEntry>>)
  {
    && NonEmptyGroups(gs)
    && (forall k :: 0 <= k < |gs| ==> SameHint(gs[k]))
    && (forall k :: 0 <= k < |gs| - 1 ==> gs[k][0].slideHint != gs[k + 1][0].slideHint)
  }

  /** The grouping loop of `organize_into_slides`. */
  function GroupLoop(es: seq<TextEntry>, groups: seq<seq<TextEntry>>, current: seq<TextEntry>, last: nat): seq<seq<TextEntry>>
    decreases |es|
  {
    if |es| == 0 then (if |current| > 0 then groups + [current] else groups)
    else
      var e := es[0];
      if e.slideHint != last && |current| > 0 then GroupLoop(es[1..], groups + [current], [e], e.slideHint)
      else GroupLoop(es[1..], groups, current + [e], e.slideHint)
  }

  /** Entries grouped into runs of equal slide hint, starting from hint 0. */
  function GroupBySlideHint(es: seq<TextEntry>): seq<seq<TextEntry>>
  {
    GroupLoop(es, [], [], 0)
  }

  lemma FlattenPush<T>(groups: seq<seq<T>>, current: seq<T>, e: T, rest: seq<T>)
    ensures Flatten(groups + [current]) + [e] + rest == Flatten(groups) + current + ([e] + rest)
  {
    FlattenAppend(groups, [current]);
    FlattenSingle(current);
  }

  lemma GroupLoopRuns(es: seq<TextEntry>, groups: seq<seq<TextEntry>>, current: seq<TextEntry>, last: nat)
    requires IsHintRuns(groups)
    requires |current| == 0 ==> |groups| == 0
    requires |current| > 0 ==> SameHint(current) && current[0].slideHint == last
    requires |groups| > 0 ==> groups[|groups| - 1][0].slideHint != current[0].slideHint
    ensures IsHintRuns(GroupLoop(es, groups, current, last))
    ensures Flatten(GroupLoop(es, groups, current, last)) == Flatten(groups) + current + es
  {
    GroupLoopHints(es, groups, current, last);
    GroupLoopFlatten(es, groups, current, last);
  }

  /** The grouping loop only closes maximal runs of equal hint. */
  lemma {:induction false} GroupLoopHints(es: seq<TextEntry>, groups: seq<seq<TextEntry>>, current: seq<TextEntry>, last: nat)
    requires IsHintRuns(groups)
    requires |current| == 0 ==> |groups| == 0
    requires |current| > 0 ==> SameHint(current) && current[0].slideHint == last
    requires |groups| > 0 ==> groups[|groups| - 1][0].slideHint != current[0].slideHint
    ensures IsHintRuns(GroupLoop(es, groups, current, last))
    decreases |es|
  {
    if |es| == 0 {
      if |current| > 0 {
        PushRun(groups, current);
      }
    } else {
      var e, rest := es[0], es[1..];
      if e.slideHint != last && |current| > 0 {
        PushRun(groups, current);
        GroupLoopHints(rest, groups + [current], [e], e.slideHint);
      } else {
        ExtendRun(current, e);
        GroupLoopHints(rest, groups, current + [e], e.slideHint);
      }
    }
  }

  /** The grouping loop loses and reorders no entry. */
  lemma {:induction false} GroupLoopFlatten(es: seq<TextEntry>, groups: seq<seq<TextEntry>>, current: seq<TextEntry>, last: nat)
    ensures Flatten(GroupLoop(es, groups, current, last)) == Flatten(groups) + current + es
    decreases |es|
  {
    if |es| == 0 {
      if |current| > 0 {
        FlattenAppend(groups, [current]);
        FlattenSingle(current);
      }
    } else {
      var e, rest := es[0], es[1..];
      assert [e] + rest == es;
      if e.slideHint != last && |current| > 0 {
        GroupLoopFlatten(rest, groups + [current], [e], e.slideHint);
        FlattenPush(groups, current, e, rest);
      } else {
        GroupLoopFlatten(rest, groups, current + [e], e.slideHint);
        AppendAssoc(Flatten(groups) + current, [e], rest);
      }
    }
  }

  /** Closing a run of equal hints that differs from the last one keeps the groups runs. */
  lemma PushRun(groups: seq<seq<TextEntry>>, current: seq<TextEntry>)
    requires IsHintRuns(groups)
    requires |current| > 0 && SameHint(current)
    requires |groups| > 0 ==> groups[|groups| - 1][0].slideHint != current[0].slideHint
    ensures IsHintRuns(groups + [current])
  {
    var gs := groups + [current];
    assert forall k :: 0 <= k < |groups| ==> gs[k] == groups[k];
  }

  /** An entry with the run's hint extends it. */
  lemma ExtendRun(current: seq<TextEntry>, e: TextEntry)
    requires SameHint(current)
    requires |current| > 0 ==> current[0].slideHint == e.slideHint
    ensures SameHint(current + [e]) && (current + [e])[0].slideHint == e.slideHint
  {
  }

  /** Grouping by hint cuts the entries into maximal runs of equal hint, losing and reordering nothing. */
  lemma GroupBySlideHintRuns(es: seq<TextEntry>)
    ensures IsHintRuns(GroupBySlideHint(es))
    ensures Flatten(GroupBySlideHint(es)) == es
  {
    GroupLoopRuns(es, [], [], 0);
  }

  /** Each group opens with its only title, if any: titles appear only first, and every later group starts with one. */
  predicate IsTitleRuns(gs: seq<seq<TextEntry>>)
  {
    && NonEmptyGroups(gs)
    && (forall k, i :: 0 <= k < |gs| && 0 < i < |gs[k]| ==> !IsTitleEntry(gs[k][i]))
    && (forall k :: 0 < k < |gs| ==> IsTitleEntry(gs[k][0]))
  }

  /** The loop of `split_by_titles`. */
  function TitleLoop(es: seq<TextEntry>, groups: seq<seq<TextEntry>>, current: seq<TextEntry>): seq<seq<TextEntry>>
    decreases |es|
  {
    if |es| == 0 then (if |current| > 0 then groups + [current] else groups)
    else
      var e := es[0];
      if IsTitleEntry(e) && |current| > 0 then TitleLoop(es[1..], groups + [current], [e])
      else TitleLoop(es[1..], groups, current + [e])
  }

  /** `split_by_titles`: a new group starts at every title that is not first. */
  function SplitByTitles(es: seq<TextEntry>): seq<seq<TextEntry>>
  {
    TitleLoop(es, [], [])
  }

  lemma {:induction false} TitleLoopRuns(es: seq<TextEntry>, groups: seq<seq<TextEntry>>, current: seq<TextEntry>)
    requires IsTitleRuns(groups)
    requires forall i :: 0 < i < |current| ==> !IsTitleEntry(current[i])
    requires |groups| > 0 ==> |current| > 0 && IsTitleEntry(current[0])
    ensures IsTitleRuns(TitleLoop(es, groups, current))
    ensures Flatten(TitleLoop(es, groups, current)) == Flatten(groups) + current + es
    decreases |es|
  {
    if |es| == 0 {
      if |current| > 0 {
        FlattenAppend(groups, [current]);
        FlattenSingle(current);
      }
    } else {
      var e := es[0];
      assert es == [e] + es[1..];
      if IsTitleEntry(e) && |current| > 0 {
        TitleLoopRuns(es[1..], groups + [current], [e]);
        FlattenPush(groups, current, e, es[1..]);
      } else {
        TitleLoopRuns(es[1..], groups, current + [e]);
        assert Flatten(groups) + (current + [e]) + es[1..] == Flatten(groups) + current + es;
      }
    }
  }

  /** Splitting at titles loses and reorders nothing, and puts every title other than the first at the head of a group. */
  lemma SplitByTitlesRuns(es: seq<TextEntry>)
    ensures IsTitleRuns(SplitByTitles(es))
    ensures Flatten(SplitByTitles(es)) == es
  {
    TitleLoopRuns(es, [], []);
  }

  /** The groups `organize_into_slides` turns into slides. */
  function SlideGroups(es: seq<TextEntry>): (gs: seq<seq<TextEntry>>)
    ensures NonEmptyGroups(gs) && Flatten(gs) == es
  {
    var byHint := GroupBySlideHint(es);
    GroupBySlideHintRuns(es);
    SplitByTitlesRuns(es);
    if |byHint| == 1 && |byHint[0]| > 1 then SplitByTitles(es) else byHint
  }

  /** The title fallback is taken exactly when there are several entries and all share one hint. */
  lemma SlideGroupsFallback(es: seq<TextEntry>)
    ensures var byHint := GroupBySlideHint(es);
      (|byHint| == 1 && |byHint[0]| > 1) <==> (|es| > 1 && forall i :: 0 <= i < |es| ==> es[i].slideHint == es[0].slideHint)
  {
    var gs := GroupBySlideHint(es);
    GroupBySlideHintRuns(es);
    if |gs| == 1 {
      assert Flatten(gs) == gs[0] + Flatten(gs[1..]);
      assert gs[0] == es;
    }
    if |es| > 1 && forall i :: 0 <= i < |es| ==> es[i].slideHint == es[0].slideHint {
      if |gs| != 1 {
        assert |gs| >= 2;
        SecondGroupSameHint(gs, es);
      }
    }
  }

  /** With two or more runs, the second run's first entry has a different hint than the first entry. */
  lemma SecondGroupSameHint(gs: seq<seq<TextEntry>>, es: seq<TextEntry>)
    requires |gs| >= 2 && IsHintRuns(gs) && Flatten(gs) == es
    ensures exists i :: 0 <= i < |es| && es[i].slideHint != es[0].slideHint
  {
    assert Flatten(gs) == gs[0] + (gs[1] + Flatten(gs[2..]));
    assert es[0] == gs[0][0];
    assert es[|gs[0]|] == gs[1][0];
  }

  predicate PositionLeq(a: TextEntry, b: TextEntry)
  {
    a.position <= b.position
  }

  lemma PositionLeqIsTotalPreorder()
    ensures StableSort.TotalPreorder(PositionLeq)
  {
  }

  /** A group's entries as they become lines: by position, titles first, each part keeping its order. */
  function SlideEntries(g: seq<TextEntry>): (r: seq<TextEntry>)
    ensures multiset(r) == multiset(g)
    ensures |r| == |g|
  {
    var sorted := StableSort.Sort(PositionLeq, g);
    FilterRejectMultiset(IsTitleEntry, sorted);
    Filter(IsTitleEntry, sorted) + Reject(IsTitleEntry, sorted)
  }

  function EntryLine(e: TextEntry): SlideText
  {
    SlideText(e.text, None, None)
  }

  function EntryText(e: TextEntry): string
  {
    e.text
  }

  /** One slide per group with lines, numbered by the group's place (`ExtractedSlide::new(i + 1)`). */
  function BuildSlides(gs: seq<seq<TextEntry>>, index: nat): (slides: seq<ExtractedSlide>)
    ensures |slides| <= |gs|
  {
    if |gs| == 0 then []
    else
      var lines := Map(EntryLine, SlideEntries(gs[0]));
      (if |lines| > 0 then [ExtractedSlide(index + 1, lines, None)] else []) + BuildSlides(gs[1..], index + 1)
  }

  /** Groups that all have entries give one slide each, in order, numbered from `index + 1`. */
  lemma {:induction false} BuildSlidesOfNonEmpty(gs: seq<seq<TextEntry>>, index: nat)
    requires NonEmptyGroups(gs)
    ensures var slides := BuildSlides(gs, index);
      && |slides| == |gs|
      && forall k :: 0 <= k < |slides| ==>
        && slides[k].number == index + k + 1
        && slides[k].notes == None
        && slides[k].lines == Map(EntryLine, SlideEntries(gs[k]))
        && |slides[k].lines| == |gs[k]|
  {
    if |gs| > 0 {
      var tail := gs[1..];
      assert NonEmptyGroups(tail) by {
        forall k | 0 <= k < |tail| ensures |tail[k]| > 0 {
          assert tail[k] == gs[k + 1];
        }
      }
      BuildSlidesOfNonEmpty(tail, index + 1);
      var slides, rest := BuildSlides(gs, index), BuildSlides(tail, index + 1);
      var first := ExtractedSlide(index + 1, Map(EntryLine, SlideEntries(gs[0])), None);
      assert |gs[0]| > 0;
      assert slides == [first] + rest;
      assert slides[0] == first && slides[1..] == rest;
      forall k | 0 <= k < |slides|
        ensures slides[k].number == index + k + 1
        ensures slides[k].notes == None
        ensures slides[k].lines == Map(EntryLine, SlideEntries(gs[k]))
        ensures |slides[k].lines| == |gs[k]|
      {
        if k > 0 {
          assert slides[k] == slides[1..][k - 1];
          assert gs[k] == tail[k - 1];
        }
      }
    }
  }

  lemma FlattenOfNone<T>(gs: seq<seq<T>>)
    ensures |gs| == 0 ==> Flatten(gs) == []
  {
  }

  /** `organize_into_slides`. */
  function OrganizeIntoSlides(es: seq<TextEntry>): (slides: seq<ExtractedSlide>)
    ensures |es| == 0 <==> |slides| == 0
    ensures forall k :: 0 <= k < |slides| ==> slides[k].number == k + 1 && |slides[k].lines| > 0 && slides[k].notes == None
  {
    if |es| == 0 then []
    else
      var gs := SlideGroups(es);
      FlattenOfNone(gs);
      BuildSlidesOfNonEmpty(gs, 0);
      BuildSlides(gs, 0)
  }

  /** Slide `k` holds exactly the entries of group `k`, titles first. */
  lemma OrganizeLines(es: seq<TextEntry>, k: nat)
    requires |es| > 0 && k < |OrganizeIntoSlides(es)|
    ensures |SlideGroups(es)| == |OrganizeIntoSlides(es)|
    ensures LineTexts(OrganizeIntoSlides(es)[k]) == Map(EntryText, SlideEntries(SlideGroups(es)[k]))
    ensures multiset(SlideEntries(SlideGroups(es)[k])) == multiset(SlideGroups(es)[k])
  {
    var s := OrganizeIntoSlides(es)[k];
    var ents := SlideEntries(SlideGroups(es)[k]);
    BuildSlidesOfNonEmpty(SlideGroups(es), 0);
    assert s.lines == Map(EntryLine, ents);
  }

  /** Within a slide no non-title line comes before a title line. */
  lemma SlideEntriesTitlesFirst(g: seq<TextEntry>, i: nat, j: nat)
    requires i < j < |SlideEntries(g)| && IsTitleEntry(SlideEntries(g)[j])
    ensures IsTitleEntry(SlideEntries(g)[i])
  {
    var sorted := StableSort.Sort(PositionLeq, g);
    var titles, others := Filter(IsTitleEntry, sorted), Reject(IsTitleEntry, sorted);
    assert SlideEntries(g) == titles + others;
    // Were `i` past the titles, `j` would be too, among the non-titles.
    if i < |titles| {
      assert SlideEntries(g)[i] == titles[i];
    }
  }

  /** Entries already in stream order are not moved by the position sort. */
  lemma SlideEntriesOfOrdered(g: seq<TextEntry>)
    requires Ordered(g)
    ensures SlideEntries(g) == Filter(IsTitleEntry, g) + Reject(IsTitleEntry, g)
  {
    StableSort.SortSortedIsIdentity(PositionLeq, g);
  }
}

=== FILE: src/ppt_text.dfy ===
/**
 * Text atoms of the legacy format (crates/ppt/src/parser.rs): the text-type
 * codes, ANSI and UTF-16 extraction, and the filter that drops master
 * template placeholders and bullets.
 */
module PptText {
  import opened Wrappers
  import opened Bytes
  import opened Chars
  import opened Strings
  import Cp1252
  import Utf16

  /** The `TextType` of a text header atom. */
  datatype TextType = Title | Body | Notes | NotUsed | Other | CenterBody | CenterTitle | HalfBody | QuarterBody

  function Code(t: TextType): (v: nat)
    ensures v <= 8
  {
    match t
    case Title => 0
    case Body => 1
    case Notes => 2
    case NotUsed => 3
    case Other => 4
    case CenterBody => 5
    case CenterTitle => 6
    case HalfBody => 7
    case QuarterBody => 8
  }

  /** `TextType::from_u32`: codes above 8 read as `Other`. */
  function FromU32(v: nat): (t: TextType)
    ensures v > 8 ==> t == Other
  {
    if v == 0 then Title
    else if v == 1 then Body
    else if v == 2 then Notes
    else if v == 3 then NotUsed
    else if v == 5 then CenterBody
    else if v == 6 then CenterTitle
    else if v == 7 then HalfBody
    else if v == 8 then QuarterBody
    else Other
  }

  /** Every text type is read back from its own code, and every known code names its type. */
  lemma FromU32Code(t: TextType, v: nat)
    ensures FromU32(Code(t)) == t
    ensures v <= 8 ==> Code(FromU32(v)) == v
  {
  }

  /** `is_slide_content`: everything but speaker notes and unused text. */
  predicate IsSlideContent(t: TextType)
  {
    t != Notes && t != NotUsed
  }

  predicate IsTitleType(t: TextType)
  {
    t == Title || t == CenterTitle
  }

  /** The bytes before the first zero byte (or all of them). */
  function BeforeNul(bs: seq<byte>): (r: seq<byte>)
    ensures r <= bs && 0 !in r
    ensures |r| < |bs| ==> bs[|r|] == 0
  {
    if |bs| == 0 || bs[0] == 0 then [] else [bs[0]] + BeforeNul(bs[1..])
  }

  /**
   * `extract_ansi_text`: the record's bytes up to the first zero, decoded
   * with Windows-1252; nothing when the record is empty, runs past the
   * stream, or decodes to whitespace only.
   */
  function ExtractAnsi(data: seq<byte>, start: nat, len: nat): (r: Option<string>)
    ensures len == 0 || start + len > |data| ==> r == None
    ensures r.Some? ==> '\0' !in r.value && |r.value| <= len && !AllWhitespace(r.value)
  {
    if len == 0 || start + len > |data| then None
    else
      var text := Cp1252.DecodeBytes(BeforeNul(data[start..start + len]));
      if Trim(text) == "" then None
      else
        assert forall i :: 0 <= i < |text| ==> text[i] != '\0';
        Some(text)
  }

  lemma BeforeNulOfEncoded(bs: seq<byte>, tail: seq<byte>)
    requires 0 !in bs && (|tail| == 0 || tail[0] == 0)
    ensures BeforeNul(bs + tail) == bs
  {
    var x := bs + tail;
    var r := BeforeNul(x);
    assert |r| == |bs|;
    assert r == x[..|bs|];
  }

  /**
   * Text written in Windows-1252 and ended by a zero byte or the record's
   * end is read back unchanged, whatever follows the zero.
   */
  lemma ExtractAnsiOfEncoded(pre: seq<byte>, text: string, tail: seq<byte>)
    requires Cp1252.Encodable(text) && '\0' !in text && !AllWhitespace(text)
    requires |tail| == 0 || tail[0] == 0
    ensures ExtractAnsi(pre + Cp1252.EncodeString(text) + tail, |pre|, |text| + |tail|) == Some(text)
  {
    var enc := Cp1252.EncodeString(text);
    var data := pre + enc + tail;
    assert data[|pre|..|pre| + |text| + |tail|] == enc + tail;
    Cp1252.EncodeStringNoZero(text);
    BeforeNulOfEncoded(enc, tail);
    Cp1252.DecodeEncodeString(text);
  }

  lemma EncodeHelloWorld()
    ensures Cp1252.Encodable("Hello World")
    ensures Cp1252.EncodeString("Hello World") == [0x48, 0x65, 0x6C, 0x6C, 0x6F, 0x20, 0x57, 0x6F, 0x72, 0x6C, 0x64]
  {
  }

  lemma ExtractAnsiOfHelloWorld(data: seq<byte>)
    requires data == Cp1252.EncodeString("Hello World") + [0x00, 0x67, 0x61, 0x72, 0x62, 0x61, 0x67, 0x65]
    ensures ExtractAnsi(data, 0, 19) == Some("Hello World")
  {
    var text := "Hello World";
    EncodeHelloWorld();
    assert !IsWhitespace(text[0]);
    ExtractAnsiOfEncoded([], text, [0x00, 0x67, 0x61, 0x72, 0x62, 0x61, 0x67, 0x65]);
    assert [] + Cp1252.EncodeString(text) == Cp1252.EncodeString(text);
  }

  /** The parser's ANSI test: "Hello World", a zero byte, then garbage. */
  lemma ExtractAnsiHelloWorld()
    ensures ExtractAnsi([0x48, 0x65, 0x6C, 0x6C, 0x6F, 0x20, 0x57, 0x6F, 0x72, 0x6C, 0x64, 0x00, 0x67, 0x61, 0x72, 0x62, 0x61, 0x67, 0x65], 0, 19)
      == Some("Hello World")
  {
    EncodeHelloWorld();
    ExtractAnsiOfHelloWorld([0x48, 0x65, 0x6C, 0x6C, 0x6F, 0x20, 0x57, 0x6F, 0x72, 0x6C, 0x64, 0x00, 0x67, 0x61, 0x72, 0x62, 0x61, 0x67, 0x65]);
  }

  /**
   * `extract_unicode_text`: the record read as UTF-16LE up to the first NUL
   * or ill-formed unit; nothing when the record is empty, runs past the
   * stream, has an odd length, or decodes to the empty string.
   */
  function ExtractUnicode(data: seq<byte>, start: nat, len: nat): (r: Option<string>)
    ensures len == 0 || start + len > |data| || len % 2 != 0 ==> r == None
    ensures r.Some? ==> r.value != "" && '\0' !in r.value && |r.value| <= len / 2
  {
    if len == 0 || start + len > |data| || len % 2 != 0 then None
    else
      var text := Utf16.DecodePrefix(Utf16.Units(data[start..start + len]));
      if text == "" then None else Some(text)
  }

  /** A record that fits the stream and has an even length is decoded from its own bytes. */
  lemma ExtractUnicodeOfRecord(pre: seq<byte>, bs: seq<byte>, post: seq<byte>)
    requires |bs| > 0 && |bs| % 2 == 0
    ensures var text := Utf16.DecodePrefix(Utf16.Units(bs));
      ExtractUnicode(pre + bs + post, |pre|, |bs|) == if text == "" then None else Some(text)
  {
    assert (pre + bs + post)[|pre|..|pre| + |bs|] == bs;
  }

  /**
   * A non-empty NUL-free string written as UTF-16LE, followed by a NUL, a
   * stray low surrogate or the record's end, is read back unchanged.
   */
  lemma ExtractUnicodeOfEncoded(pre: seq<byte>, text: string, rest: seq<Utf16.unit>)
    requires text != "" && '\0' !in text
    requires |rest| == 0 || rest[0] == 0 || Utf16.IsLowSurrogate(rest[0])
    ensures var us := Utf16.Encode(text) + rest;
      ExtractUnicode(pre + Utf16.UnitBytes(us), |pre|, 2 * |us|) == Some(text)
  {
    var us := Utf16.Encode(text) + rest;
    var bs := Utf16.UnitBytes(us);
    ExtractUnicodeOfRecord(pre, bs, []);
    assert pre + bs + [] == pre + bs;
    Utf16.UnitsOfUnitBytes(us);
    Utf16.DecodeEncode(text, rest);
  }

  /** The parser's UTF-16 test: the four bytes of "Hi". */
  lemma ExtractUnicodeHi()
    ensures ExtractUnicode([0x48, 0x00, 0x69, 0x00], 0, 4) == Some("Hi")
  {
    assert Utf16.Encode("Hi") == [0x48, 0x69];
    assert Utf16.UnitBytes([0x48, 0x69]) == [0x48, 0x00, 0x69, 0x00];
    ExtractUnicodeOfEncoded([], "Hi", []);
    assert [] + Utf16.UnitBytes(Utf16.Encode("Hi") + []) == [0x48, 0x00, 0x69, 0x00];
  }

  /** The master-template placeholder fragments, matched case-sensitively. */
  const TEMPLATE_PATTERNS: seq<string> := [
    "Click to edit", "click to edit", "Edit Master", "edit master",
    "Master title", "master title", "Master text", "master text",
    "Second level", "Third level", "Fourth level", "Fifth level"]

  predicate HasTemplatePattern(s: string)
  {
    exists k :: 0 <= k < |TEMPLATE_PATTERNS| && Contains(s, TEMPLATE_PATTERNS[k])
  }

  /**
   * `is_valid_slide_text` as written: the single-character test compares
   * the UTF-8 byte length of the trimmed text with 1.
   */
  function IsValidSlideTextAsWritten(text: string, t: TextType): (ok: bool)
    ensures ok ==> !AllWhitespace(text) && IsSlideContent(t) && !HasTemplatePattern(Trim(text))
  {
    var trimmed := Trim(text);
    if trimmed == "" then false
    else if !IsSlideContent(t) then false
    else if HasTemplatePattern(trimmed) then false
    else if ByteLen(trimmed) == 1 && !IsAlphanumeric(trimmed[0]) then false
    else true
  }

  /** `is_valid_slide_text` with the single-character test on the character count. */
  function IsValidSlideText(text: string, t: TextType): (ok: bool)
  {
    var trimmed := Trim(text);
    if trimmed == "" then false
    else if !IsSlideContent(t) then false
    else if HasTemplatePattern(trimmed) then false
    else if |trimmed| == 1 && !IsAlphanumeric(trimmed[0]) then false
    else true
  }

  lemma PatternsAreTrimmed()
    ensures forall k :: 0 <= k < |TEMPLATE_PATTERNS| ==> |TEMPLATE_PATTERNS[k]| > 0 && IsTrimmed(TEMPLATE_PATTERNS[k])
  {
  }

  lemma OccursInSlice(text: string, i: nat, j: nat, p: string, m: nat)
    requires i <= j <= |text| && OccursAt(text[i..j], p, m)
    ensures OccursAt(text, p, i + m)
  {
    forall k | 0 <= k < |p| ensures text[i + m + k] == p[k] {
      assert text[i..j][m..m + |p|][k] == p[k];
    }
    assert text[i + m..i + m + |p|] == p;
  }

  lemma OccursWithinSlice(text: string, i: nat, j: nat, p: string, m: nat)
    requires i <= m && m + |p| <= j <= |text| && OccursAt(text, p, m)
    ensures OccursAt(text[i..j], p, m - i)
  {
    forall k | 0 <= k < |p| ensures text[i..j][m - i + k] == p[k] {
      assert text[m..m + |p|][k] == p[k];
    }
    assert text[i..j][m - i..m - i + |p|] == p;
  }

  /** An occurrence in the trimmed text is an occurrence in the text. */
  lemma ContainsOfTrimmed(text: string, p: string)
    requires Contains(Trim(text), p)
    ensures Contains(text, p)
  {
    TrimAt(text);
    var i := TrimOffset(text);
    var j := i + |Trim(text)|;
    ContainsIffOccurs(Trim(text), p);
    var m :| OccursAt(Trim(text), p, m);
    OccursInSlice(text, i, j, p, m);
    ContainsAt(text, p, i + m);
  }

  lemma NonWhitespaceInside(text: string, i: nat, j: nat, m: nat)
    requires i <= j <= |text| && m < |text| && !IsWhitespace(text[m])
    requires forall k :: 0 <= k < i ==> IsWhitespace(text[k])
    requires forall k :: j <= k < |text| ==> IsWhitespace(text[k])
    ensures i <= m < j
  {
  }

  /** An occurrence of a pattern with non-blank ends cannot touch the whitespace trimming removes. */
  lemma OccursInTrimmed(text: string, p: string, m: nat)
    requires |p| > 0 && IsTrimmed(p) && OccursAt(text, p, m)
    ensures TrimOffset(text) <= m && OccursAt(Trim(text), p, m - TrimOffset(text))
  {
    TrimAt(text);
    var i := TrimOffset(text);
    var j := i + |Trim(text)|;
    assert text[m] == text[m..m + |p|][0] == p[0];
    assert text[m + |p| - 1] == text[m..m + |p|][|p| - 1] == p[|p| - 1];
    NonWhitespaceInside(text, i, j, m);
    NonWhitespaceInside(text, i, j, m + |p| - 1);
    OccursWithinSlice(text, i, j, p, m);
  }

  lemma ContainsInTrimmed(text: string, p: string)
    requires |p| > 0 && IsTrimmed(p) && Contains(text, p)
    ensures Contains(Trim(text), p)
  {
    ContainsIffOccurs(text, p);
    var m :| OccursAt(text, p, m);
    OccursInTrimmed(text, p, m);
    ContainsAt(Trim(text), p, m - TrimOffset(text));
  }

  /** A pattern with no whitespace at its ends occurs in a text exactly when it occurs in the trimmed text. */
  lemma ContainsTrimmed(text: string, p: string)
    requires |p| > 0 && IsTrimmed(p)
    ensures Contains(text, p) <==> Contains(Trim(text), p)
  {
    if Contains(text, p) {
      ContainsInTrimmed(text, p);
    }
    if Contains(Trim(text), p) {
      ContainsOfTrimmed(text, p);
    }
  }

  lemma TemplateInTrimmed(text: string)
    ensures HasTemplatePattern(text) <==> HasTemplatePattern(Trim(text))
  {
    PatternsAreTrimmed();
    forall k | 0 <= k < |TEMPLATE_PATTERNS|
      ensures Contains(text, TEMPLATE_PATTERNS[k]) <==> Contains(Trim(text), TEMPLATE_PATTERNS[k])
    {
      ContainsTrimmed(text, TEMPLATE_PATTERNS[k]);
    }
  }

  /**
   * What the filter keeps, stated on the text as found: it is not blank, it
   * is slide content, no placeholder fragment occurs anywhere in it, and it
   * is not a lone non-alphanumeric character between whitespace.
   */
  lemma IsValidSlideTextMeaning(text: string, t: TextType)
    ensures IsValidSlideText(text, t) <==>
      && !AllWhitespace(text)
      && IsSlideContent(t)
      && !HasTemplatePattern(text)
      && !(|Trim(text)| == 1 && !IsAlphanumeric(Trim(text)[0]))
  {
    TemplateInTrimmed(text);
  }

  /**
   * What the filter as written keeps, over all inputs: the text is not
   * blank, the type is slide content, no placeholder fragment occurs, and
   * the trimmed text is not one UTF-8 byte that is not alphanumeric.
   */
  lemma IsValidSlideTextAsWrittenMeaning(text: string, t: TextType)
    ensures IsValidSlideTextAsWritten(text, t) <==>
      && !AllWhitespace(text)
      && IsSlideContent(t)
      && !HasTemplatePattern(text)
      && !(ByteLen(Trim(text)) == 1 && !IsAlphanumeric(Trim(text)[0]))
  {
    TemplateInTrimmed(text);
  }

  /** The two filters differ only on lone non-ASCII symbols: ASCII text is judged alike. */
  lemma AsWrittenAgreesOnAscii(text: string, t: TextType)
    requires forall i :: 0 <= i < |Trim(text)| ==> Trim(text)[i] as int < 0x80
    ensures IsValidSlideTextAsWritten(text, t) == IsValidSlideText(text, t)
  {
    ByteLenIsCharCountIffAscii(Trim(text));
  }

  /**
   * A lone bullet (U+2022, the character byte 0x95 decodes to) takes three
   * UTF-8 bytes, so the filter as written keeps it as slide text.
   */
  lemma BulletPassesAsWritten()
    ensures IsValidSlideTextAsWritten("\U{2022}", Body)
    ensures !IsValidSlideText("\U{2022}", Body)
    ensures Cp1252.DecodeByte(0x95) == '\U{2022}'
  {
    var s := "\U{2022}";
    assert !IsWhitespace(s[0]);
    TrimTrimmed(s);
    assert !HasTemplatePattern(s) by {
      forall k | 0 <= k < |TEMPLATE_PATTERNS| ensures !Contains(s, TEMPLATE_PATTERNS[k]) {
        NoLongerNeedle(s, TEMPLATE_PATTERNS[k]);
      }
    }
    assert ByteLen(s) == 3;
  }

  lemma NoLongerNeedle(hay: string, needle: string)
    requires |needle| > |hay|
    ensures !Contains(hay, needle)
  {
    ContainsIffOccurs(hay, needle);
  }

  /** Text that starts with a placeholder fragment is dropped. */
  lemma PlaceholderPrefixRejected(text: string, t: TextType, k: nat)
    requires k < |TEMPLATE_PATTERNS| && TEMPLATE_PATTERNS[k] <= text && IsTrimmed(text)
    ensures !IsValidSlideTextAsWritten(text, t)
  {
    TrimTrimmed(text);
    assert Contains(text, TEMPLATE_PATTERNS[k]);
  }

  /** Notes are never slide text, and neither is a lone "*". */
  lemma NotesAndBulletsRejected(text: string)
    ensures !IsValidSlideTextAsWritten(text, Notes) && !IsValidSlideTextAsWritten(text, NotUsed)
    ensures !IsValidSlideTextAsWritten("*", Body) && !IsValidSlideTextAsWritten("*", Other)
  {
    TrimTrimmed("*");
    assert ByteLen("*") == 1 by {
      assert "*"[1..] == "";
    }
    NoPatternInShort("*");
  }

  lemma PatternLengths()
    ensures forall k :: 0 <= k < |TEMPLATE_PATTERNS| ==> |TEMPLATE_PATTERNS[k]| >= 11
  {
  }

  /** Every placeholder fragment is at least 11 characters long. */
  lemma NoPatternInShort(text: string)
    requires |text| < 11
    ensures !HasTemplatePattern(text)
  {
    PatternLengths();
    forall k | 0 <= k < |TEMPLATE_PATTERNS| ensures !Contains(text, TEMPLATE_PATTERNS[k]) {
      NoLongerNeedle(text, TEMPLATE_PATTERNS[k]);
    }
  }

  /** Trimmed words of two to ten characters are always kept as slide content. */
  lemma ShortTextAccepted(text: string, t: TextType)
    requires IsSlideContent(t) && IsTrimmed(text) && 2 <= |text| < 11
    ensures IsValidSlideTextAsWritten(text, t)
  {
    TrimTrimmed(text);
    NoPatternInShort(text);
    var trimmed := Trim(text);
    assert trimmed == text && ByteLen(trimmed) >= 2;
    assert !HasTemplatePattern(trimmed);
  }
}

=== FILE: src/ppt_validate.dfy ===
/**
 * The validation pass over the legacy stream (`validate_stream` and
 * `scan_records_for_validation` in crates/ppt/src/parser.rs).
 */
module PptValidate {
  import opened Wrappers
  import opened Bytes
  import opened Errors
  import opened PptRecords

  const MIN_STREAM_SIZE: nat := 512
  const MAX_SUPPORTED_TEXT_TYPE: nat := 8
  const MAX_MALFORMED_RECORDS: nat := 10

  /** What the scan learns about a stream (`FileValidation`). */
  datatype Validation = Validation(
    streamSize: nat,
    hasDocument: bool,
    hasSlides: bool,
    hasTextHeaders: bool,
    hasTextContent: bool,
    textRecordCount: nat,
    unsupportedTextTypes: set<nat>,
    malformedRecords: nat)

  function Initial(size: nat): Validation
  {
    Validation(size, false, false, false, false, 0, {}, 0)
  }

  /** The bookkeeping for one record whose content fits (the `match rec_type` of the scan). */
  function NoteRecord(data: seq<byte>, v: Validation, pos: nat, h: Header): Validation
  {
    if h.recType == RT_DOCUMENT then v.(hasDocument := true)
    else if h.recType == RT_SLIDE then v.(hasSlides := true)
    else if h.recType == RT_TEXT_HEADER_ATOM then
      var v1 := v.(hasTextHeaders := true);
      if h.len >= 4 && pos + HEADER_SIZE + 4 <= |data| then
        var textType := ReadU32Le(data, pos + HEADER_SIZE);
        if textType > MAX_SUPPORTED_TEXT_TYPE then v1.(unsupportedTextTypes := v1.unsupportedTextTypes + {textType})
        else v1
      else v1
    else if h.recType == RT_TEXT_CHARS_ATOM || h.recType == RT_TEXT_BYTES_ATOM then
      v.(hasTextContent := true, textRecordCount := v.textRecordCount + 1)
    else v
  }

  /**
   * `scan_records_for_validation`: the loop over sibling records between
   * `pos` and `end`, recursing into containers. A record that overruns its
   * parent is counted as malformed and ends the loop at that level.
   */
  function Scan(data: seq<byte>, pos: nat, end: nat, v: Validation): Validation
    requires pos <= end <= |data|
    decreases end - pos
  {
    if pos + HEADER_SIZE > end then v
    else
      var h := ReadHeader(data, pos);
      var contentEnd := pos + HEADER_SIZE + h.len;
      if contentEnd > end then v.(malformedRecords := v.malformedRecords + 1)
      else
        var v1 := NoteRecord(data, v, pos, h);
        var v2 := if IsContainer(h) then Scan(data, pos + HEADER_SIZE, contentEnd, v1) else v1;
        Scan(data, contentEnd, end, v2)
  }

  function NoteVisit(data: seq<byte>, v: Validation, visit: Visit): Validation
  {
    match visit
    case Record(pos, h) => NoteRecord(data, v, pos, h)
    case Overrun(_) => v.(malformedRecords := v.malformedRecords + 1)
  }

  /** The bookkeeping applied to a list of visits in order. */
  function NoteAll(data: seq<byte>, vs: seq<Visit>, v: Validation): Validation
  {
    if |vs| == 0 then v else NoteAll(data, vs[1..], NoteVisit(data, v, vs[0]))
  }

  lemma {:induction false} NoteAllAppend(data: seq<byte>, a: seq<Visit>, b: seq<Visit>, v: Validation)
    ensures NoteAll(data, a + b, v) == NoteAll(data, b, NoteAll(data, a, v))
  {
    if |a| > 0 {
      assert (a + b)[1..] == a[1..] + b;
      NoteAllAppend(data, a[1..], b, NoteVisit(data, v, a[0]));
    } else {
      assert a + b == b;
    }
  }

  /** The scan is the bookkeeping applied to the walk's visits, in pre-order. */
  lemma {:induction false} ScanIsNoteAll(data: seq<byte>, pos: nat, end: nat, v: Validation)
    requires pos <= end <= |data|
    ensures Scan(data, pos, end, v) == NoteAll(data, Visits(data, pos, end), v)
    decreases end - pos
  {
    if pos + HEADER_SIZE <= end {
      var h := ReadHeader(data, pos);
      var contentEnd := pos + HEADER_SIZE + h.len;
      if contentEnd <= end {
        var v1 := NoteRecord(data, v, pos, h);
        var inner := if IsContainer(h) then Visits(data, pos + HEADER_SIZE, contentEnd) else [];
        var rest := Visits(data, contentEnd, end);
        if IsContainer(h) {
          ScanIsNoteAll(data, pos + HEADER_SIZE, contentEnd, v1);
        }
        var v2 := NoteAll(data, inner, v1);
        assert v2 == if IsContainer(h) then Scan(data, pos + HEADER_SIZE, contentEnd, v1) else v1;
        ScanIsNoteAll(data, contentEnd, end, v2);
        assert Scan(data, pos, end, v) == Scan(data, contentEnd, end, v2);
        assert NoteAll(data, [Record(pos, h)], v) == v1;
        NoteAllAppend(data, [Record(pos, h)], inner, v);
        NoteAllAppend(data, [Record(pos, h)] + inner, rest, v);
        assert Visits(data, pos, end) == [Record(pos, h)] + inner + rest;
      }
    }
  }

  /** Some visited record has type `t`. */
  predicate AnyOfType(vs: seq<Visit>, t: nat)
  {
    exists i :: 0 <= i < |vs| && vs[i].Record? && vs[i].header.recType == t
  }

  function CountOfType(vs: seq<Visit>, t: nat): nat
  {
    if |vs| == 0 then 0 else (if vs[0].Record? && vs[0].header.recType == t then 1 else 0) + CountOfType(vs[1..], t)
  }

  function CountOverruns(vs: seq<Visit>): nat
  {
    if |vs| == 0 then 0 else (if vs[0].Overrun? then 1 else 0) + CountOverruns(vs[1..])
  }

  lemma AnyOfTypeTail(vs: seq<Visit>, t: nat)
    requires |vs| > 0
    ensures AnyOfType(vs, t) <==> (vs[0].Record? && vs[0].header.recType == t) || AnyOfType(vs[1..], t)
  {
    if AnyOfType(vs, t) && !(vs[0].Record? && vs[0].header.recType == t) {
      var i :| 0 <= i < |vs| && vs[i].Record? && vs[i].header.recType == t;
      assert vs[1..][i - 1] == vs[i];
    }
    if AnyOfType(vs[1..], t) {
      var i :| 0 <= i < |vs[1..]| && vs[1..][i].Record? && vs[1..][i].header.recType == t;
      assert vs[i + 1] == vs[1..][i];
    }
  }

  /** What the scan records, stated in terms of the visits alone. */
  lemma {:induction false} NoteAllSummary(data: seq<byte>, vs: seq<Visit>, v: Validation)
    ensures var r := NoteAll(data, vs, v);
      && r.streamSize == v.streamSize
      && (r.hasDocument <==> v.hasDocument || AnyOfType(vs, RT_DOCUMENT))
      && (r.hasSlides <==> v.hasSlides || AnyOfType(vs, RT_SLIDE))
      && (r.hasTextHeaders <==> v.hasTextHeaders || AnyOfType(vs, RT_TEXT_HEADER_ATOM))
      && (r.hasTextContent <==> v.hasTextContent || AnyOfType(vs, RT_TEXT_CHARS_ATOM) || AnyOfType(vs, RT_TEXT_BYTES_ATOM))
      && r.textRecordCount == v.textRecordCount + CountOfType(vs, RT_TEXT_CHARS_ATOM) + CountOfType(vs, RT_TEXT_BYTES_ATOM)
      && r.malformedRecords == v.malformedRecords + CountOverruns(vs)
  {
    if |vs| > 0 {
      NoteAllSummary(data, vs[1..], NoteVisit(data, v, vs[0]));
      AnyOfTypeTail(vs, RT_DOCUMENT);
      AnyOfTypeTail(vs, RT_SLIDE);
      AnyOfTypeTail(vs, RT_TEXT_HEADER_ATOM);
      AnyOfTypeTail(vs, RT_TEXT_CHARS_ATOM);
      AnyOfTypeTail(vs, RT_TEXT_BYTES_ATOM);
    }
  }

  /** The stream has some text: a text header or a text atom. */
  predicate HasText(vs: seq<Visit>)
  {
    AnyOfType(vs, RT_TEXT_HEADER_ATOM) || AnyOfType(vs, RT_TEXT_CHARS_ATOM) || AnyOfType(vs, RT_TEXT_BYTES_ATOM)
  }

  /**
   * `validate_stream`: too small a stream or too many overrunning records is
   * a corrupted file; a stream with no document record or no text at all is
   * an unsupported format.
   */
  function ValidateStream(data: seq<byte>): (r: Result<Validation, Error>)
    ensures var vs := Visits(data, 0, |data|);
      && (r.Ok? <==> |data| >= MIN_STREAM_SIZE && AnyOfType(vs, RT_DOCUMENT) && HasText(vs) && CountOverruns(vs) <= MAX_MALFORMED_RECORDS)
      && (r == Err(UnsupportedFormat) <==> |data| >= MIN_STREAM_SIZE && !(AnyOfType(vs, RT_DOCUMENT) && HasText(vs)))
      && (r == Err(CorruptedFile) <==> |data| < MIN_STREAM_SIZE || (AnyOfType(vs, RT_DOCUMENT) && HasText(vs) && CountOverruns(vs) > MAX_MALFORMED_RECORDS))
      && (r.Ok? ==>
            && r.value.streamSize == |data|
            && r.value.malformedRecords == CountOverruns(vs)
            && r.value.textRecordCount == CountOfType(vs, RT_TEXT_CHARS_ATOM) + CountOfType(vs, RT_TEXT_BYTES_ATOM))
  {
    if |data| < MIN_STREAM_SIZE then Err(CorruptedFile)
    else
      var v := Scan(data, 0, |data|, Initial(|data|));
      ScanIsNoteAll(data, 0, |data|, Initial(|data|));
      NoteAllSummary(data, Visits(data, 0, |data|), Initial(|data|));
      if !v.hasDocument then Err(UnsupportedFormat)
      else if !v.hasTextContent && !v.hasTextHeaders then Err(UnsupportedFormat)
      else if v.malformedRecords > MAX_MALFORMED_RECORDS then Err(CorruptedFile)
      else Ok(v)
  }

  /** Records of type 0 change nothing. */
  lemma {:induction false} NoteAllZeroRecords(data: seq<byte>, vs: seq<Visit>, v: Validation)
    requires forall i :: 0 <= i < |vs| ==> vs[i] == Record(vs[i].pos, Header(0, 0, 0))
    ensures NoteAll(data, vs, v) == v
  {
    if |vs| > 0 {
      assert vs[0] == Record(vs[0].pos, Header(0, 0, 0));
      NoteAllZeroRecords(data, vs[1..], v);
    }
  }

  lemma NoteAllZeroRegion(data: seq<byte>, pos: nat, end: nat, v: Validation)
    requires pos <= end <= |data| && ZeroFrom(data, pos, end)
    ensures NoteAll(data, Visits(data, pos, end), v) == v
  {
    ZeroVisits(data, pos, end);
    NoteAllZeroRecords(data, Visits(data, pos, end), v);
  }

  function Zeros(n: nat): (z: seq<byte>)
    ensures |z| == n && forall k :: 0 <= k < n ==> z[k] == 0
  {
    seq(n, _ => 0)
  }

  /**
   * The 1024-byte stream of the parser's own structure tests: a document
   * container of 100 bytes holding a text header of the given type and a
   * four-byte text atom "Test", zero-filled to the end.
   */
  function StructureTestStream(textType: byte): (data: seq<byte>)
    ensures |data| == 1024
  {
    [0x0F, 0x00, 0x88, 0x13, 0x64, 0x00, 0x00, 0x00,
     0x00, 0x00, 0x9F, 0x0F, 0x04, 0x00, 0x00, 0x00,
     textType, 0x00, 0x00, 0x00,
     0x00, 0x00, 0xA8, 0x0F, 0x04, 0x00, 0x00, 0x00,
     0x54, 0x65, 0x73, 0x74]
    + Zeros(992)
  }

  lemma StructureTestHeaders(textType: byte)
    ensures var data := StructureTestStream(textType);
      && ReadHeader(data, 0) == Header(0x0F, RT_DOCUMENT, 100)
      && ReadHeader(data, 8) == Header(0, RT_TEXT_HEADER_ATOM, 4)
      && ReadHeader(data, 20) == Header(0, RT_TEXT_BYTES_ATOM, 4)
      && ReadU32Le(data, 16) == textType
  {
    var data := StructureTestStream(textType);
    assert data[..32] == [0x0F, 0x00, 0x88, 0x13, 0x64, 0x00, 0x00, 0x00,
                          0x00, 0x00, 0x9F, 0x0F, 0x04, 0x00, 0x00, 0x00,
                          textType, 0x00, 0x00, 0x00,
                          0x00, 0x00, 0xA8, 0x0F, 0x04, 0x00, 0x00, 0x00,
                          0x54, 0x65, 0x73, 0x74];
  }


  /** A leaf record that fits: the record, then its siblings. */
  lemma VisitsLeaf(data: seq<byte>, pos: nat, end: nat, h: Header)
    requires pos + HEADER_SIZE + h.len <= end <= |data|
    requires ReadHeader(data, pos) == h && !IsContainer(h)
    ensures Visits(data, pos, end) == [Record(pos, h)] + Visits(data, pos + HEADER_SIZE + h.len, end)
  {
    PptRecords.VisitsStep(data, pos, end);
    assert [Record(pos, h)] + [] == [Record(pos, h)];
  }

  /** A container record that fits: the record, its children, then its siblings. */
  lemma VisitsContainer(data: seq<byte>, pos: nat, end: nat, h: Header)
    requires pos + HEADER_SIZE + h.len <= end <= |data|
    requires ReadHeader(data, pos) == h && IsContainer(h)
    ensures Visits(data, pos, end)
      == [Record(pos, h)] + Visits(data, pos + HEADER_SIZE, pos + HEADER_SIZE + h.len) + Visits(data, pos + HEADER_SIZE + h.len, end)
  {
  }

  /** A document container holding a text header and a text atom: three records, then what follows them. */
  lemma ThreeRecordVisits(data: seq<byte>)
    requires |data| == 1024
    requires ReadHeader(data, 0) == Header(0x0F, RT_DOCUMENT, 100)
    requires ReadHeader(data, 8) == Header(0, RT_TEXT_HEADER_ATOM, 4)
    requires ReadHeader(data, 20) == Header(0, RT_TEXT_BYTES_ATOM, 4)
    ensures Visits(data, 0, 1024)
      == [Record(0, Header(0x0F, RT_DOCUMENT, 100)), Record(8, Header(0, RT_TEXT_HEADER_ATOM, 4)), Record(20, Header(0, RT_TEXT_BYTES_ATOM, 4))]
         + Visits(data, 32, 108) + Visits(data, 108, 1024)
  {
    var r0 := Record(0, Header(0x0F, RT_DOCUMENT, 100));
    var r1 := Record(8, Header(0, RT_TEXT_HEADER_ATOM, 4));
    var r2 := Record(20, Header(0, RT_TEXT_BYTES_ATOM, 4));
    VisitsLeaf(data, 20, 108, r2.header);
    VisitsLeaf(data, 8, 108, r1.header);
    VisitsContainer(data, 0, 1024, r0.header);
    assert [r0] + ([r1] + ([r2] + Visits(data, 32, 108))) + Visits(data, 108, 1024)
        == [r0, r1, r2] + Visits(data, 32, 108) + Visits(data, 108, 1024);
  }

  lemma ThreeRecordNotes(data: seq<byte>, textType: byte)
    requires |data| == 1024 && ReadU32Le(data, 16) == textType
    ensures NoteAll(data, [Record(0, Header(0x0F, RT_DOCUMENT, 100)), Record(8, Header(0, RT_TEXT_HEADER_ATOM, 4)), Record(20, Header(0, RT_TEXT_BYTES_ATOM, 4))], Initial(1024))
      == Validation(1024, true, false, true, true, 1, if textType > MAX_SUPPORTED_TEXT_TYPE then {textType} else {}, 0)
  {
    var init := Initial(1024);
    var r0 := Record(0, Header(0x0F, RT_DOCUMENT, 100));
    var r1 := Record(8, Header(0, RT_TEXT_HEADER_ATOM, 4));
    var r2 := Record(20, Header(0, RT_TEXT_BYTES_ATOM, 4));
    var v1 := NoteVisit(data, init, r0);
    var v2 := NoteVisit(data, v1, r1);
    var v3 := NoteVisit(data, v2, r2);
    assert [r0, r1, r2][1..] == [r1, r2] && [r1, r2][1..] == [r2];
    assert v1 == init.(hasDocument := true);
    assert v2 == v1.(hasTextHeaders := true, unsupportedTextTypes := if textType > MAX_SUPPORTED_TEXT_TYPE then {textType} else {});
    assert v3 == v2.(hasTextContent := true, textRecordCount := 1);
    assert NoteAll(data, [r2], v2) == NoteAll(data, [], v3) == v3;
    assert NoteAll(data, [r0, r1, r2], init) == NoteAll(data, [r2], v2);
  }

  lemma ThreeRecordValidation(data: seq<byte>, textType: byte)
    requires |data| == 1024
    requires ReadHeader(data, 0) == Header(0x0F, RT_DOCUMENT, 100)
    requires ReadHeader(data, 8) == Header(0, RT_TEXT_HEADER_ATOM, 4)
    requires ReadHeader(data, 20) == Header(0, RT_TEXT_BYTES_ATOM, 4)
    requires ReadU32Le(data, 16) == textType
    requires ZeroFrom(data, 32, 108) && ZeroFrom(data, 108, 1024)
    ensures ValidateStream(data) == Ok(Validation(1024, true, false, true, true, 1, if textType > MAX_SUPPORTED_TEXT_TYPE then {textType} else {}, 0))
  {
    var init := Initial(1024);
    var three := [Record(0, Header(0x0F, RT_DOCUMENT, 100)), Record(8, Header(0, RT_TEXT_HEADER_ATOM, 4)), Record(20, Header(0, RT_TEXT_BYTES_ATOM, 4))];
    ThreeRecordVisits(data);
    ScanIsNoteAll(data, 0, 1024, init);
    ThreeRecordNotes(data, textType);
    var v3 := NoteAll(data, three, init);
    NoteAllAppend(data, three, Visits(data, 32, 108), init);
    NoteAllAppend(data, three + Visits(data, 32, 108), Visits(data, 108, 1024), init);
    NoteAllZeroRegion(data, 32, 108, v3);
    NoteAllZeroRegion(data, 108, 1024, v3);
  }

  lemma StructureTestZeros(textType: byte)
    ensures ZeroFrom(StructureTestStream(textType), 32, 108) && ZeroFrom(StructureTestStream(textType), 108, 1024)
  {
  }

  /**
   * The stream of the valid-structure test passes validation with one text
   * record and no malformed ones; a text type above 8 is noted as unsupported.
   */
  lemma StructureTestValidates(textType: byte)
    ensures ValidateStream(StructureTestStream(textType))
      == Ok(Validation(1024, true, false, true, true, 1, if textType > MAX_SUPPORTED_TEXT_TYPE then {textType} else {}, 0))
  {
    StructureTestHeaders(textType);
    StructureTestZeros(textType);
    ThreeRecordValidation(StructureTestStream(textType), textType);
  }

  /** A stream shorter than 512 bytes is rejected as corrupted, whatever it holds. */
  lemma TooSmallIsCorrupted(data: seq<byte>)
    requires |data| < MIN_STREAM_SIZE
    ensures ValidateStream(data) == Err(CorruptedFile)
  {
  }

  /** The no-document test: one 8-byte record of type 1, then zeros, is an unsupported format. */
  lemma NoDocumentIsUnsupported()
    ensures ValidateStream([0x00, 0x00, 0x01, 0x00, 0x08, 0x00, 0x00, 0x00] + Zeros(1016)) == Err(UnsupportedFormat)
  {
    var data: seq<byte> := [0x00, 0x00, 0x01, 0x00, 0x08, 0x00, 0x00, 0x00] + Zeros(1016);
    assert ReadHeader(data, 0) == Header(0, 1, 8) by {
      assert data[..8] == [0x00, 0x00, 0x01, 0x00, 0x08, 0x00, 0x00, 0x00];
    }
    assert ZeroFrom(data, 16, 1024) by {
      assert forall k :: 8 <= k < 1024 ==> data[k] == Zeros(1016)[k - 8];
    }
    OneRecordThenZeros(data);
  }

  /** A 1024-byte stream of one record of type 1 holding 8 zero bytes, then zeros, has no document. */
  lemma OneRecordThenZeros(data: seq<byte>)
    requires |data| == 1024
    requires ReadHeader(data, 0) == Header(0, 1, 8)
    requires ZeroFrom(data, 16, 1024)
    ensures ValidateStream(data) == Err(UnsupportedFormat)
  {
    var init := Initial(1024);
    var r := Record(0, Header(0, 1, 8));
    var rest := Visits(data, 16, 1024);
    assert Visits(data, 0, 1024) == [r] + rest by {
      PptRecords.VisitsStep(data, 0, 1024);
    }
    assert NoteAll(data, [r], init) == init by {
      assert [r][1..] == [];
    }
    NoteAllAppend(data, [r], rest, init);
    NoteAllZeroRegion(data, 16, 1024, init);
    ScanIsNoteAll(data, 0, 1024, init);
    assert Scan(data, 0, 1024, init) == init;
  }
}

=== FILE: src/pptx_names.dfy ===
/**
 * Name and number helpers of the modern parser (crates/pptx/src/parser.rs):
 * `local_name`, `extract_slide_number` with the repeated suffix trimming of
 * `str::trim_end_matches`, and the decimal reading of coordinates.
 */
module PptxNames {
  import opened Wrappers
  import opened Chars
  import opened Strings

  /** `usize::MAX` on a 64-bit target: `str::parse::<usize>` fails above it. */
  const USIZE_MAX: nat := 0xFFFF_FFFF_FFFF_FFFF

  // ------------------------------------------------------------ local names

  /** `local_name`: the part after the first ':', or the whole name. */
  function LocalName(name: string): (r: string)
    ensures ':' !in name ==> r == name
    ensures ':' in name ==>
      (|r| < |name| && name == name[..|name| - |r| - 1] + ":" + r && ':' !in name[..|name| - |r| - 1])
  {
    if ':' in name then
      var i := IndexOf(name, ':');
      assert name == name[..i] + ":" + name[i + 1..];
      name[i + 1..]
    else name
  }

  /** The local part of a prefixed name is what follows its prefix, whatever it holds. */
  lemma LocalNameOfPrefixed(prefix: string, local: string)
    requires ':' !in prefix
    ensures LocalName(prefix + ":" + local) == local
  {
    var name := prefix + ":" + local;
    assert name[|prefix|] == ':';
    assert name[..|prefix|] == prefix;
    IndexOfUnique(name, ':', |prefix|);
    assert name[|prefix| + 1..] == local;
  }

  lemma LocalNameExamples()
    ensures LocalName("p:sp") == "sp"
    ensures LocalName("sp") == "sp"
  {
    LocalNameOfPrefixed("p", "sp");
    assert "p" + ":" + "sp" == "p:sp";
  }

  // ------------------------------------------------------------ decimal digits

  predicate AllDigits(s: string)
  {
    forall i :: 0 <= i < |s| ==> IsAsciiDigit(s[i])
  }

  function DigitValue(c: char): nat
    requires IsAsciiDigit(c)
  {
    c as int - '0' as int
  }

  function DigitChar(d: nat): (c: char)
    requires d < 10
    ensures IsAsciiDigit(c) && DigitValue(c) == d
  {
    ('0' as int + d) as char
  }

  /** The value of a run of decimal digits, most significant first. */
  function DigitsValue(ds: string): nat
    requires AllDigits(ds)
  {
    if |ds| == 0 then 0 else 10 * DigitsValue(ds[..|ds| - 1]) + DigitValue(ds[|ds| - 1])
  }

  /** The shortest decimal spelling of `n`. */
  function Decimal(n: nat): (r: string)
    ensures |r| > 0 && AllDigits(r)
    ensures |r| > 1 ==> r[0] != '0'
    ensures DigitsValue(r) == n
  {
    if n < 10 then [DigitChar(n)]
    else
      var r := Decimal(n / 10) + [DigitChar(n % 10)];
      assert r[..|r| - 1] == Decimal(n / 10);
      r
  }

  /** Reading and writing decimals are inverse on spellings without a leading zero. */
  lemma {:induction false} DecimalOfDigits(ds: string)
    requires |ds| > 0 && AllDigits(ds)
    requires |ds| > 1 ==> ds[0] != '0'
    ensures Decimal(DigitsValue(ds)) == ds
  {
    var v := DigitsValue(ds);
    var last := ds[|ds| - 1];
    if |ds| == 1 {
      assert ds[..0] == [];
      assert DigitsValue(ds[..0]) == 0;
      assert v == DigitValue(last);
      assert DigitChar(v) == last;
      assert ds == [last];
    } else {
      var init := ds[..|ds| - 1];
      assert init[0] == ds[0];
      DecimalOfDigits(init);
      LeadingDigitBound(init);
      assert v / 10 == DigitsValue(init) && v % 10 == DigitValue(last);
      assert DigitChar(DigitValue(last)) == last;
      assert ds == init + [last];
    }
  }

  /** A spelling of two or more digits without a leading zero has a value of at least 10. */
  lemma {:induction false} LeadingDigitBound(ds: string)
    requires |ds| > 0 && AllDigits(ds)
    requires |ds| > 1 ==> ds[0] != '0'
    ensures |ds| > 1 ==> DigitsValue(ds) >= 10
    ensures ds[0] != '0' ==> DigitsValue(ds) >= 1
  {
    if |ds| > 1 {
      var init := ds[..|ds| - 1];
      assert init[0] == ds[0];
      LeadingDigitBound(init);
    }
  }

  // ------------------------------------------------------------ slide numbers

  /** `s` is zero or more copies of `pat`. */
  predicate Copies(t: string, pat: string)
    requires |pat| > 0
    decreases |t|
  {
    |t| == 0 || (pat <= t && Copies(t[|pat|..], pat))
  }

  lemma {:induction false} CopiesAppend(t: string, pat: string)
    requires |pat| > 0 && Copies(t, pat)
    ensures Copies(t + pat, pat)
    decreases |t|
  {
    if |t| > 0 {
      CopiesAppend(t[|pat|..], pat);
      assert (t + pat)[|pat|..] == t[|pat|..] + pat;
    } else {
      assert (t + pat)[|pat|..] == [];
    }
  }

  /** `str::trim_end_matches` with a string pattern: every trailing copy of `pat` removed. */
  function TrimEndMatches(s: string, pat: string): (r: string)
    requires |pat| > 0
    ensures r <= s && !EndsWith(r, pat)
    ensures Copies(s[|r|..], pat)
    decreases |s|
  {
    if EndsWith(s, pat) then
      var init := s[..|s| - |pat|];
      var r := TrimEndMatches(init, pat);
      assert s[|r|..] == init[|r|..] + pat;
      CopiesAppend(init[|r|..], pat);
      r
    else
      assert s[|s|..] == [];
      s
  }

  /** The longest run of ASCII digits at the end of `s`. */
  function TrailingDigits(s: string): (r: string)
    ensures AllDigits(r) && EndsWith(s, r)
    ensures |r| < |s| ==> !IsAsciiDigit(s[|s| - |r| - 1])
  {
    if |s| > 0 && IsAsciiDigit(s[|s| - 1]) then
      var r := TrailingDigits(s[..|s| - 1]) + [s[|s| - 1]];
      assert s[|s| - |r|..] == s[..|s| - 1][|s| - |r|..] + [s[|s| - 1]];
      r
    else ""
  }

  /** `s` with trailing ".xml" and then trailing ".rels" trimmed. */
  function Stem(s: string): string
  {
    TrimEndMatches(TrimEndMatches(s, ".xml"), ".rels")
  }

  /** `extract_slide_number`: the trailing digit run of the stem, as a `usize`. */
  function ExtractSlideNumber(s: string): (r: Option<nat>)
    ensures r.Some? ==> r.value <= USIZE_MAX
    ensures r.None? <==> |TrailingDigits(Stem(s))| == 0 || DigitsValue(TrailingDigits(Stem(s))) > USIZE_MAX
  {
    var digits := TrailingDigits(Stem(s));
    if |digits| == 0 then None
    else if DigitsValue(digits) <= USIZE_MAX then Some(DigitsValue(digits))
    else None
  }

  lemma {:induction false} TrailingDigitsOf(prefix: string, ds: string)
    requires AllDigits(ds)
    requires |prefix| > 0 ==> !IsAsciiDigit(prefix[|prefix| - 1])
    ensures TrailingDigits(prefix + ds) == ds
  {
    var s := prefix + ds;
    var r := TrailingDigits(s);
    if |r| > |ds| {
      // the run would take in the last character of `prefix`, not a digit
      SuffixDigit(s, r, |s| - |ds| - 1);
      assert false;
    } else if |r| < |ds| {
      // the run would stop at a digit of `ds`
      assert false;
    }
    assert s[|s| - |ds|..] == ds;
  }

  /** Every character of an all-digit suffix is a digit. */
  lemma SuffixDigit(s: string, r: string, j: int)
    requires AllDigits(r) && EndsWith(s, r)
    requires |s| - |r| <= j < |s|
    ensures IsAsciiDigit(s[j])
  {
    assert s[j] == r[j - (|s| - |r|)];
  }

  lemma TrimEndNotEnding(s: string, pat: string)
    requires |pat| > 0 && !EndsWith(s, pat)
    ensures TrimEndMatches(s, pat) == s
  {
  }

  /**
   * Round trip: a name ending in the decimal spelling of `n`, optionally
   * followed by ".xml" or ".rels", yields `n` when `n` fits a `usize`.
   */
  lemma SlideNumberRoundTrip(prefix: string, n: nat, ext: string)
    requires |prefix| > 0 ==> !IsAsciiDigit(prefix[|prefix| - 1])
    requires ext == "" || ext == ".xml" || ext == ".rels"
    requires n <= USIZE_MAX
    ensures ExtractSlideNumber(prefix + Decimal(n) + ext) == Some(n)
  {
    var stem := prefix + Decimal(n);
    var s := stem + ext;
    var last := stem[|stem| - 1];
    assert IsAsciiDigit(last);
    TrimEndNotEnding(stem, ".xml");
    TrimEndNotEnding(stem, ".rels");
    if ext == ".xml" {
      assert s[..|s| - 4] == stem;
      assert TrimEndMatches(s, ".xml") == stem;
    } else if ext == ".rels" {
      assert s[|s| - 4..] != ".xml" by { assert s[|s| - 1] == 's'; }
      assert s[..|s| - 5] == stem;
      assert TrimEndMatches(s, ".xml") == s;
    } else {
      assert s == stem;
    }
    assert Stem(s) == stem;
    TrailingDigitsOf(prefix, Decimal(n));
  }

  /** A number above `usize::MAX` does not parse, and no hint is taken. */
  lemma SlideNumberOverflow(prefix: string, n: nat)
    requires |prefix| > 0 ==> !IsAsciiDigit(prefix[|prefix| - 1])
    requires n > USIZE_MAX
    ensures ExtractSlideNumber(prefix + Decimal(n)) == None
  {
    var stem := prefix + Decimal(n);
    assert IsAsciiDigit(stem[|stem| - 1]);
    TrimEndNotEnding(stem, ".xml");
    TrimEndNotEnding(stem, ".rels");
    TrailingDigitsOf(prefix, Decimal(n));
  }

  /** Without a digit at the end of the stem there is no number. */
  lemma NoTrailingDigitNoNumber(s: string)
    requires |Stem(s)| == 0 || !IsAsciiDigit(Stem(s)[|Stem(s)| - 1])
    ensures ExtractSlideNumber(s) == None
  {
  }

  lemma SlideNumberOfId(id: string)
    requires id == "rId12"
    ensures ExtractSlideNumber(id) == Some(12)
  {
    assert Decimal(12) == "12";
    assert "rId" + "12" + "" == id;
    SlideNumberRoundTrip("rId", 12, "");
  }

  lemma SlideNumberOfTarget(target: string)
    requires target == "slide123.xml"
    ensures ExtractSlideNumber(target) == Some(123)
  {
    assert Decimal(123) == "123";
    assert "slide" + "123" + ".xml" == target;
    SlideNumberRoundTrip("slide", 123, ".xml");
  }

  lemma NoDigitsNoNumber(s: string)
    requires s == "nodigits"
    ensures ExtractSlideNumber(s) == None
  {
    assert !EndsWith(s, ".xml") && !EndsWith(s, ".rels");
    assert Stem(s) == s;
  }

  // ------------------------------------------------------------ coordinates

  /**
   * A coordinate attribute read as a number: an optional sign and one or more
   * decimal digits. None is a value `parse::<f64>` rejects; the caller then
   * keeps the previous coordinate.
   */
  function ParseCoord(s: string): (r: Option<int>)
    ensures r.Some? ==> |s| > 0
  {
    if |s| > 0 && (s[0] == '-' || s[0] == '+') then
      var body := s[1..];
      if |body| > 0 && AllDigits(body) then
        var v: int := DigitsValue(body);
        Some(if s[0] == '-' then -v else v)
      else None
    else if |s| > 0 && AllDigits(s) then Some(DigitsValue(s))
    else None
  }

  /** The decimal spelling of any integer, with a '-' for negatives. */
  function SignedDecimal(v: int): (r: string)
  {
    if v < 0 then "-" + Decimal(-v) else Decimal(v)
  }

  /** Every integer coordinate written in decimal reads back as itself. */
  lemma ParseCoordRoundTrip(v: int)
    ensures ParseCoord(SignedDecimal(v)) == Some(v)
  {
    var s := SignedDecimal(v);
    if v < 0 {
      assert s[1..] == Decimal(-v);
    } else {
      assert s[0] != '-' && s[0] != '+';
    }
  }
}

=== FILE: src/pptx_order.dfy ===
/**
 * Slide order of the modern format (`get_slide_order` in
 * crates/pptx/src/parser.rs): the slide relationships of the presentation
 * part's relationship list (section 9.3 of ECMA-376 Part 2), each with the
 * archive path of its slide and an optional numeric hint, sorted stably
 * with hinted entries first by number and the rest by path.
 */
module PptxOrder {
  import opened Wrappers
  import opened Strings
  import opened Seqs
  import opened Errors
  import opened XmlEvents
  import opened PptxNames
  import StableSort

  /** A slide relationship: where the slide lives and the number it hints at. */
  datatype SlideRef = SlideRef(path: string, hint: Option<nat>)

  /** The relationship type names a slide, and not a slide layout or master. */
  predicate IsSlideRelType(t: string)
  {
    Contains(t, "/slide") && !Contains(t, "slideLayout") && !Contains(t, "slideMaster")
  }

  /** The archive path of a target: absolute targets lose their '/', others are relative to "ppt/". */
  function SlidePath(target: string): (r: string)
    ensures StartsWith(target, "/") ==> "/" + r == target
    ensures !StartsWith(target, "/") ==> r == "ppt/" + target
  {
    if |target| > 0 && target[0] == '/' then
      assert target == "/" + target[1..];
      target[1..]
    else "ppt/" + target
  }

  /** An element the loop treats as a slide relationship. */
  predicate IsSlideRelationship(e: XmlEvent)
  {
    (e.Start? || e.Empty?) && e.name == "Relationship" && IsSlideRelType(AttrValue(e.attrs, "Type"))
  }

  /** The entry pushed for a slide relationship: the hint comes from the Id, else from the Target. */
  function RefOf(e: XmlEvent): (r: SlideRef)
    requires e.Start? || e.Empty?
    ensures r.path == SlidePath(AttrValue(e.attrs, "Target"))
    ensures ExtractSlideNumber(AttrValue(e.attrs, "Id")).Some? ==> r.hint == ExtractSlideNumber(AttrValue(e.attrs, "Id"))
    ensures ExtractSlideNumber(AttrValue(e.attrs, "Id")).None? ==> r.hint == ExtractSlideNumber(AttrValue(e.attrs, "Target"))
  {
    var target := AttrValue(e.attrs, "Target");
    SlideRef(SlidePath(target), ExtractSlideNumber(AttrValue(e.attrs, "Id")).OrElse(ExtractSlideNumber(target)))
  }

  /** The event loop of `get_slide_order`: collect slide relationships, fail on the first syntax error. */
  function CollectRefs(events: seq<XmlEvent>): (r: Result<seq<SlideRef>, Error>)
    ensures r.Err? <==> Malformed in events
    ensures r.Err? ==> r.error == XmlError
  {
    if |events| == 0 then Ok([])
    else
      var e := events[0];
      if e.Malformed? then Err(XmlError)
      else
        match CollectRefs(events[1..])
        case Err(err) => Err(err)
        case Ok(rest) => Ok(if IsSlideRelationship(e) then [RefOf(e)] + rest else rest)
  }

  /** The entry of a slide relationship, and nothing for any other event. */
  function RefsOf(e: XmlEvent): seq<SlideRef>
  {
    if IsSlideRelationship(e) then [RefOf(e)] else []
  }

  /** Without a syntax error, the entries are those of the slide relationships, in document order. */
  lemma {:induction false} CollectRefsIsFlatMap(events: seq<XmlEvent>)
    requires Malformed !in events
    ensures CollectRefs(events) == Ok(FlatMap(RefsOf, events))
  {
    if |events| > 0 {
      var e := events[0];
      assert e != Malformed && !e.Malformed?;
      assert Malformed !in events[1..];
      CollectRefsIsFlatMap(events[1..]);
      var rest := FlatMap(RefsOf, events[1..]);
      assert FlatMap(RefsOf, events) == RefsOf(e) + rest;
      if IsSlideRelationship(e) {
        assert CollectRefs(events) == Ok([RefOf(e)] + rest);
      } else {
        assert RefsOf(e) + rest == rest;
        assert CollectRefs(events) == Ok(rest);
      }
    }
  }

  // ------------------------------------------------------------ ordering

  /** `Ord` on `String`: lexicographic by code point, a proper prefix first. */
  predicate LexLeq(a: string, b: string)
    decreases |a|
  {
    |a| == 0 || (|b| > 0 && (a[0] < b[0] || (a[0] == b[0] && LexLeq(a[1..], b[1..]))))
  }

  lemma {:induction false} LexLeqTotal(a: string, b: string)
    ensures LexLeq(a, b) || LexLeq(b, a)
    decreases |a|
  {
    if |a| > 0 && |b| > 0 && a[0] == b[0] {
      LexLeqTotal(a[1..], b[1..]);
    }
  }

  lemma {:induction false} LexLeqTrans(a: string, b: string, c: string)
    requires LexLeq(a, b) && LexLeq(b, c)
    ensures LexLeq(a, c)
    decreases |a|
  {
    if |a| > 0 && a[0] == b[0] && b[0] == c[0] {
      LexLeqTrans(a[1..], b[1..], c[1..]);
    }
  }

  /** Only equal strings compare equal. */
  lemma {:induction false} LexLeqAntisymmetric(a: string, b: string)
    requires LexLeq(a, b) && LexLeq(b, a)
    ensures a == b
    decreases |a|
  {
    if |a| > 0 {
      LexLeqAntisymmetric(a[1..], b[1..]);
      assert a == [a[0]] + a[1..] && b == [b[0]] + b[1..];
    }
  }

  /** The comparator of `get_slide_order`, as "at most". */
  predicate RefLeq(a: SlideRef, b: SlideRef)
  {
    match (a.hint, b.hint)
    case (Some(na), Some(nb)) => na <= nb
    case (Some(_), None) => true
    case (None, Some(_)) => false
    case (None, None) => LexLeq(a.path, b.path)
  }

  lemma RefLeqIsTotalPreorder()
    ensures StableSort.TotalPreorder(RefLeq)
  {
    forall a: SlideRef, b: SlideRef ensures RefLeq(a, b) || RefLeq(b, a) {
      LexLeqTotal(a.path, b.path);
    }
    forall a: SlideRef, b: SlideRef, c: SlideRef | RefLeq(a, b) && RefLeq(b, c) ensures RefLeq(a, c) {
      if a.hint.None? && b.hint.None? && c.hint.None? {
        LexLeqTrans(a.path, b.path, c.path);
      }
    }
  }

  /** `slides.sort_by(...)`: a stable sort by the comparator. */
  function OrderRefs(refs: seq<SlideRef>): (r: seq<SlideRef>)
    ensures multiset(r) == multiset(refs)
    ensures StableSort.Sorted(RefLeq, r)
  {
    RefLeqIsTotalPreorder();
    StableSort.SortSorted(RefLeq, refs);
    StableSort.Sort(RefLeq, refs)
  }

  /**
   * In the sorted order, every hinted entry comes before every unhinted one,
   * hints ascend, and unhinted entries ascend by path.
   */
  lemma OrderRefsHintedFirst(refs: seq<SlideRef>, i: nat, j: nat)
    requires i < j < |OrderRefs(refs)|
    ensures var r := OrderRefs(refs);
      && (r[j].hint.Some? ==> r[i].hint.Some? && r[i].hint.value <= r[j].hint.value)
      && (r[i].hint.None? ==> r[j].hint.None? && LexLeq(r[i].path, r[j].path))
  {
    var r := OrderRefs(refs);
    assert RefLeq(r[i], r[j]);
  }

  /** Entries that compare equal (same hint, or no hint and the same path) keep their input order. */
  lemma OrderRefsStable(refs: seq<SlideRef>, k: SlideRef)
    ensures StableSort.Class(RefLeq, k, OrderRefs(refs)) == StableSort.Class(RefLeq, k, refs)
  {
    RefLeqIsTotalPreorder();
    StableSort.SortStable(RefLeq, k, refs);
  }

  /** The paths of the sorted entries: `get_slide_order`. */
  function SlideOrder(events: seq<XmlEvent>): (r: Result<seq<string>, Error>)
    ensures r.Err? <==> Malformed in events
    ensures r.Err? ==> r.error == XmlError
  {
    match CollectRefs(events)
    case Err(e) => Err(e)
    case Ok(refs) => Ok(Map((s: SlideRef) => s.path, OrderRefs(refs)))
  }

  /** Without a syntax error, the order is that of the sorted slide relationships. */
  lemma SlideOrderPaths(events: seq<XmlEvent>)
    requires Malformed !in events
    ensures SlideOrder(events) == Ok(Map((s: SlideRef) => s.path, OrderRefs(FlatMap(RefsOf, events))))
  {
    CollectRefsIsFlatMap(events);
  }
}

=== FILE: src/pptx_parser.dfy ===
/**
 * `PptxParser::parse` (crates/pptx/src/parser.rs) over an opened archive:
 * read the presentation's relationship part, order the slides, and parse
 * each slide part in that order, numbering the slides from 1.
 */
module PptxParser {
  import opened Wrappers
  import opened Errors
  import opened Types
  import opened XmlEvents
  import opened PptxOrder
  import opened PptxShapes

  /**
   * The opened archive as the parser sees it: the XML events of every part it
   * can read, by path. A part that is missing, or that is not UTF-8 text, is
   * absent; reading it fails with a zip error either way.
   */
  datatype Package = Package(parts: map<string, seq<XmlEvent>>)

  const RELS_PATH: string := "ppt/_rels/presentation.xml.rels"

  /** `read_file_from_archive`. */
  function ReadPart(pkg: Package, path: string): (r: Result<seq<XmlEvent>, Error>)
    ensures r.Ok? <==> path in pkg.parts
    ensures r.Ok? ==> r.value == pkg.parts[path]
    ensures r.Err? ==> r.error == ZipError
  {
    if path in pkg.parts then Ok(pkg.parts[path]) else Err(ZipError)
  }

  /** `parse_slide`. */
  function ParseSlide(pkg: Package, path: string, number: nat): (r: Result<ExtractedSlide, Error>)
    ensures r.Ok? <==> path in pkg.parts
    ensures r.Ok? ==> r.value == SlideFromEvents(pkg.parts[path], number)
    ensures r.Err? ==> r.error == ZipError
  {
    var events :- ReadPart(pkg, path);
    Ok(SlideFromEvents(events, number))
  }

  /** The slide of a part's events, as `parse_slide` builds it. */
  function SlideOf(): (seq<XmlEvent>, nat) -> ExtractedSlide
  {
    (events: seq<XmlEvent>, number: nat) => SlideFromEvents(events, number)
  }

  /**
   * The loop of `parse` from the slide numbered `first` on, for any way
   * `slide` of building a slide from a part; the first missing part stops it.
   */
  function ParseSlides(slide: (seq<XmlEvent>, nat) -> ExtractedSlide, pkg: Package, paths: seq<string>, first: nat)
    : (r: Result<seq<ExtractedSlide>, Error>)
    ensures r.Ok? <==> forall k :: 0 <= k < |paths| ==> paths[k] in pkg.parts
    ensures r.Err? ==> r.error == ZipError
    ensures r.Ok? ==> |r.value| == |paths|
    ensures r.Ok? ==> forall k :: 0 <= k < |paths| ==> r.value[k] == slide(pkg.parts[paths[k]], first + k)
    decreases |paths|
  {
    if |paths| == 0 then Ok([])
    else if paths[0] !in pkg.parts then Err(ZipError)
    else
      var rest := ParseSlides(slide, pkg, paths[1..], first + 1);
      if rest.Err? then
        assert exists k :: 1 <= k < |paths| && paths[k] !in pkg.parts by {
          var j :| 0 <= j < |paths[1..]| && paths[1..][j] !in pkg.parts;
          assert paths[j + 1] == paths[1..][j];
        }
        rest
      else
        var r := [slide(pkg.parts[paths[0]], first)] + rest.value;
        assert forall k :: 1 <= k < |paths| ==> paths[k] == paths[1..][k - 1] && r[k] == rest.value[k - 1];
        Ok(r)
  }

  /** `PptxParser::parse` on an opened archive. */
  function Parse(pkg: Package, filename: string): (r: Result<Presentation, Error>)
    ensures RELS_PATH !in pkg.parts ==> r == Err(ZipError)
    ensures RELS_PATH in pkg.parts && Malformed in pkg.parts[RELS_PATH] ==> r == Err(XmlError)
    ensures r.Ok? ==> r.value.filename == filename && r.value.format == Pptx && r.value.notes == None
  {
    var rels :- ReadPart(pkg, RELS_PATH);
    var order :- SlideOrder(rels);
    var slides :- ParseSlides(SlideOf(), pkg, order, 1);
    BuildKeepsHeader(filename, Pptx, slides);
    Ok(Build(filename, Pptx, slides))
  }

  /**
   * A successful parse has one slide per slide relationship, in slide order,
   * numbered 1 to N, each the slide of its part.
   */
  lemma {:induction false} ParseSlidesInOrder(pkg: Package, filename: string)
    requires Parse(pkg, filename).Ok?
    ensures RELS_PATH in pkg.parts && SlideOrder(pkg.parts[RELS_PATH]).Ok?
    ensures var order := SlideOrder(pkg.parts[RELS_PATH]).value;
      var p := Parse(pkg, filename).value;
      && |p.slides| == |order|
      && (forall k :: 0 <= k < |order| ==>
            (order[k] in pkg.parts
             && p.slides[k] == SlideFromEvents(pkg.parts[order[k]], k + 1)
             && p.slides[k].number == k + 1))
  {
    ParseIsParseSlides(pkg, filename);
    var order := SlideOrder(pkg.parts[RELS_PATH]).value;
    var slides := ParseSlides(SlideOf(), pkg, order, 1).value;
    SlidesOfLoop(pkg, order, slides);
    SlidesNumbered(pkg, order, slides);
  }

  /** Slides built through `SlideOf` are the slides of their parts. */
  lemma {:induction false} SlidesOfLoop(pkg: Package, order: seq<string>, slides: seq<ExtractedSlide>)
    requires |slides| == |order|
    requires forall k :: 0 <= k < |order| ==> order[k] in pkg.parts && slides[k] == SlideOf()(pkg.parts[order[k]], 1 + k)
    ensures forall k :: 0 <= k < |order| ==> slides[k] == SlideFromEvents(pkg.parts[order[k]], k + 1)
  {
  }

  /** The slides of the parts in order are numbered by their place, from 1. */
  lemma {:induction false} SlidesNumbered(pkg: Package, order: seq<string>, slides: seq<ExtractedSlide>)
    requires |slides| == |order|
    requires forall k :: 0 <= k < |order| ==> order[k] in pkg.parts && slides[k] == SlideFromEvents(pkg.parts[order[k]], k + 1)
    ensures forall k :: 0 <= k < |order| ==> slides[k].number == k + 1
  {
  }

  /** The slides of a successful parse are those of the slide loop over the slide order. */
  lemma {:induction false} ParseIsParseSlides(pkg: Package, filename: string)
    requires Parse(pkg, filename).Ok?
    ensures RELS_PATH in pkg.parts && SlideOrder(pkg.parts[RELS_PATH]).Ok?
    ensures var order := SlideOrder(pkg.parts[RELS_PATH]).value;
      && ParseSlides(SlideOf(), pkg, order, 1).Ok?
      && Parse(pkg, filename).value.slides == ParseSlides(SlideOf(), pkg, order, 1).value
  {
    var order := SlideOrder(pkg.parts[RELS_PATH]).value;
    AllLinesOfBuilt(filename, Pptx, ParseSlides(SlideOf(), pkg, order, 1).value);
  }

  /** A slide relationship whose part is missing makes the whole parse fail with a zip error. */
  lemma MissingSlidePartFails(pkg: Package, filename: string, k: nat)
    requires RELS_PATH in pkg.parts && SlideOrder(pkg.parts[RELS_PATH]).Ok?
    requires k < |SlideOrder(pkg.parts[RELS_PATH]).value|
    requires SlideOrder(pkg.parts[RELS_PATH]).value[k] !in pkg.parts
    ensures Parse(pkg, filename) == Err(ZipError)
  {
  }
}

=== FILE: src/pptx_shapes.dfy ===
/**
 * The shape state machine of `extract_shapes_from_xml` and the slide built
 * from its shapes by `parse_slide` (crates/pptx/src/parser.rs). Positions are
 * integer offsets; the source stores them as `f64`.
 */
module PptxShapes {
  import opened Wrappers
  import opened Strings
  import opened Seqs
  import opened Types
  import opened XmlEvents
  import opened PptxNames
  import StableSort

  /** `ShapeInfo`: the shape's text and the offset of its transform. */
  datatype ShapeInfo = ShapeInfo(text: string, x: int, y: int)

  /** `ShapeInfo::default()`. */
  const DEFAULT_SHAPE := ShapeInfo("", 0, 0)

  /** The loop's variables: the open shape, the two flags, the text so far, the shapes emitted. */
  datatype ShapeState = ShapeState(
    current: Option<ShapeInfo>,
    inTextBody: bool,
    inParagraph: bool,
    text: string,
    shapes: seq<ShapeInfo>)

  const INITIAL := ShapeState(None, false, false, "", [])

  predicate IsShapeName(n: string)
  {
    n == "sp" || n == "pic"
  }

  /** The attribute loop of an `off` element: each `x` or `y` that parses overwrites the coordinate. */
  function ApplyOffset(shape: ShapeInfo, attrs: seq<Attr>): (r: ShapeInfo)
    ensures r.text == shape.text
    decreases |attrs|
  {
    if |attrs| == 0 then shape
    else
      var a := attrs[0];
      var v := ParseCoord(a.value);
      var next :=
        if a.key == "x" && v.Some? then shape.(x := v.value)
        else if a.key == "y" && v.Some? then shape.(y := v.value)
        else shape;
      ApplyOffset(next, attrs[1..])
  }

  /** An `off` element: recorded only while a shape is open. */
  function Offset(st: ShapeState, attrs: seq<Attr>): ShapeState
  {
    if st.current.Some? then st.(current := Some(ApplyOffset(st.current.value, attrs))) else st
  }

  /** `text` followed by a line break, unless it is empty. */
  function BreakAfter(text: string): string
  {
    if |text| > 0 then text + "\n" else text
  }

  /** One event of the loop. */
  function Step(st: ShapeState, e: XmlEvent): ShapeState
  {
    match e
    case Start(name, attrs) =>
      var n := LocalName(name);
      if IsShapeName(n) then st.(current := Some(DEFAULT_SHAPE))
      else if n == "off" then Offset(st, attrs)
      else if n == "txBody" then st.(inTextBody := true)
      else if n == "p" && st.inTextBody then st.(inParagraph := true, text := BreakAfter(st.text))
      else st
    case Empty(name, attrs) =>
      if LocalName(name) == "off" then Offset(st, attrs) else st
    case Text(t) =>
      if st.inParagraph then st.(text := st.text + t) else st
    case End(name) =>
      var n := LocalName(name);
      if IsShapeName(n) then
        var t := Trim(st.text);
        var shapes := if st.current.Some? && |t| > 0 then st.shapes + [st.current.value.(text := t)] else st.shapes;
        ShapeState(None, false, false, "", shapes)
      else if n == "txBody" then st.(inTextBody := false)
      else if n == "p" then st.(inParagraph := false)
      else st
    case Other => st
    case Malformed => st
  }

  /** The loop over all events; a syntax error is logged and skipped. */
  function Run(st: ShapeState, events: seq<XmlEvent>): ShapeState
    decreases |events|
  {
    if |events| == 0 then st else Run(Step(st, events[0]), events[1..])
  }

  /** Every emitted shape has non-empty trimmed text. */
  predicate ShapesHaveText(shapes: seq<ShapeInfo>)
  {
    forall k :: 0 <= k < |shapes| ==> |shapes[k].text| > 0 && IsTrimmed(shapes[k].text)
  }

  lemma {:induction false} RunKeepsShapes(st: ShapeState, events: seq<XmlEvent>)
    requires ShapesHaveText(st.shapes)
    ensures ShapesHaveText(Run(st, events).shapes)
    ensures st.shapes <= Run(st, events).shapes
    decreases |events|
  {
    if |events| > 0 {
      StepKeepsShapes(st, events[0]);
      RunKeepsShapes(Step(st, events[0]), events[1..]);
    }
  }

  /** One step keeps the shapes emitted so far and emits only shapes with text. */
  lemma StepKeepsShapes(st: ShapeState, e: XmlEvent)
    requires ShapesHaveText(st.shapes)
    ensures ShapesHaveText(Step(st, e).shapes)
    ensures st.shapes <= Step(st, e).shapes
  {
    if e.End? && IsShapeName(LocalName(e.name)) {
      var t := Trim(st.text);
      var r := Step(st, e);
      if st.current.Some? && |t| > 0 {
        assert r.shapes == st.shapes + [st.current.value.(text := t)];
      } else {
        assert r.shapes == st.shapes;
      }
    } else {
      assert Step(st, e).shapes == st.shapes;
    }
  }

  /** `extract_shapes_from_xml`: the shapes with text, in document order. */
  function ExtractShapes(events: seq<XmlEvent>): (r: seq<ShapeInfo>)
    ensures ShapesHaveText(r)
  {
    RunKeepsShapes(INITIAL, events);
    Run(INITIAL, events).shapes
  }

  lemma {:induction false} RunAppend(st: ShapeState, a: seq<XmlEvent>, b: seq<XmlEvent>)
    ensures Run(st, a + b) == Run(Run(st, a), b)
    decreases |a|
  {
    if |a| > 0 {
      assert (a + b)[0] == a[0];
      assert (a + b)[1..] == a[1..] + b;
      RunAppend(Step(st, a[0]), a[1..], b);
    } else {
      assert a + b == b;
    }
  }

  // ------------------------------------------------------------ the four rules

  /** Text is appended only inside a paragraph. */
  lemma TextOnlyInParagraph(st: ShapeState, t: string)
    ensures Step(st, Text(t)).text == if st.inParagraph then st.text + t else st.text
    ensures Step(st, Text(t)).shapes == st.shapes
  {
  }

  /** A paragraph inside a text body adds a line break only after text already collected. */
  lemma ParagraphBreak(st: ShapeState, name: string, attrs: seq<Attr>)
    requires LocalName(name) == "p"
    ensures var r := Step(st, Start(name, attrs));
      && (st.inTextBody ==> r.inParagraph && (r.text == st.text + "\n" <==> |st.text| > 0))
      && (st.inTextBody ==> (r.text == st.text <==> |st.text| == 0))
      && (!st.inTextBody ==> r == st)
  {
  }

  /** The end of a shape emits it iff it is open and its trimmed text is non-empty, and resets the state. */
  lemma ShapeEnd(st: ShapeState, name: string)
    requires IsShapeName(LocalName(name))
    ensures var r := Step(st, End(name));
      && r.current.None? && !r.inTextBody && !r.inParagraph && r.text == ""
      && (|r.shapes| == |st.shapes| + 1 <==> st.current.Some? && |Trim(st.text)| > 0)
      && st.shapes <= r.shapes && |r.shapes| <= |st.shapes| + 1
      && (|r.shapes| > |st.shapes| ==> r.shapes[|st.shapes|] == st.current.value.(text := Trim(st.text)))
  {
  }

  /** An offset without an open shape changes nothing. */
  lemma OffsetOnlyInShape(st: ShapeState, name: string, attrs: seq<Attr>)
    requires LocalName(name) == "off" && st.current.None?
    ensures Step(st, Start(name, attrs)) == st && Step(st, Empty(name, attrs)) == st
  {
  }

  // ------------------------------------------------------------ a whole shape

  /** The text events of a paragraph's runs. */
  function TextEvents(runs: seq<string>): seq<XmlEvent>
  {
    if |runs| == 0 then [] else [Text(runs[0])] + TextEvents(runs[1..])
  }

  /** A paragraph element holding the given runs. */
  function ParagraphEvents(para: string, runs: seq<string>): seq<XmlEvent>
  {
    [Start(para, [])] + TextEvents(runs) + [End(para)]
  }

  function ParagraphsEvents(para: string, ps: seq<seq<string>>): seq<XmlEvent>
  {
    if |ps| == 0 then [] else ParagraphEvents(para, ps[0]) + ParagraphsEvents(para, ps[1..])
  }

  /** A shape with an offset and a text body of paragraphs, under the given element names. */
  function ShapeEvents(sp: string, off: string, body: string, para: string, x: int, y: int, ps: seq<seq<string>>): seq<XmlEvent>
  {
    [Start(sp, []), Empty(off, [Attr("x", SignedDecimal(x)), Attr("y", SignedDecimal(y))]), Start(body, [])]
      + ParagraphsEvents(para, ps) + [End(body), End(sp)]
  }

  /** Each paragraph's text: its runs concatenated. */
  function ParagraphTexts(ps: seq<seq<string>>): (r: seq<string>)
    ensures |r| == |ps|
  {
    if |ps| == 0 then [] else [Flatten(ps[0])] + ParagraphTexts(ps[1..])
  }

  function DropLeadingEmpty(ts: seq<string>): seq<string>
  {
    if |ts| > 0 && ts[0] == "" then DropLeadingEmpty(ts[1..]) else ts
  }

  /** The text a shape's paragraphs make: joined by line breaks, leading empty paragraphs dropped. */
  function ShapeText(ps: seq<seq<string>>): string
  {
    Join(DropLeadingEmpty(ParagraphTexts(ps)), "\n")
  }

  /** The loop's text accumulator over whole paragraphs. */
  function Accumulate(acc: string, ps: seq<seq<string>>): string
    decreases |ps|
  {
    if |ps| == 0 then acc else Accumulate(BreakAfter(acc) + Flatten(ps[0]), ps[1..])
  }

  lemma {:induction false} RunTexts(st: ShapeState, runs: seq<string>)
    requires st.inParagraph
    ensures Run(st, TextEvents(runs)) == st.(text := st.text + Flatten(runs))
    decreases |runs|
  {
    if |runs| > 0 {
      var next := st.(text := st.text + runs[0]);
      assert Step(st, Text(runs[0])) == next;
      RunTexts(next, runs[1..]);
      assert st.text + runs[0] + Flatten(runs[1..]) == st.text + Flatten(runs);
    } else {
      assert st.text + [] == st.text;
    }
  }

  lemma RunParagraph(st: ShapeState, para: string, runs: seq<string>)
    requires LocalName(para) == "p" && st.inTextBody
    ensures Run(st, ParagraphEvents(para, runs)) == st.(text := BreakAfter(st.text) + Flatten(runs), inParagraph := false)
  {
    var s1 := st.(inParagraph := true, text := BreakAfter(st.text));
    assert Step(st, Start(para, [])) == s1;
    RunTexts(s1, runs);
    var s2 := s1.(text := s1.text + Flatten(runs));
    RunAppend(st, [Start(para, [])], TextEvents(runs));
    RunAppend(st, [Start(para, [])] + TextEvents(runs), [End(para)]);
    assert Run(st, [Start(para, [])]) == s1;
    assert Run(s2, [End(para)]) == s2.(inParagraph := false);
  }

  lemma {:induction false} RunParagraphs(st: ShapeState, para: string, ps: seq<seq<string>>)
    requires LocalName(para) == "p" && st.inTextBody
    ensures Run(st, ParagraphsEvents(para, ps)) ==
      if |ps| == 0 then st else st.(text := Accumulate(st.text, ps), inParagraph := false)
    decreases |ps|
  {
    if |ps| > 0 {
      RunAppend(st, ParagraphEvents(para, ps[0]), ParagraphsEvents(para, ps[1..]));
      RunParagraph(st, para, ps[0]);
      var s1 := st.(text := BreakAfter(st.text) + Flatten(ps[0]), inParagraph := false);
      RunParagraphs(s1, para, ps[1..]);
    }
  }

  /** Accumulating after collected text is joining with it. */
  lemma {:induction false} AccumulateAfter(acc: string, ps: seq<seq<string>>)
    requires |acc| > 0
    ensures Accumulate(acc, ps) == Join([acc] + ParagraphTexts(ps), "\n")
    decreases |ps|
  {
    if |ps| > 0 {
      var head := acc + "\n" + Flatten(ps[0]);
      var rest := ParagraphTexts(ps[1..]);
      AccumulateAfter(head, ps[1..]);
      assert ParagraphTexts(ps) == [Flatten(ps[0])] + rest;
      assert ([acc] + ParagraphTexts(ps))[1..] == [Flatten(ps[0])] + rest;
      if |rest| > 0 {
        assert ([Flatten(ps[0])] + rest)[1..] == rest;
        assert ([head] + rest)[1..] == rest;
      } else {
        assert [acc] + ParagraphTexts(ps) == [acc, Flatten(ps[0])];
      }
    } else {
      assert [acc] + ParagraphTexts(ps) == [acc];
    }
  }

  /** From empty text, the accumulator yields the reference shape text. */
  lemma {:induction false} AccumulateIsShapeText(ps: seq<seq<string>>)
    ensures Accumulate("", ps) == ShapeText(ps)
  {
    if |ps| > 0 {
      var first := Flatten(ps[0]);
      assert ParagraphTexts(ps) == [first] + ParagraphTexts(ps[1..]);
      if first == "" {
        assert BreakAfter("") + first == "";
        AccumulateIsShapeText(ps[1..]);
      } else {
        assert BreakAfter("") + first == first;
        AccumulateAfter(first, ps[1..]);
      }
    }
  }

  /**
   * A shape with an offset and a text body, started with no text collected,
   * emits exactly one shape when its paragraphs hold any non-whitespace: its
   * text is the paragraphs joined by line breaks and trimmed, its position
   * the offset's. The state is reset afterwards.
   */
  lemma ShapeFromEvents(st: ShapeState, sp: string, off: string, body: string, para: string,
                        x: int, y: int, ps: seq<seq<string>>)
    requires IsShapeName(LocalName(sp)) && LocalName(off) == "off"
    requires LocalName(body) == "txBody" && LocalName(para) == "p"
    requires st.text == ""
    ensures var t := Trim(ShapeText(ps));
      Run(st, ShapeEvents(sp, off, body, para, x, y, ps)) ==
        ShapeState(None, false, false, "", st.shapes + (if |t| > 0 then [ShapeInfo(t, x, y)] else []))
  {
    var head := ShapeHead(sp, off, body, x, y);
    var tail := [End(body), End(sp)];
    var s3 := st.(current := Some(ShapeInfo("", x, y)), inTextBody := true);
    RunShapeHead(st, sp, off, body, x, y);
    RunParagraphs(s3, para, ps);
    AccumulateIsShapeText(ps);
    var s4 := Run(s3, ParagraphsEvents(para, ps));
    assert s4.text == ShapeText(ps) && s4.current == s3.current && s4.shapes == st.shapes;
    RunShapeTail(s4, sp, body);
    RunAppend(st, head, ParagraphsEvents(para, ps));
    RunAppend(st, head + ParagraphsEvents(para, ps), tail);
    assert ShapeEvents(sp, off, body, para, x, y, ps) == head + ParagraphsEvents(para, ps) + tail;
  }

  /** The events that open a shape, record its offset and open its text body. */
  function ShapeHead(sp: string, off: string, body: string, x: int, y: int): seq<XmlEvent>
  {
    [Start(sp, []), Empty(off, [Attr("x", SignedDecimal(x)), Attr("y", SignedDecimal(y))]), Start(body, [])]
  }

  lemma OffsetRoundTrip(x: int, y: int)
    ensures ApplyOffset(DEFAULT_SHAPE, [Attr("x", SignedDecimal(x)), Attr("y", SignedDecimal(y))]) == ShapeInfo("", x, y)
  {
    var attrs := [Attr("x", SignedDecimal(x)), Attr("y", SignedDecimal(y))];
    ParseCoordRoundTrip(x);
    ParseCoordRoundTrip(y);
    assert attrs[1..] == [attrs[1]];
    assert attrs[1..][1..] == [];
    assert ApplyOffset(DEFAULT_SHAPE, attrs) == ApplyOffset(DEFAULT_SHAPE.(x := x), attrs[1..]);
    assert ApplyOffset(DEFAULT_SHAPE.(x := x), attrs[1..]) == ApplyOffset(ShapeInfo("", x, y), []);
  }

  lemma RunShapeHead(st: ShapeState, sp: string, off: string, body: string, x: int, y: int)
    requires IsShapeName(LocalName(sp)) && LocalName(off) == "off" && LocalName(body) == "txBody"
    ensures Run(st, ShapeHead(sp, off, body, x, y)) == st.(current := Some(ShapeInfo("", x, y)), inTextBody := true)
  {
    var head := ShapeHead(sp, off, body, x, y);
    OffsetRoundTrip(x, y);
    var s1 := st.(current := Some(DEFAULT_SHAPE));
    var s2 := st.(current := Some(ShapeInfo("", x, y)));
    var s3 := s2.(inTextBody := true);
    assert Step(st, head[0]) == s1;
    assert Step(s1, head[1]) == s2;
    assert Step(s2, head[2]) == s3;
    assert head[1..] == [head[1], head[2]];
    assert head[1..][1..] == [head[2]];
    assert head[1..][1..][1..] == [];
    assert Run(s3, []) == s3;
    assert Run(s2, [head[2]]) == Run(s3, []);
    assert Run(s1, [head[1], head[2]]) == Run(s2, [head[2]]);
    assert Run(st, head) == Run(s1, [head[1], head[2]]);
  }

  lemma RunShapeTail(st: ShapeState, sp: string, body: string)
    requires IsShapeName(LocalName(sp)) && LocalName(body) == "txBody" && st.current.Some?
    ensures var t := Trim(st.text);
      Run(st, [End(body), End(sp)]) ==
        ShapeState(None, false, false, "", st.shapes + (if |t| > 0 then [st.current.value.(text := t)] else []))
  {
    var tail := [End(body), End(sp)];
    var s1 := st.(inTextBody := false);
    assert !IsShapeName(LocalName(body));
    assert Step(st, End(body)) == s1;
    var t := Trim(st.text);
    var s2 := ShapeState(None, false, false, "", st.shapes + (if |t| > 0 then [st.current.value.(text := t)] else []));
    assert Step(s1, End(sp)) == s2;
    assert tail[1..] == [End(sp)];
    assert tail[1..][1..] == [];
    assert Run(s1, [End(sp)]) == Run(s2, []);
    assert Run(st, tail) == Run(s1, [End(sp)]);
  }

  // ------------------------------------------------------------ the slide

  predicate HasText(s: ShapeInfo)
  {
    |Trim(s.text)| > 0
  }

  /** The line a shape contributes: its text at (y, x), if it has any. */
  function LinesOf(s: ShapeInfo): seq<SlideText>
  {
    if HasText(s) then [SlideText(s.text, Some(s.y), Some(s.x))] else []
  }

  /** The loop of `parse_slide`: `add_line_with_position` for each shape with text. */
  function AddShapes(slide: ExtractedSlide, shapes: seq<ShapeInfo>): ExtractedSlide
    decreases |shapes|
  {
    if |shapes| == 0 then slide
    else
      var s := shapes[0];
      AddShapes(if HasText(s) then AddLineWithPosition(slide, s.text, s.y, s.x) else slide, shapes[1..])
  }

  lemma {:induction false} AddShapesLines(slide: ExtractedSlide, shapes: seq<ShapeInfo>)
    ensures AddShapes(slide, shapes).lines == slide.lines + FlatMap(LinesOf, shapes)
    ensures AddShapes(slide, shapes).number == slide.number
    ensures AddShapes(slide, shapes).notes == slide.notes
    decreases |shapes|
  {
    if |shapes| > 0 {
      var s := shapes[0];
      var next := if HasText(s) then AddLineWithPosition(slide, s.text, s.y, s.x) else slide;
      AddShapesLines(next, shapes[1..]);
      assert next.lines == slide.lines + LinesOf(s);
    }
  }

  /** Shapes with text contribute one line each. */
  lemma {:induction false} LinesOfShapesWithText(shapes: seq<ShapeInfo>)
    requires ShapesHaveText(shapes)
    ensures |FlatMap(LinesOf, shapes)| == |shapes|
    ensures forall k :: 0 <= k < |shapes| ==> FlatMap(LinesOf, shapes)[k] == SlideText(shapes[k].text, Some(shapes[k].y), Some(shapes[k].x))
  {
    if |shapes| > 0 {
      TrimTrimmed(shapes[0].text);
      assert HasText(shapes[0]);
      assert ShapesHaveText(shapes[1..]);
      LinesOfShapesWithText(shapes[1..]);
    }
  }

  /**
   * `parse_slide` after reading the part: one line per shape with text, in
   * reading order (by y, then x, ties in document order), numbered `number`.
   */
  function SlideFromShapes(shapes: seq<ShapeInfo>, number: nat): (r: ExtractedSlide)
    ensures r.number == number && r.notes == None
    ensures StableSort.Sorted(PositionLeq, r.lines)
    ensures multiset(r.lines) == multiset(FlatMap(LinesOf, shapes))
  {
    var unsorted := AddShapes(NewSlide(number), shapes);
    AddShapesLines(NewSlide(number), shapes);
    SortByPosition(unsorted)
  }

  /** Lines at the same position keep the document order of their shapes. */
  lemma SlideFromShapesStable(shapes: seq<ShapeInfo>, number: nat, k: SlideText)
    ensures StableSort.Class(PositionLeq, k, SlideFromShapes(shapes, number).lines)
         == StableSort.Class(PositionLeq, k, FlatMap(LinesOf, shapes))
  {
    var unsorted := AddShapes(NewSlide(number), shapes);
    AddShapesLines(NewSlide(number), shapes);
    assert unsorted.lines == FlatMap(LinesOf, shapes);
    SortByPositionStable(unsorted, k);
    assert SlideFromShapes(shapes, number) == SortByPosition(unsorted);
  }

  /** The slide of a part's events. */
  function SlideFromEvents(events: seq<XmlEvent>, number: nat): (r: ExtractedSlide)
    ensures r.number == number && r.notes == None
  {
    SlideFromShapes(ExtractShapes(events), number)
  }

  /** Every extracted shape gives exactly one line of its slide, and the lines are in position order. */
  lemma SlideFromEventsLines(events: seq<XmlEvent>, number: nat)
    ensures var r := SlideFromEvents(events, number); var shapes := ExtractShapes(events);
      && |r.lines| == |shapes|
      && multiset(r.lines) == multiset(FlatMap(LinesOf, shapes))
      && StableSort.Sorted(PositionLeq, r.lines)
  {
    var shapes := ExtractShapes(events);
    LinesOfShapesWithText(shapes);
    var r := SlideFromShapes(shapes, number);
    assert |r.lines| == |multiset(r.lines)|;
  }
}

=== FILE: src/propresenter.dfy ===
/**
 * The ProPresenter text output (crates/core/src/propresenter.rs): lyric
 * lines grouped into slides of a fixed number of lines, each slide's lines
 * joined by a newline and the slides separated by a blank line.
 */
module ProPresenter {
  import opened Strings
  import opened Seqs

  type Positive = n: nat | 0 < n witness 1

  const DEFAULT_LINES_PER_SLIDE: Positive := 2

  /** The formatter keeps its line count at one or more, so `chunks` never sees 0. */
  datatype Formatter = Formatter(linesPerSlide: Positive)

  /** `ProPresenterFormatter::new` / `default`. */
  function New(): Formatter
  {
    Formatter(DEFAULT_LINES_PER_SLIDE)
  }

  /** `usize::max(n, 1)`. */
  function Clamp(n: nat): (r: Positive)
    ensures n <= r <= n + 1
    ensures r == 1 <==> n <= 1
  {
    if n == 0 then 1 else n
  }

  /** `with_lines_per_slide`: a count of 0 becomes 1. */
  function WithLinesPerSlide(f: Formatter, n: nat): (r: Formatter)
    ensures n > 0 ==> r.linesPerSlide == n
    ensures n == 0 ==> r.linesPerSlide == 1
  {
    f.(linesPerSlide := Clamp(n))
  }

  // ------------------------------------------------------------ chunks

  /** ceil(n / k). */
  function CeilDiv(n: nat, k: Positive): nat
  {
    (n + k - 1) / k
  }

  lemma DivUnique(a: nat, k: Positive, q: nat)
    requires q * k <= a < q * k + k
    ensures a / k == q
  {
    var d, m := a / k, a % k;
    assert a == d * k + m;
    if d < q {
      MulLeq(d + 1, q, k);
    }
    if d > q {
      MulLeq(q + 1, d, k);
    }
  }

  lemma MulLeq(a: nat, b: nat, k: nat)
    requires a <= b
    ensures a * k <= b * k
  {
  }

  lemma CeilDivStep(n: nat, k: Positive)
    ensures CeilDiv(0, k) == 0
    ensures 0 < n <= k ==> CeilDiv(n, k) == 1
    ensures n > k ==> CeilDiv(n, k) == CeilDiv(n - k, k) + 1
  {
    DivUnique(k - 1, k, 0);
    if 0 < n <= k {
      DivUnique(n + k - 1, k, 1);
    }
    if n > k {
      var q := CeilDiv(n - k, k);
      var a := n - k + k - 1;
      assert q * k <= a < q * k + k;
      DivUnique(a + k, k, q + 1);
    }
  }

  /**
   * `slice.chunks(k)`: consecutive pieces of `k` elements, the last one
   * possibly shorter; ceil(|s| / k) of them, none empty.
   */
  function Chunks<T>(s: seq<T>, k: Positive): (r: seq<seq<T>>)
    decreases |s|
  {
    if |s| == 0 then []
    else if |s| <= k then [s]
    else [s[..k]] + Chunks(s[k..], k)
  }

  /** The chunks put back together are the input; none is empty, all but the last have `k` elements. */
  lemma {:induction false} ChunksShape<T>(s: seq<T>, k: Positive)
    ensures var r := Chunks(s, k);
      && Flatten(r) == s
      && (forall i :: 0 <= i < |r| ==> 0 < |r[i]| <= k)
      && (forall i :: 0 <= i < |r| - 1 ==> |r[i]| == k)
    decreases |s|
  {
    var r := Chunks(s, k);
    if 0 < |s| <= k {
      assert Flatten([s]) == s + Flatten([s][1..]);
    } else if |s| > k {
      var rest := Chunks(s[k..], k);
      ChunksShape(s[k..], k);
      assert r == [s[..k]] + rest;
      assert r[1..] == rest;
      assert s[..k] + s[k..] == s;
      assert forall i :: 1 <= i < |r| ==> r[i] == rest[i - 1];
    }
  }

  /** There are ceil(|s| / k) chunks. */
  lemma {:induction false} ChunksCount<T>(s: seq<T>, k: Positive)
    ensures |Chunks(s, k)| == CeilDiv(|s|, k)
    decreases |s|
  {
    CeilDivStep(|s|, k);
    if |s| > k {
      ChunksCount(s[k..], k);
    }
  }

  /**
   * The i-th chunk is the slice from lo = i * k up to lo + k, cut at the end
   * of the input.
   */
  lemma ChunkAt<T>(s: seq<T>, k: Positive, i: nat, lo: nat)
    requires i < |Chunks(s, k)| && lo == i * k
    ensures lo < |s|
    ensures lo + k <= |s| ==> Chunks(s, k)[i] == s[lo..lo + k]
    ensures lo + k > |s| ==> Chunks(s, k)[i] == s[lo..]
  {
    OffsetIsProduct(i, k);
    ChunkAtOffset(s, k, i, lo);
  }

  /** `i * k`, counted up one chunk at a time. */
  function Offset(i: nat, k: nat): nat
  {
    if i == 0 then 0 else Offset(i - 1, k) + k
  }

  lemma {:induction false} OffsetIsProduct(i: nat, k: nat)
    ensures Offset(i, k) == i * k
  {
    if i > 0 {
      OffsetIsProduct(i - 1, k);
      MulSucc(i - 1, k);
    }
  }

  /** `ChunkAt` with the offset counted by `Offset`. */
  lemma {:induction false} ChunkAtOffset<T>(s: seq<T>, k: Positive, i: nat, lo: nat)
    requires i < |Chunks(s, k)| && lo == Offset(i, k)
    ensures lo < |s|
    ensures lo + k <= |s| ==> Chunks(s, k)[i] == s[lo..lo + k]
    ensures lo + k > |s| ==> Chunks(s, k)[i] == s[lo..]
    decreases |s|
  {
    if i == 0 {
      ChunksCons(s, k);
    } else {
      var t := s[k..];
      assert |s| > k && |Chunks(s, k)| == |Chunks(t, k)| + 1 && Chunks(s, k)[i] == Chunks(t, k)[i - 1] by {
        ChunksCons(s, k);
        ShiftedElement(Chunks(s, k), s[..k], Chunks(t, k), i);
      }
      assert lo - k == Offset(i - 1, k);
      ChunkAtOffset(t, k, i - 1, lo - k);
      var c := Chunks(t, k)[i - 1];
      if lo + k <= |s| {
        assert c == t[lo - k..lo];
        SliceOfDrop(s, k, lo - k, lo);
        assert c == s[lo..lo + k];
      } else {
        assert c == t[lo - k..];
        SliceOfDrop(s, k, lo - k, |t|);
        assert c == s[lo..];
      }
    }
  }

  lemma ShiftedElement<T>(cs: seq<T>, x: T, ct: seq<T>, i: nat)
    requires cs == [x] + ct && 0 < i < |cs|
    ensures cs[i] == ct[i - 1]
  {
  }

  /** The first chunk, and the chunks of the rest. */
  lemma ChunksCons<T>(s: seq<T>, k: Positive)
    ensures |s| == 0 ==> Chunks(s, k) == []
    ensures |s| <= k ==> |Chunks(s, k)| <= 1
    ensures 0 < |s| <= k ==> Chunks(s, k)[0] == s
    ensures |s| > k ==> Chunks(s, k) == [s[..k]] + Chunks(s[k..], k)
  {
  }

  lemma SliceOfDrop<T>(s: seq<T>, k: nat, lo: nat, e: nat)
    requires k <= |s| && lo <= e <= |s| - k
    ensures s[k..][lo..e] == s[lo + k..e + k]
  {
  }

  lemma MulSucc(i: nat, k: nat)
    ensures (i + 1) * k == i * k + k
  {
  }

  // ------------------------------------------------------------ slides

  /** One output slide: `FormattedSlide`. */
  datatype FormattedSlide = FormattedSlide(lines: seq<string>) {
    /** `FormattedSlide::to_string`. */
    function ToString(): string
    {
      SlideText(lines)
    }
  }

  /** A slide's lines, one per line. */
  function SlideText(lines: seq<string>): string
  {
    Join(lines, "\n")
  }

  /** The lines of a slide, as a function value. */
  function LinesOfSlide(s: FormattedSlide): seq<string>
  {
    s.lines
  }

  /**
   * `split_into_slides`: ceil(n / k) slides for k = max(lines_per_slide, 1),
   * all but the last holding exactly k lines, together holding the input.
   */
  function SplitIntoSlides(lines: seq<string>, linesPerSlide: nat): (r: seq<FormattedSlide>)
    ensures |r| == CeilDiv(|lines|, Clamp(linesPerSlide))
    ensures Flatten(Map(LinesOfSlide, r)) == lines
    ensures forall i :: 0 <= i < |r| ==> 0 < |r[i].lines| <= Clamp(linesPerSlide)
    ensures forall i :: 0 <= i < |r| - 1 ==> |r[i].lines| == Clamp(linesPerSlide)
  {
    var cs := Chunks(lines, Clamp(linesPerSlide));
    ChunksCount(lines, Clamp(linesPerSlide));
    ChunksShape(lines, Clamp(linesPerSlide));
    var r := Map((c: seq<string>) => FormattedSlide(c), cs);
    assert Map(LinesOfSlide, r) == cs;
    r
  }

  /** `ProPresenterFormatter::format`. */
  function Format(f: Formatter, lines: seq<string>): string
  {
    if |lines| == 0 then ""
    else Join(Map(SlideText, Chunks(lines, f.linesPerSlide)), "\n\n")
  }

  /** `format_with_newline`: the formatted text ended by a newline, unless it is empty. */
  function FormatWithNewline(f: Formatter, lines: seq<string>): (r: string)
    ensures r == "" <==> Format(f, lines) == ""
    ensures r != "" ==> r[|r| - 1] == '\n' && r[..|r| - 1] == Format(f, lines)
  {
    var formatted := Format(f, lines);
    if formatted == "" then formatted else formatted + "\n"
  }

  /** A join of two or more parts holds at least one separator. */
  lemma JoinLength(parts: seq<string>, sep: string)
    requires |parts| >= 2
    ensures |Join(parts, sep)| >= |sep|
  {
  }

  /** The formatted text is empty only for no lines, or for a single empty line. */
  lemma FormatEmptyIff(f: Formatter, lines: seq<string>)
    ensures Format(f, lines) == "" <==> lines == [] || lines == [""]
  {
    if |lines| > 0 {
      var k := f.linesPerSlide;
      var cs := Chunks(lines, k);
      ChunksShape(lines, k);
      var texts := Map(SlideText, cs);
      if |cs| >= 2 {
        JoinLength(texts, "\n\n");
      } else {
        assert |cs| == 1 && Flatten(cs) == cs[0] + Flatten(cs[1..]);
        assert cs[0] == lines;
        if |lines| >= 2 {
          JoinLength(lines, "\n");
        }
      }
    }
  }

  /** The formatter and `split_into_slides` agree on the slides, for the same requested count. */
  lemma FormatIsSplitIntoSlides(lines: seq<string>, n: nat)
    requires |lines| > 0
    ensures Format(WithLinesPerSlide(New(), n), lines)
      == Join(Map((s: FormattedSlide) => s.ToString(), SplitIntoSlides(lines, n)), "\n\n")
  {
    var cs := Chunks(lines, Clamp(n));
    assert Map((s: FormattedSlide) => s.ToString(), SplitIntoSlides(lines, n)) == Map(SlideText, cs);
  }

  // ------------------------------------------------------------ reading the text back

  /** The lines of the slides, with an empty line between consecutive slides. */
  function Separated(cs: seq<seq<string>>): (r: seq<string>)
    requires |cs| > 0
    ensures |cs[0]| > 0 ==> |r| > 0
  {
    if |cs| == 1 then cs[0] else cs[0] + [""] + Separated(cs[1..])
  }

  lemma {:induction false} SeparatedKeepsOut(cs: seq<seq<string>>, c: char)
    requires |cs| > 0
    requires forall i, j :: 0 <= i < |cs| && 0 <= j < |cs[i]| ==> c !in cs[i][j]
    ensures forall j :: 0 <= j < |Separated(cs)| ==> c !in Separated(cs)[j]
  {
    if |cs| > 1 {
      assert forall i, j :: 0 <= i < |cs| - 1 && 0 <= j < |cs[1..][i]| ==> cs[1..][i][j] == cs[i + 1][j];
      SeparatedKeepsOut(cs[1..], c);
      assert forall j :: 0 <= j < |cs[0]| ==> c !in cs[0][j];
    }
  }

  /** Slides joined by a blank line are the separated lines joined by a newline. */
  lemma {:induction false} JoinSeparated(cs: seq<seq<string>>)
    requires |cs| > 0
    requires forall i :: 0 <= i < |cs| ==> |cs[i]| > 0
    ensures Join(Map(SlideText, cs), "\n\n") == Join(Separated(cs), "\n")
  {
    if |cs| > 1 {
      var rest := cs[1..];
      JoinSeparated(rest);
      assert Map(SlideText, cs)[1..] == Map(SlideText, rest);
      var tail := Separated(rest);
      assert |rest[0]| > 0;
      JoinAppend(cs[0], [""] + tail, "\n");
      assert ([""] + tail)[1..] == tail;
      assert cs[0] + [""] + tail == cs[0] + ([""] + tail);
    }
  }

  /** The first empty line at or after `i`, or `|ls|` when there is none. */
  function NextEmpty(ls: seq<string>, i: nat): (j: nat)
    requires i <= |ls|
    ensures i <= j <= |ls|
    ensures forall k :: i <= k < j ==> ls[k] != ""
    ensures j < |ls| ==> ls[j] == ""
    decreases |ls| - i
  {
    if i < |ls| && ls[i] != "" then NextEmpty(ls, i + 1) else i
  }

  /** The first empty line is the one with no earlier empty line. */
  lemma {:induction false} NextEmptyUnique(ls: seq<string>, i: nat, j: nat)
    requires i <= j <= |ls|
    requires forall k :: i <= k < j ==> ls[k] != ""
    requires j < |ls| ==> ls[j] == ""
    ensures NextEmpty(ls, i) == j
    decreases j - i
  {
    if i < j {
      NextEmptyUnique(ls, i + 1, j);
    }
  }

  /** The blocks of a list of lines: the runs between empty lines (a split on ""). */
  function Group(ls: seq<string>): (r: seq<seq<string>>)
    ensures |r| > 0
    ensures forall i, j :: 0 <= i < |r| && 0 <= j < |r[i]| ==> r[i][j] != ""
    decreases |ls|
  {
    var j := NextEmpty(ls, 0);
    if j == |ls| then [ls]
    else
      var rest := Group(ls[j + 1..]);
      var r := [ls[..j]] + rest;
      assert forall i :: 1 <= i < |r| ==> r[i] == rest[i - 1];
      r
  }

  lemma {:induction false} GroupNoEmpty(a: seq<string>)
    requires "" !in a
    ensures Group(a) == [a]
  {
    NextEmptyUnique(a, 0, |a|);
  }

  lemma {:induction false} GroupAround(a: seq<string>, b: seq<string>)
    ensures Group(a + [""] + b) == Group(a) + Group(b)
    decreases |a|
  {
    var s := a + [""] + b;
    var j := NextEmpty(a, 0);
    assert forall k :: 0 <= k < |a| ==> s[k] == a[k];
    assert s[|a|] == "";
    NextEmptyUnique(s, 0, j);
    if j == |a| {
      assert s[..j] == a && s[j + 1..] == b;
    } else {
      assert s[..j] == a[..j];
      assert s[j + 1..] == a[j + 1..] + [""] + b;
      GroupAround(a[j + 1..], b);
    }
  }

  /** Grouping the separated lines of slides without empty lines gives the slides back. */
  lemma {:induction false} GroupSeparated(cs: seq<seq<string>>)
    requires |cs| > 0
    requires forall i :: 0 <= i < |cs| ==> "" !in cs[i]
    ensures Group(Separated(cs)) == cs
  {
    GroupNoEmpty(cs[0]);
    if |cs| > 1 {
      var rest := cs[1..];
      assert forall i :: 0 <= i < |rest| ==> "" !in rest[i] by {
        forall i | 0 <= i < |rest| ensures "" !in rest[i] {
          assert rest[i] == cs[i + 1];
        }
      }
      GroupSeparated(rest);
      GroupAround(cs[0], Separated(rest));
      assert cs == [cs[0]] + rest;
    }
  }

  /** A line the output can carry as one line: non-empty and without a line break. */
  predicate IsPlainLine(l: string)
  {
    |l| > 0 && '\n' !in l && '\r' !in l
  }

  /** Every line of a chunk is one of the input lines. */
  lemma ChunkLines(lines: seq<string>, k: Positive)
    requires forall i :: 0 <= i < |lines| ==> IsPlainLine(lines[i])
    ensures var cs := Chunks(lines, k);
      forall i, j :: 0 <= i < |cs| && 0 <= j < |cs[i]| ==> IsPlainLine(cs[i][j])
    ensures var cs := Chunks(lines, k);
      forall i, j :: 0 <= i < |cs| && 0 <= j < |cs[i]| ==> '\n' !in cs[i][j] && cs[i][j] != ""
    ensures var cs := Chunks(lines, k); forall i :: 0 <= i < |cs| ==> "" !in cs[i]
  {
    var cs := Chunks(lines, k);
    ChunksShape(lines, k);
    forall i, j | 0 <= i < |cs| && 0 <= j < |cs[i]| ensures IsPlainLine(cs[i][j]) {
      FlattenContains(cs, i, cs[i][j]);
    }
    forall i | 0 <= i < |cs| ensures "" !in cs[i] {
      assert forall j :: 0 <= j < |cs[i]| ==> cs[i][j] != "";
    }
  }

  /** Splitting slides joined by a blank line into lines gives their separated lines. */
  lemma SplitSlides(cs: seq<seq<string>>)
    requires |cs| > 0
    requires forall i :: 0 <= i < |cs| ==> |cs[i]| > 0
    requires forall i, j :: 0 <= i < |cs| && 0 <= j < |cs[i]| ==> '\n' !in cs[i][j]
    ensures Split(Join(Map(SlideText, cs), "\n\n"), '\n') == Separated(cs)
  {
    JoinSeparated(cs);
    SeparatedKeepsOut(cs, '\n');
    SplitJoin(Separated(cs), '\n');
  }

  /** The formatted text of some lines is their slides joined by a blank line. */
  lemma FormatOfLines(f: Formatter, lines: seq<string>)
    requires |lines| > 0
    ensures Format(f, lines) == Join(Map(SlideText, Chunks(lines, f.linesPerSlide)), "\n\n")
  {
  }

  /** The lines of the formatted text are the lines of the slides with an empty line between slides. */
  lemma FormatLines(f: Formatter, lines: seq<string>)
    requires |lines| > 0
    requires forall i :: 0 <= i < |lines| ==> IsPlainLine(lines[i])
    ensures Split(Format(f, lines), '\n') == Separated(Chunks(lines, f.linesPerSlide))
  {
    var cs := Chunks(lines, f.linesPerSlide);
    ChunksShape(lines, f.linesPerSlide);
    ChunkLines(lines, f.linesPerSlide);
    FormatOfLines(f, lines);
    SplitSlides(cs);
  }

  /**
   * Reading the formatted text back, splitting it into lines and the lines
   * into blank-line-separated blocks, gives the chunks, whose concatenation
   * is the input.
   */
  lemma FormatRoundTrip(f: Formatter, lines: seq<string>)
    requires |lines| > 0
    requires forall i :: 0 <= i < |lines| ==> IsPlainLine(lines[i])
    ensures Group(Split(Format(f, lines), '\n')) == Chunks(lines, f.linesPerSlide)
    ensures Flatten(Group(Split(Format(f, lines), '\n'))) == lines
  {
    var cs := Chunks(lines, f.linesPerSlide);
    ChunksShape(lines, f.linesPerSlide);
    FormatLines(f, lines);
    ChunkLines(lines, f.linesPerSlide);
    GroupSeparated(cs);
  }
}

=== FILE: src/seqs.dfy ===
/** Generic sequence helpers: flattening and filtering, with the lemmas the model needs. */
module Seqs {

  /** Concatenation of a sequence of sequences, in order. */
  function Flatten<T>(xss: seq<seq<T>>): seq<T>
  {
    if |xss| == 0 then [] else xss[0] + Flatten(xss[1..])
  }

  lemma {:induction false} FlattenAppend<T>(a: seq<seq<T>>, b: seq<seq<T>>)
    ensures Flatten(a + b) == Flatten(a) + Flatten(b)
  {
    if |a| == 0 {
      assert a + b == b;
    } else {
      assert (a + b)[1..] == a[1..] + b;
      FlattenAppend(a[1..], b);
    }
  }

  /** An element of one of the parts is an element of the concatenation. */
  lemma {:induction false} FlattenContains<T>(xss: seq<seq<T>>, k: nat, x: T)
    requires k < |xss| && x in xss[k]
    ensures x in Flatten(xss)
  {
    if k > 0 {
      FlattenContains(xss[1..], k - 1, x);
    }
  }

  /** An element of the concatenation lies in one of the parts. */
  lemma {:induction false} FlattenMember<T>(xss: seq<seq<T>>, x: T) returns (k: nat)
    requires x in Flatten(xss)
    ensures k < |xss| && x in xss[k]
  {
    if x in xss[0] {
      k := 0;
    } else {
      var j := FlattenMember(xss[1..], x);
      k := j + 1;
    }
  }

  /** Concatenation regrouped, stated on its own so that callers need not rediscover it. */
  lemma AppendAssoc<T>(a: seq<T>, b: seq<T>, c: seq<T>)
    ensures a + (b + c) == (a + b) + c
  {
  }

  lemma FlattenSingle<T>(xs: seq<T>)
    ensures Flatten([xs]) == xs
  {
  }

  /** The elements of `s` that satisfy `p`, in order. */
  function Filter<T>(p: T -> bool, s: seq<T>): (r: seq<T>)
    ensures |r| <= |s|
    ensures forall i :: 0 <= i < |r| ==> p(r[i]) && r[i] in s
    ensures forall i :: 0 <= i < |s| && p(s[i]) ==> s[i] in r
  {
    if |s| == 0 then []
    else if p(s[0]) then [s[0]] + Filter(p, s[1..])
    else Filter(p, s[1..])
  }

  /** A prefix of elements that all fail `p` adds nothing to `Filter`. */
  lemma {:induction false} FilterSkip<T>(p: T -> bool, s: seq<T>, k: nat)
    requires k <= |s|
    requires forall i :: 0 <= i < k ==> !p(s[i])
    ensures Filter(p, s) == Filter(p, s[k..])
  {
    if k > 0 {
      FilterSkip(p, s[1..], k - 1);
      assert s[1..][k - 1..] == s[k..];
    }
  }

  /** Unfolding `Filter` on a first element. */
  lemma FilterCons<T>(p: T -> bool, x: T, t: seq<T>)
    ensures Filter(p, [x] + t) == if p(x) then [x] + Filter(p, t) else Filter(p, t)
  {
    assert ([x] + t)[1..] == t;
  }

  lemma {:induction false} FilterAppend<T>(p: T -> bool, a: seq<T>, b: seq<T>)
    ensures Filter(p, a + b) == Filter(p, a) + Filter(p, b)
  {
    if |a| == 0 {
      assert a + b == b;
    } else {
      assert (a + b)[1..] == a[1..] + b;
      FilterAppend(p, a[1..], b);
    }
  }

  /** The elements of `s` that fail `p`, in order: what `Filter` leaves behind. */
  function Reject<T>(p: T -> bool, s: seq<T>): (r: seq<T>)
    ensures |r| <= |s|
    ensures forall i :: 0 <= i < |r| ==> !p(r[i]) && r[i] in s
  {
    if |s| == 0 then []
    else if p(s[0]) then Reject(p, s[1..])
    else [s[0]] + Reject(p, s[1..])
  }

  /** What `Filter` keeps and what `Reject` keeps make up `s` exactly. */
  lemma {:induction false} FilterRejectMultiset<T>(p: T -> bool, s: seq<T>)
    ensures multiset(Filter(p, s)) + multiset(Reject(p, s)) == multiset(s)
  {
    if |s| > 0 {
      FilterRejectMultiset(p, s[1..]);
      assert s == [s[0]] + s[1..];
    }
  }

  /** When no element passes `p`, `Filter` is empty and `Reject` is everything. */
  lemma {:induction false} FilterNone<T>(p: T -> bool, s: seq<T>)
    requires forall i :: 0 <= i < |s| ==> !p(s[i])
    ensures Filter(p, s) == [] && Reject(p, s) == s
  {
    if |s| > 0 {
      FilterNone(p, s[1..]);
      assert s == [s[0]] + s[1..];
    }
  }

  /** Applies `f` to each element. */
  function Map<T, U>(f: T -> U, s: seq<T>): (r: seq<U>)
    ensures |r| == |s|
    ensures forall i :: 0 <= i < |s| ==> r[i] == f(s[i])
  {
    seq(|s|, i requires 0 <= i < |s| => f(s[i]))
  }

  lemma MapAppend<T, U>(f: T -> U, a: seq<T>, b: seq<T>)
    ensures Map(f, a + b) == Map(f, a) + Map(f, b)
  {
  }

  /** `s.iter().flat_map(f)`: the concatenation of `f` applied to every element. */
  function FlatMap<T, U>(f: T -> seq<U>, s: seq<T>): seq<U>
  {
    if |s| == 0 then [] else f(s[0]) + FlatMap(f, s[1..])
  }

  lemma {:induction false} FlatMapAppend<T, U>(f: T -> seq<U>, a: seq<T>, b: seq<T>)
    ensures FlatMap(f, a + b) == FlatMap(f, a) + FlatMap(f, b)
  {
    if |a| == 0 {
      assert a + b == b;
    } else {
      assert (a + b)[1..] == a[1..] + b;
      FlatMapAppend(f, a[1..], b);
    }
  }

  /** Removes the element at index `i`. */
  function RemoveAt<T>(s: seq<T>, i: nat): (r: seq<T>)
    requires i < |s|
    ensures |r| == |s| - 1
  {
    s[..i] + s[i + 1..]
  }
}

=== FILE: src/sorting.dfy ===
/**
 * A stable sort by a comparison `leq` (Rust's `slice::sort_by` with a
 * comparator that is a total preorder, and `sort_by_key`). The model is an
 * insertion sort; for a total preorder, a sorted, stable permutation is unique,
 * so any stable sort gives the same result.
 */
module StableSort {
  import opened Seqs

  /** `leq` is total and transitive: the comparator never answers inconsistently. */
  ghost predicate TotalPreorder<T(!new)>(leq: (T, T) -> bool)
  {
    && (forall a, b :: leq(a, b) || leq(b, a))
    && (forall a, b, c :: leq(a, b) && leq(b, c) ==> leq(a, c))
  }

  /** `a` and `b` compare as equal. */
  predicate Equiv<T>(leq: (T, T) -> bool, a: T, b: T)
  {
    leq(a, b) && leq(b, a)
  }

  ghost predicate Sorted<T>(leq: (T, T) -> bool, s: seq<T>)
  {
    forall i, j :: 0 <= i < j < |s| ==> leq(s[i], s[j])
  }

  /** The elements of `s` that compare equal to `k`, in order. */
  function Class<T>(leq: (T, T) -> bool, k: T, s: seq<T>): seq<T>
  {
    if |s| == 0 then []
    else (if Equiv(leq, s[0], k) then [s[0]] else []) + Class(leq, k, s[1..])
  }

  lemma {:induction false} ClassAppend<T>(leq: (T, T) -> bool, k: T, a: seq<T>, b: seq<T>)
    ensures Class(leq, k, a + b) == Class(leq, k, a) + Class(leq, k, b)
  {
    if |a| == 0 {
      assert a + b == b;
    } else {
      var h := if Equiv(leq, a[0], k) then [a[0]] else [];
      assert (a + b)[0] == a[0];
      assert (a + b)[1..] == a[1..] + b;
      ClassAppend(leq, k, a[1..], b);
      assert Class(leq, k, a + b) == h + (Class(leq, k, a[1..]) + Class(leq, k, b));
      assert Class(leq, k, a) == h + Class(leq, k, a[1..]);
    }
  }

  /** Puts `x` after every element of `s` that is at most `x`. */
  function Insert<T>(leq: (T, T) -> bool, x: T, s: seq<T>): (r: seq<T>)
    ensures |r| == |s| + 1
  {
    if |s| == 0 then [x]
    else if leq(s[0], x) then [s[0]] + Insert(leq, x, s[1..])
    else [x] + s
  }

  /** `Insert` adds `x` and keeps everything else. */
  lemma {:induction false} InsertMultiset<T>(leq: (T, T) -> bool, x: T, s: seq<T>)
    ensures multiset(Insert(leq, x, s)) == multiset(s) + multiset{x}
  {
    if |s| > 0 && leq(s[0], x) {
      InsertMultiset(leq, x, s[1..]);
      assert s == [s[0]] + s[1..];
    }
  }

  /** The insertion sort: each element in turn is inserted into the sorted prefix. */
  function Sort<T>(leq: (T, T) -> bool, s: seq<T>): (r: seq<T>)
    ensures multiset(r) == multiset(s)
    ensures |r| == |s|
  {
    if |s| == 0 then []
    else
      var r := Insert(leq, s[|s| - 1], Sort(leq, s[..|s| - 1]));
      InsertMultiset(leq, s[|s| - 1], Sort(leq, s[..|s| - 1]));
      assert s == s[..|s| - 1] + [s[|s| - 1]];
      r
  }

  lemma {:induction false} InsertSorted<T(!new)>(leq: (T, T) -> bool, x: T, s: seq<T>)
    requires TotalPreorder(leq)
    requires Sorted(leq, s)
    ensures Sorted(leq, Insert(leq, x, s))
  {
    if |s| > 0 && leq(s[0], x) {
      InsertSorted(leq, x, s[1..]);
      var r := Insert(leq, x, s[1..]);
      InsertMultiset(leq, x, s[1..]);
      assert forall j :: 0 <= j < |r| ==> leq(s[0], r[j]) by {
        forall j | 0 <= j < |r|
          ensures leq(s[0], r[j])
        {
          assert r[j] in multiset(r);
          assert r[j] in multiset(s[1..]) + multiset{x};
          if r[j] != x {
            assert r[j] in s[1..];
          }
        }
      }
    }
  }

  lemma {:induction false} SortSorted<T(!new)>(leq: (T, T) -> bool, s: seq<T>)
    requires TotalPreorder(leq)
    ensures Sorted(leq, Sort(leq, s))
  {
    if |s| > 0 {
      SortSorted(leq, s[..|s| - 1]);
      InsertSorted(leq, s[|s| - 1], Sort(leq, s[..|s| - 1]));
    }
  }

  /** No element of a sorted `s` that lies strictly above `x` compares equal to anything `x` does. */
  lemma ClassAboveEmpty<T(!new)>(leq: (T, T) -> bool, x: T, k: T, s: seq<T>)
    requires TotalPreorder(leq)
    requires Sorted(leq, s) && |s| > 0 && !leq(s[0], x) && Equiv(leq, x, k)
    ensures Class(leq, k, s) == []
  {
    ClassNone(leq, k, s, x);
  }

  lemma {:induction false} ClassNone<T(!new)>(leq: (T, T) -> bool, k: T, s: seq<T>, x: T)
    requires TotalPreorder(leq)
    requires |s| > 0 && Sorted(leq, s) && !leq(s[0], x) && Equiv(leq, x, k)
    ensures Class(leq, k, s) == []
    decreases |s|
  {
    assert !Equiv(leq, s[0], k);
    if |s| > 1 {
      assert leq(s[0], s[1]);
      assert !leq(s[1], x);
      ClassNone(leq, k, s[1..], x);
    }
  }

  /** Inserting `x` appends it to its class and leaves every other class alone. */
  lemma {:induction false} InsertClass<T(!new)>(leq: (T, T) -> bool, x: T, k: T, s: seq<T>)
    requires TotalPreorder(leq)
    requires Sorted(leq, s)
    ensures Class(leq, k, Insert(leq, x, s)) == Class(leq, k, s) + (if Equiv(leq, x, k) then [x] else [])
  {
    if |s| == 0 {
      ClassSingle(leq, k, x);
    } else if leq(s[0], x) {
      assert Sorted(leq, s[1..]) by {
        forall i, j | 0 <= i < j < |s[1..]| ensures leq(s[1..][i], s[1..][j]) {
          assert s[1..][i] == s[i + 1] && s[1..][j] == s[j + 1];
        }
      }
      InsertClass(leq, x, k, s[1..]);
      InsertClassPast(leq, x, k, s);
    } else {
      InsertClassFront(leq, x, k, s);
      if Equiv(leq, x, k) {
        ClassAboveEmpty(leq, x, k, s);
      }
    }
  }

  /** `Insert` passing the first element: its class is the first element's, then the rest's. */
  lemma InsertClassPast<T>(leq: (T, T) -> bool, x: T, k: T, s: seq<T>)
    requires |s| > 0 && leq(s[0], x)
    requires Class(leq, k, Insert(leq, x, s[1..])) == Class(leq, k, s[1..]) + (if Equiv(leq, x, k) then [x] else [])
    ensures Class(leq, k, Insert(leq, x, s)) == Class(leq, k, s) + (if Equiv(leq, x, k) then [x] else [])
  {
    var t := Insert(leq, x, s[1..]);
    assert Insert(leq, x, s) == [s[0]] + t;
    ClassCons(leq, k, s[0], t);
    var h := if Equiv(leq, s[0], k) then [s[0]] else [];
    var e := if Equiv(leq, x, k) then [x] else [];
    AppendAssoc(h, Class(leq, k, s[1..]), e);
  }

  /** Unfolding `Class` on a first element. */
  lemma ClassCons<T>(leq: (T, T) -> bool, k: T, y: T, t: seq<T>)
    ensures Class(leq, k, [y] + t) == (if Equiv(leq, y, k) then [y] else []) + Class(leq, k, t)
  {
    assert ([y] + t)[1..] == t;
  }

  /** `Insert` stopping at the front: `x`'s class entry comes before all of `s`. */
  lemma InsertClassFront<T>(leq: (T, T) -> bool, x: T, k: T, s: seq<T>)
    requires |s| > 0 && !leq(s[0], x)
    ensures Class(leq, k, Insert(leq, x, s)) == (if Equiv(leq, x, k) then [x] else []) + Class(leq, k, s)
  {
    var r := Insert(leq, x, s);
    assert r == [x] + s;
    assert r[0] == x && r[1..] == s;
  }

  /** Stability: the elements of each class keep their input order. */
  lemma {:induction false} SortStable<T(!new)>(leq: (T, T) -> bool, k: T, s: seq<T>)
    requires TotalPreorder(leq)
    ensures Class(leq, k, Sort(leq, s)) == Class(leq, k, s)
  {
    if |s| > 0 {
      var init, last := s[..|s| - 1], s[|s| - 1];
      SortStable(leq, k, init);
      SortSorted(leq, init);
      InsertClass(leq, last, k, Sort(leq, init));
      SortStableStep(leq, k, s);
    }
  }

  lemma SortStableStep<T>(leq: (T, T) -> bool, k: T, s: seq<T>)
    requires |s| > 0
    requires Class(leq, k, Sort(leq, s[..|s| - 1])) == Class(leq, k, s[..|s| - 1])
    requires var last := s[|s| - 1];
      Class(leq, k, Insert(leq, last, Sort(leq, s[..|s| - 1])))
        == Class(leq, k, Sort(leq, s[..|s| - 1])) + (if Equiv(leq, last, k) then [last] else [])
    ensures Class(leq, k, Sort(leq, s)) == Class(leq, k, s)
  {
    var init, last := s[..|s| - 1], s[|s| - 1];
    SplitLast(s);
    ClassAppend(leq, k, init, [last]);
    ClassSingle(leq, k, last);
    assert Sort(leq, s) == Insert(leq, last, Sort(leq, init));
  }

  lemma SplitLast<T>(s: seq<T>)
    requires |s| > 0
    ensures s == s[..|s| - 1] + [s[|s| - 1]]
  {
  }

  lemma ClassSingle<T>(leq: (T, T) -> bool, k: T, x: T)
    ensures Class(leq, k, [x]) == if Equiv(leq, x, k) then [x] else []
  {
    assert [x][1..] == [];
  }

  /** An already sorted sequence is left unchanged. */
  lemma {:induction false} SortSortedIsIdentity<T(!new)>(leq: (T, T) -> bool, s: seq<T>)
    requires Sorted(leq, s)
    ensures Sort(leq, s) == s
  {
    if |s| > 0 {
      var init, last := s[..|s| - 1], s[|s| - 1];
      assert Sorted(leq, init);
      SortSortedIsIdentity(leq, init);
      InsertAtEnd(leq, last, init);
      assert s == init + [last];
    }
  }

  lemma {:induction false} InsertAtEnd<T>(leq: (T, T) -> bool, x: T, s: seq<T>)
    requires forall i :: 0 <= i < |s| ==> leq(s[i], x)
    ensures Insert(leq, x, s) == s + [x]
  {
    if |s| > 0 {
      InsertAtEnd(leq, x, s[1..]);
      assert s == [s[0]] + s[1..];
    }
  }
}

=== FILE: src/strings.dfy ===
/** String operations of the Rust standard library used by the source, on `seq<char>`. */
module Strings {
  import opened Chars

  predicate AllWhitespace(s: string)
  {
    forall i :: 0 <= i < |s| ==> IsWhitespace(s[i])
  }

  /** No whitespace at either end. */
  predicate IsTrimmed(s: string)
  {
    |s| == 0 || (!IsWhitespace(s[0]) && !IsWhitespace(s[|s| - 1]))
  }

  /** Index of the first character at or after `i` that is not whitespace, or `|s|`. */
  function SkipWhitespace(s: string, i: nat): (k: nat)
    requires i <= |s|
    ensures i <= k <= |s|
    ensures forall j :: i <= j < k ==> IsWhitespace(s[j])
    ensures k < |s| ==> !IsWhitespace(s[k])
    decreases |s| - i
  {
    if i < |s| && IsWhitespace(s[i]) then SkipWhitespace(s, i + 1) else i
  }

  /** The index is determined by the whitespace run it ends. */
  lemma {:induction false} SkipWhitespaceUnique(s: string, i: nat, k: nat)
    requires i <= k <= |s|
    requires forall j :: i <= j < k ==> IsWhitespace(s[j])
    requires k < |s| ==> !IsWhitespace(s[k])
    ensures SkipWhitespace(s, i) == k
  {
  }

  /** One past the last character in `lo..j` that is not whitespace, or `lo`. */
  function SkipWhitespaceBack(s: string, lo: nat, j: nat): (k: nat)
    requires lo <= j <= |s|
    ensures lo <= k <= j
    ensures forall m :: k <= m < j ==> IsWhitespace(s[m])
    ensures k > lo ==> !IsWhitespace(s[k - 1])
    decreases j - lo
  {
    if j > lo && IsWhitespace(s[j - 1]) then SkipWhitespaceBack(s, lo, j - 1) else j
  }

  /** The index is determined by the whitespace run it starts. */
  lemma {:induction false} SkipWhitespaceBackUnique(s: string, lo: nat, j: nat, k: nat)
    requires lo <= k <= j <= |s|
    requires forall m :: k <= m < j ==> IsWhitespace(s[m])
    requires k > lo ==> !IsWhitespace(s[k - 1])
    ensures SkipWhitespaceBack(s, lo, j) == k
  {
  }

  /** `str::trim_start`. */
  function TrimStart(s: string): (r: string)
    ensures |r| <= |s| && r == s[|s| - |r|..]
    ensures AllWhitespace(s[..|s| - |r|])
    ensures |r| > 0 ==> !IsWhitespace(r[0])
  {
    var k := SkipWhitespace(s, 0);
    assert forall j :: 0 <= j < k ==> s[..k][j] == s[j];
    s[k..]
  }

  /** `str::trim_end`. */
  function TrimEnd(s: string): (r: string)
    ensures |r| <= |s| && r == s[..|r|]
    ensures AllWhitespace(s[|r|..])
    ensures |r| > 0 ==> !IsWhitespace(r[|r| - 1])
  {
    var k := SkipWhitespaceBack(s, 0, |s|);
    assert forall j :: 0 <= j < |s| - k ==> s[k..][j] == s[k + j];
    s[..k]
  }

  /** Where the trimmed slice starts. */
  function TrimOffset(s: string): (i: nat)
    ensures i <= |s|
  {
    SkipWhitespace(s, 0)
  }

  /** Where the trimmed slice ends. */
  function TrimLimit(s: string): (j: nat)
    ensures TrimOffset(s) <= j <= |s|
  {
    SkipWhitespaceBack(s, TrimOffset(s), |s|)
  }

  /** `str::trim`: the slice of `s` left after dropping whitespace at both ends. */
  function Trim(s: string): (r: string)
    ensures IsTrimmed(r)
    ensures exists i, j {:trigger s[i..j]} :: 0 <= i <= j <= |s| && r == s[i..j] && AllWhitespace(s[..i]) && AllWhitespace(s[j..])
    ensures |r| == 0 <==> AllWhitespace(s)
  {
    TrimAt(s);
    TrimIsSlice(s);
    s[TrimOffset(s)..TrimLimit(s)]
  }

  /** The trimmed slice, with only whitespace before and after it. */
  lemma {:induction false} TrimAt(s: string)
    ensures var i := TrimOffset(s); var j := TrimLimit(s);
      && (forall k :: 0 <= k < i ==> IsWhitespace(s[k]))
      && (forall k :: j <= k < |s| ==> IsWhitespace(s[k]))
      && (i < j ==> !IsWhitespace(s[i]) && !IsWhitespace(s[j - 1]))
      && (i == j ==> i == |s|)
  {
  }

  lemma {:induction false} TrimIsSlice(s: string)
    ensures var i := TrimOffset(s); var j := TrimLimit(s);
      && IsTrimmed(s[i..j]) && AllWhitespace(s[..i]) && AllWhitespace(s[j..])
      && (i == j <==> AllWhitespace(s))
  {
    var i := TrimOffset(s);
    var j := TrimLimit(s);
    TrimAt(s);
    assert forall k :: 0 <= k < i ==> s[..i][k] == s[k];
    assert forall k :: 0 <= k < |s| - j ==> s[j..][k] == s[j + k];
    if i < j {
      assert s[i..j][0] == s[i] && s[i..j][j - i - 1] == s[j - 1];
      assert !AllWhitespace(s) by {
        assert !IsWhitespace(s[i]);
      }
    }
  }

  /** Trimming a string without whitespace at its ends changes nothing. */
  lemma {:induction false} TrimTrimmed(s: string)
    requires IsTrimmed(s)
    ensures Trim(s) == s
  {
    if |s| > 0 {
      SkipWhitespaceUnique(s, 0, 0);
      SkipWhitespaceBackUnique(s, 0, |s|, |s|);
    }
  }

  /** Substring test, `str::contains` with a string pattern. */
  predicate Contains(hay: string, needle: string)
  {
    needle <= hay || (|hay| > 0 && Contains(hay[1..], needle))
  }

  /** `needle` occurs in `hay` at index `i`. */
  predicate OccursAt(hay: string, needle: string, i: int)
  {
    0 <= i && i + |needle| <= |hay| && hay[i..i + |needle|] == needle
  }

  /** `Contains` agrees with the existence of an occurrence. */
  lemma {:induction false} ContainsIffOccurs(hay: string, needle: string)
    ensures Contains(hay, needle) <==> exists i :: OccursAt(hay, needle, i)
  {
    if needle <= hay {
      assert OccursAt(hay, needle, 0);
    } else if |hay| > 0 {
      ContainsIffOccurs(hay[1..], needle);
      if exists i :: OccursAt(hay, needle, i) {
        var i :| OccursAt(hay, needle, i);
        assert i != 0;
        assert hay[1..][i - 1..i - 1 + |needle|] == hay[i..i + |needle|];
        assert OccursAt(hay[1..], needle, i - 1);
      }
      if Contains(hay[1..], needle) {
        var k :| OccursAt(hay[1..], needle, k);
        assert hay[k + 1..k + 1 + |needle|] == hay[1..][k..k + |needle|];
        assert OccursAt(hay, needle, k + 1);
      }
    }
  }

  /** An occurrence anywhere makes `Contains` true. */
  lemma ContainsAt(hay: string, needle: string, i: nat)
    requires OccursAt(hay, needle, i)
    ensures Contains(hay, needle)
  {
    ContainsIffOccurs(hay, needle);
  }

  /** Every string contains itself. */
  lemma ContainsSelf(s: string)
    ensures Contains(s, s)
  {
  }

  predicate StartsWith(s: string, prefix: string)
  {
    prefix <= s
  }

  predicate EndsWith(s: string, suffix: string)
  {
    |suffix| <= |s| && s[|s| - |suffix|..] == suffix
  }

  /** Index of the first occurrence of `c`. */
  function IndexOf(s: string, c: char): (i: nat)
    requires c in s
    ensures i < |s| && s[i] == c && c !in s[..i]
  {
    if s[0] == c then 0 else 1 + IndexOf(s[1..], c)
  }

  /** The first occurrence is the one with no earlier occurrence. */
  lemma IndexOfUnique(s: string, c: char, i: nat)
    requires i < |s| && s[i] == c && c !in s[..i]
    ensures IndexOf(s, c) == i
  {
    var k := IndexOf(s, c);
    assert forall j :: 0 <= j < i ==> s[..i][j] == s[j];
    assert forall j :: 0 <= j < k ==> s[..k][j] == s[j];
  }

  /** Index of the last occurrence of `c`. */
  function LastIndexOf(s: string, c: char): (i: nat)
    requires c in s
    ensures i < |s| && s[i] == c && c !in s[i + 1..]
  {
    if s[|s| - 1] == c then |s| - 1 else LastIndexOf(s[..|s| - 1], c)
  }

  /** `parts.join(sep)`. */
  function Join(parts: seq<string>, sep: string): string
  {
    if |parts| == 0 then ""
    else if |parts| == 1 then parts[0]
    else parts[0] + sep + Join(parts[1..], sep)
  }

  lemma {:induction false} JoinAppend(a: seq<string>, b: seq<string>, sep: string)
    requires |a| > 0 && |b| > 0
    ensures Join(a + b, sep) == Join(a, sep) + sep + Join(b, sep)
  {
    if |a| == 1 {
      assert (a + b)[1..] == b;
    } else {
      assert (a + b)[1..] == a[1..] + b;
      JoinAppend(a[1..], b, sep);
    }
  }

  /** The first occurrence of `c` at or after `i`, or `|s|` when there is none. */
  function SeparatorFrom(s: string, c: char, i: nat): (j: nat)
    requires i <= |s|
    ensures i <= j <= |s|
    ensures forall k :: i <= k < j ==> s[k] != c
    ensures j < |s| ==> s[j] == c
    decreases |s| - i
  {
    if i < |s| && s[i] != c then SeparatorFrom(s, c, i + 1) else i
  }

  /** The first occurrence is the one with no earlier occurrence. */
  lemma {:induction false} SeparatorFromUnique(s: string, c: char, i: nat, j: nat)
    requires i <= j <= |s|
    requires forall k :: i <= k < j ==> s[k] != c
    requires j < |s| ==> s[j] == c
    ensures SeparatorFrom(s, c, i) == j
    decreases j - i
  {
    if i < j {
      SeparatorFromUnique(s, c, i + 1, j);
    }
  }

  /** `s.split(c)`: the pieces between occurrences of `c`; never empty. */
  function Split(s: string, c: char): (r: seq<string>)
    ensures |r| > 0
    decreases |s|
  {
    var j := SeparatorFrom(s, c, 0);
    if j == |s| then [s] else [s[..j]] + Split(s[j + 1..], c)
  }

  lemma {:induction false} SplitAround(a: string, b: string, c: char)
    ensures Split(a + [c] + b, c) == Split(a, c) + Split(b, c)
    decreases |a|
  {
    var s := a + [c] + b;
    var j := SeparatorFrom(a, c, 0);
    assert forall k :: 0 <= k < |a| ==> s[k] == a[k];
    assert s[|a|] == c;
    SeparatorFromUnique(s, c, 0, j);
    if j == |a| {
      assert s[..j] == a && s[j + 1..] == b;
    } else {
      assert s[..j] == a[..j];
      assert s[j + 1..] == a[j + 1..] + [c] + b;
      SplitAround(a[j + 1..], b, c);
    }
  }

  /** No piece holds the separator. */
  lemma {:induction false} SplitPiecesFree(s: string, c: char)
    ensures forall k :: 0 <= k < |Split(s, c)| ==> c !in Split(s, c)[k]
    decreases |s|
  {
    var j := SeparatorFrom(s, c, 0);
    if j < |s| {
      var rest := Split(s[j + 1..], c);
      SplitPiecesFree(s[j + 1..], c);
      var r := Split(s, c);
      assert r == [s[..j]] + rest;
      forall k | 0 <= k < |r| ensures c !in r[k] {
        if k == 0 {
          assert forall i :: 0 <= i < j ==> r[0][i] == s[i];
        } else {
          assert r[k] == rest[k - 1];
        }
      }
    }
  }

  /** Splitting a join on its separator gives the pieces back. */
  lemma {:induction false} SplitJoin(parts: seq<string>, c: char)
    requires |parts| > 0
    requires forall k :: 0 <= k < |parts| ==> c !in parts[k]
    ensures Split(Join(parts, [c]), c) == parts
  {
    if |parts| == 1 {
      SplitNoSeparator(parts[0], c);
    } else {
      SplitJoin(parts[1..], c);
      SplitAround(parts[0], Join(parts[1..], [c]), c);
      SplitNoSeparator(parts[0], c);
    }
  }

  /** A string without the separator splits into itself. */
  lemma {:induction false} SplitNoSeparator(s: string, c: char)
    requires c !in s
    ensures Split(s, c) == [s]
  {
    SeparatorFromUnique(s, c, 0, |s|);
  }

  /** Drops one trailing carriage return. */
  function StripCr(s: string): (r: string)
    ensures r <= s
    ensures '\r' !in s ==> r == s
  {
    if |s| > 0 && s[|s| - 1] == '\r' then s[..|s| - 1] else s
  }

  /** `StripCr` on every piece. */
  function StripCrs(p: seq<string>): (r: seq<string>)
    ensures |r| == |p|
    ensures forall k :: 0 <= k < |p| ==> r[k] == StripCr(p[k])
    decreases |p|
  {
    if |p| == 0 then [] else [StripCr(p[0])] + StripCrs(p[1..])
  }

  /**
   * `str::lines`: the pieces of `split('\n')`, without the empty piece a final
   * "\n" leaves and without any piece for ""; a "\r" right before a "\n"
   * belongs to the line ending and is dropped.
   */
  function Lines(s: string): (r: seq<string>)
    ensures forall k :: 0 <= k < |r| ==> '\n' !in r[k]
    ensures |s| == 0 <==> |r| == 0
  {
    if |s| == 0 then []
    else
      var p := Split(s, '\n');
      SplitNonEmptyLast(s, '\n');
      SplitPiecesFree(s, '\n');
      var ended := StripCrs(p[..|p| - 1]);
      assert forall k :: 0 <= k < |ended| ==> '\n' !in ended[k] by {
        forall k | 0 <= k < |ended| ensures '\n' !in ended[k] {
          assert ended[k] <= p[k];
        }
      }
      if p[|p| - 1] == "" then ended else ended + [p[|p| - 1]]
  }

  /** A non-empty string whose last character is not the separator does not end in an empty piece. */
  lemma {:induction false} SplitNonEmptyLast(s: string, c: char)
    requires |s| > 0
    ensures var p := Split(s, c); p[|p| - 1] == "" ==> |p| > 1 && s[|s| - 1] == c
    decreases |s|
  {
    var j := SeparatorFrom(s, c, 0);
    if j < |s| {
      var t := s[j + 1..];
      var rest := Split(t, c);
      assert Split(s, c) == [s[..j]] + rest;
      if |t| == 0 {
        assert j == |s| - 1;
      } else {
        SplitNonEmptyLast(t, c);
        assert t[|t| - 1] == s[|s| - 1];
      }
    }
  }

  /** Without carriage returns, `lines` is `split('\n')` minus the empty piece a final "\n" leaves. */
  lemma {:induction false} LinesIsSplit(s: string)
    requires '\r' !in s
    ensures |s| > 0 && s[|s| - 1] != '\n' ==> Lines(s) == Split(s, '\n')
  {
    if |s| > 0 && s[|s| - 1] != '\n' {
      LinesWithoutCr(s);
      SplitNonEmptyLast(s, '\n');
    }
  }

  /** A character absent from `s` is absent from every piece of its split. */
  lemma {:induction false} SplitKeepsOut(s: string, c: char, d: char)
    requires d !in s
    ensures forall k :: 0 <= k < |Split(s, c)| ==> d !in Split(s, c)[k]
    decreases |s|
  {
    var j := SeparatorFrom(s, c, 0);
    if j < |s| {
      var rest := Split(s[j + 1..], c);
      assert d !in s[j + 1..] && d !in s[..j];
      SplitKeepsOut(s[j + 1..], c, d);
      var r := Split(s, c);
      assert r == [s[..j]] + rest;
      forall k | 0 <= k < |r| ensures d !in r[k] {
        if k > 0 { assert r[k] == rest[k - 1]; }
      }
    }
  }

  /** A character other than the separator is in `s` iff it is in one of the pieces. */
  lemma {:induction false} SplitContains(s: string, sep: char, c: char)
    requires c != sep
    ensures c in s <==> exists k :: 0 <= k < |Split(s, sep)| && c in Split(s, sep)[k]
    decreases |s|
  {
    var j := SeparatorFrom(s, sep, 0);
    var r := Split(s, sep);
    if j == |s| {
      assert r == [s];
      if c in s {
        assert c in r[0];
        assert exists k :: 0 <= k < |Split(s, sep)| && c in Split(s, sep)[k];
      } else {
        forall k | 0 <= k < |r| ensures c !in r[k] {
          assert r[k] == s;
        }
        assert !exists k :: 0 <= k < |Split(s, sep)| && c in Split(s, sep)[k];
      }
    } else {
      var head, t := s[..j], s[j + 1..];
      var rest := Split(t, sep);
      SplitContains(t, sep, c);
      assert r == [head] + rest;
      assert s == head + [sep] + t;
      if c in s {
        if c in head {
          assert c in r[0];
          assert exists k :: 0 <= k < |Split(s, sep)| && c in Split(s, sep)[k];
        } else {
          assert c in t;
          var k :| 0 <= k < |rest| && c in rest[k];
          assert c in r[k + 1];
          assert exists k :: 0 <= k < |Split(s, sep)| && c in Split(s, sep)[k];
        }
      } else {
        assert c !in head && c !in t;
        forall k | 0 <= k < |r| ensures c !in r[k] {
          if k == 0 {
            assert r[0] == head;
          } else {
            assert r[k] == rest[k - 1];
            assert !(0 <= k - 1 < |rest| && c in rest[k - 1]);
          }
        }
        assert !exists k :: 0 <= k < |Split(s, sep)| && c in Split(s, sep)[k];
      }
    }
  }

  /** A character other than the separator is in a join iff it is in one of the parts. */
  lemma {:induction false} JoinContains(parts: seq<string>, sep: char, c: char)
    requires c != sep
    ensures c in Join(parts, [sep]) <==> exists k :: 0 <= k < |parts| && c in parts[k]
  {
    if |parts| > 1 {
      JoinContains(parts[1..], sep, c);
      assert Join(parts, [sep]) == parts[0] + [sep] + Join(parts[1..], [sep]);
      if exists k :: 0 <= k < |parts| && c in parts[k] {
        var k :| 0 <= k < |parts| && c in parts[k];
        if k > 0 { assert parts[1..][k - 1] == parts[k]; }
      }
    }
  }

  /** Without carriage returns, `lines` is `split('\n')` minus the empty piece a final "\n" leaves. */
  lemma {:induction false} LinesWithoutCr(s: string)
    requires '\r' !in s && |s| > 0
    ensures var p := Split(s, '\n'); Lines(s) == if p[|p| - 1] == "" then p[..|p| - 1] else p
  {
    var p := Split(s, '\n');
    SplitKeepsOut(s, '\n', '\r');
    SplitNonEmptyLast(s, '\n');
    var ended := StripCrs(p[..|p| - 1]);
    assert ended == p[..|p| - 1] by {
      assert forall k :: 0 <= k < |ended| ==> ended[k] == p[k];
    }
  }

  /** A non-empty run of non-whitespace characters. */
  predicate IsWord(w: string)
  {
    |w| > 0 && forall j :: 0 <= j < |w| ==> !IsWhitespace(w[j])
  }

  /** `split_whitespace`: the maximal runs of non-whitespace characters. */
  function SplitWhitespace(s: string): (r: seq<string>)
    ensures forall k :: 0 <= k < |r| ==> IsWord(r[k])
    decreases |s|
  {
    if |s| == 0 then []
    else if IsWhitespace(s[0]) then SplitWhitespace(s[1..])
    else
      var n := WordLength(s, 0);
      assert IsWord(s[..n]);
      [s[..n]] + SplitWhitespace(s[n..])
  }


  /** Index of the first whitespace character at or after `from`, or `|s|`. */
  function WordLength(s: string, from: nat): (n: nat)
    requires from <= |s|
    ensures from <= n <= |s|
    ensures forall j :: from <= j < n ==> !IsWhitespace(s[j])
    ensures n < |s| ==> IsWhitespace(s[n])
    decreases |s| - from
  {
    if from < |s| && !IsWhitespace(s[from]) then WordLength(s, from + 1) else from
  }

  /** The index is determined by the word it ends. */
  lemma WordLengthUnique(s: string, from: nat, n: nat)
    requires from <= n <= |s|
    requires forall j :: from <= j < n ==> !IsWhitespace(s[j])
    requires n < |s| ==> IsWhitespace(s[n])
    ensures WordLength(s, from) == n
  {
  }

  /** Unfolding `split_whitespace` on a string that starts with a word ending at `n`. */
  lemma {:induction false} SplitWhitespaceFirst(s: string, n: nat)
    requires 0 < n <= |s|
    requires forall j :: 0 <= j < n ==> !IsWhitespace(s[j])
    requires n < |s| ==> IsWhitespace(s[n])
    ensures SplitWhitespace(s) == [s[..n]] + SplitWhitespace(s[n..])
  {
    WordLengthUnique(s, 0, n);
  }


  /** Every character of a word of `split_whitespace` comes from the input. */
  lemma {:induction false} SplitWhitespaceChars(s: string)
    ensures forall k, c :: 0 <= k < |SplitWhitespace(s)| && c in SplitWhitespace(s)[k] ==> c in s
    decreases |s|
  {
    if |s| > 0 {
      var n := if IsWhitespace(s[0]) then 1 else WordLength(s, 0);
      var rest := SplitWhitespace(s[n..]);
      SplitWhitespaceChars(s[n..]);
      var r := SplitWhitespace(s);
      assert forall c :: c in s[n..] ==> c in s;
      if IsWhitespace(s[0]) {
        assert r == rest;
      } else {
        assert r == [s[..n]] + rest;
        forall k, c | 0 <= k < |r| && c in r[k] ensures c in s {
          if k > 0 {
            assert r[k] == rest[k - 1];
          }
        }
      }
    }
  }



  /** Leading whitespace does not change the words. */
  lemma {:induction false} SplitWhitespaceLeadingSpace(x: string)
    ensures SplitWhitespace(" " + x) == SplitWhitespace(x)
  {
    assert (" " + x)[1..] == x;
  }


  /** A word followed by a space is the first word. */
  lemma {:induction false} SplitWhitespaceCons(w: string, x: string)
    requires IsWord(w)
    ensures SplitWhitespace(w + " " + x) == [w] + SplitWhitespace(" " + x)
  {
    var s := w + " " + x;
    assert forall i :: 0 <= i < |w| ==> s[i] == w[i];
    assert s[|w|] == ' ';
    SplitWhitespaceFirst(s, |w|);
    assert s[..|w|] == w;
    assert s[|w|..] == " " + x;
  }


  /** A single word is its only word. */
  lemma {:induction false} SplitWhitespaceWord(w: string)
    requires IsWord(w)
    ensures SplitWhitespace(w) == [w]
  {
    SplitWhitespaceFirst(w, |w|);
    assert w[..|w|] == w;
    assert w[|w|..] == "";
  }


  /** The words of a space-joined list of words are the list. */
  lemma {:induction false} SplitWhitespaceJoin(ws: seq<string>)
    requires forall k :: 0 <= k < |ws| ==> IsWord(ws[k])
    ensures SplitWhitespace(Join(ws, " ")) == ws
  {
    if |ws| == 1 {
      SplitWhitespaceWord(ws[0]);
    } else if |ws| > 1 {
      var tail := ws[1..];
      assert forall k :: 0 <= k < |tail| ==> IsWord(tail[k]) by {
        assert forall k :: 0 <= k < |tail| ==> tail[k] == ws[k + 1];
      }
      SplitWhitespaceJoin(tail);
      JoinSpaceStep(ws[0], tail);
      assert [ws[0]] + tail == ws;
    }
  }

  /** One step of `SplitWhitespaceJoin`: a word, a space, then more words. */
  lemma {:induction false} JoinSpaceStep(w: string, tail: seq<string>)
    requires IsWord(w) && |tail| > 0
    ensures SplitWhitespace(Join([w] + tail, " ")) == [w] + SplitWhitespace(Join(tail, " "))
  {
    var j := Join(tail, " ");
    assert ([w] + tail)[1..] == tail;
    assert Join([w] + tail, " ") == w + " " + j;
    SplitWhitespaceCons(w, j);
    SplitWhitespaceLeadingSpace(j);
  }


}

=== FILE: src/title_match.dfy ===
/**
 * Title detection: the comparison form of a text, a filename reduced to a song
 * name, the similarity score of two comparison forms, and the title test
 * (`normalize_for_comparison`, `extract_song_name_from_filename`,
 * `calculate_similarity`, `is_likely_title`).
 */
module TitleMatch {
  import opened Chars
  import opened Strings
  import opened Seqs

  // ---------------------------------------------------------------- comparison form

  /** Characters `normalize_for_comparison` keeps before lower-casing. */
  predicate IsKeptForComparison(c: char)
  {
    IsAlphanumeric(c) || IsWhitespace(c)
  }

  /** A letter or digit that is not an upper-case letter. */
  predicate IsLowerAlphanumeric(c: char)
  {
    IsAlphanumeric(c) && !IsUpperLatin1(c)
  }

  /** A word of the comparison form: lower-case letters and digits only. */
  predicate IsComparisonWord(w: string)
  {
    |w| > 0 && forall j :: 0 <= j < |w| ==> IsLowerAlphanumeric(w[j])
  }

  /** The text with everything but letters, digits and whitespace dropped, then lower-cased. */
  function ComparisonChars(text: string): (r: string)
    ensures forall i :: 0 <= i < |r| ==> IsLowerAlphanumeric(r[i]) || IsWhitespace(r[i])
  {
    ToLowerString(Filter(IsKeptForComparison, text))
  }

  /** The words of the comparison form. */
  function ComparisonWords(text: string): (ws: seq<string>)
    ensures forall k :: 0 <= k < |ws| ==> IsComparisonWord(ws[k])
  {
    var lower := ComparisonChars(text);
    var ws := SplitWhitespace(lower);
    SplitWhitespaceChars(lower);
    forall k, j | 0 <= k < |ws| && 0 <= j < |ws[k]| ensures IsLowerAlphanumeric(ws[k][j]) {
      var c := ws[k][j];
      assert c in ws[k];
      assert !IsWhitespace(c);
      assert c in lower;
      var i :| 0 <= i < |lower| && lower[i] == c;
    }
    ws
  }

  /** `normalize_for_comparison`: the comparison words joined by single spaces. */
  function ForComparison(text: string): (r: string)
    ensures forall i :: 0 <= i < |r| ==> r[i] == ' ' || IsLowerAlphanumeric(r[i])
    ensures SplitWhitespace(r) == ComparisonWords(text)
  {
    var ws := ComparisonWords(text);
    var r := Join(ws, " ");
    forall i | 0 <= i < |r| && r[i] != ' ' ensures IsLowerAlphanumeric(r[i]) {
      JoinContains(ws, ' ', r[i]);
      var k :| 0 <= k < |ws| && r[i] in ws[k];
    }
    assert forall k :: 0 <= k < |ws| ==> IsWord(ws[k]) by {
      forall k | 0 <= k < |ws| ensures IsWord(ws[k]) {
        assert forall j :: 0 <= j < |ws[k]| ==> IsLowerAlphanumeric(ws[k][j]);
      }
    }
    SplitWhitespaceJoin(ws);
    r
  }

  lemma {:induction false} FilterAll<T>(p: T -> bool, s: seq<T>)
    requires forall i :: 0 <= i < |s| ==> p(s[i])
    ensures Filter(p, s) == s
  {
    if |s| > 0 {
      FilterAll(p, s[1..]);
    }
  }

  /** The comparison form is a fixed point: comparing it again changes nothing. */
  lemma ForComparisonIdempotent(text: string)
    ensures ForComparison(ForComparison(text)) == ForComparison(text)
  {
    var r := ForComparison(text);
    FilterAll(IsKeptForComparison, r);
    assert ToLowerString(r) == r;
    assert ComparisonChars(r) == r;
  }

  lemma ToLowerCons(s: string)
    requires |s| > 0
    ensures ToLowerString(s) == [ToLower(s[0])] + ToLowerString(s[1..])
  {
  }

  lemma FilterCons(s: string)
    requires |s| > 0
    ensures Filter(IsKeptForComparison, s) ==
      (if IsKeptForComparison(s[0]) then [s[0]] else []) + Filter(IsKeptForComparison, s[1..])
  {
  }

  lemma {:induction false} FilterToLower(s: string)
    ensures Filter(IsKeptForComparison, ToLowerString(s)) == ToLowerString(Filter(IsKeptForComparison, s))
  {
    if |s| > 0 {
      FilterToLower(s[1..]);
      var t := ToLowerString(s);
      ToLowerCons(s);
      assert t[0] == ToLower(s[0]) && t[1..] == ToLowerString(s[1..]);
      FilterCons(t);
      FilterCons(s);
      if IsKeptForComparison(s[0]) {
        ToLowerCons([s[0]] + Filter(IsKeptForComparison, s[1..]));
      }
    }
  }

  /** Case does not matter: a lower-cased text has the same comparison form. */
  lemma ForComparisonIgnoresCase(text: string)
    ensures ForComparison(ToLowerString(text)) == ForComparison(text)
  {
    FilterToLower(text);
    var f := Filter(IsKeptForComparison, text);
    assert ToLowerString(ToLowerString(f)) == ToLowerString(f);
    assert ComparisonChars(ToLowerString(text)) == ComparisonChars(text);
  }

  // ---------------------------------------------------------------- song name

  /** `rsplit_once('.')`: the part before the last dot, or the whole name when it has none. */
  function StripExtension(filename: string): (r: string)
    ensures '.' !in filename ==> r == filename
    ensures '.' in filename ==> |r| < |filename| && r == filename[..|r|] && filename[|r|] == '.' && '.' !in filename[|r| + 1..]
  {
    if '.' in filename then filename[..LastIndexOf(filename, '.')] else filename
  }

  /**
   * One character against one letter of a lower-case ASCII keyword, ignoring case
   * by simple case folding: besides the two ASCII cases, 's' also matches U+017F.
   */
  predicate LetterMatches(c: char, k: char)
  {
    c == k || (IsAsciiLower(k) && c as int == k as int - 32) || (k == 's' && c == '\U{017F}')
  }

  predicate CaselessEquals(s: string, kw: string)
  {
    |s| == |kw| && forall i :: 0 <= i < |s| ==> LetterMatches(s[i], kw[i])
  }

  /** `p` matches `\s*[-_]?\s*`. */
  predicate IsSeparatorPart(p: string)
  {
    var q := TrimStart(p);
    |q| == 0 || ((q[0] == '-' || q[0] == '_') && AllWhitespace(q[1..]))
  }

  /** `u` is a separator part followed by the keyword `kw`. */
  predicate EndsWithKeyword(u: string, kw: string)
  {
    |kw| <= |u| && CaselessEquals(u[|u| - |kw|..], kw) && IsSeparatorPart(u[..|u| - |kw|])
  }

  /**
   * `t` as a whole matches
   * `\s*[-_]?\s*(lyrics?|slides?|slideshow|presentation|ppt|pptx|worship|song)\s*`, ignoring case.
   * Keywords end in a letter, so the trailing whitespace is exactly what `trim_end` removes.
   */
  predicate IsFilenameSuffix(t: string)
  {
    var u := TrimEnd(t);
    || EndsWithKeyword(u, "lyrics") || EndsWithKeyword(u, "lyric")
    || EndsWithKeyword(u, "slides") || EndsWithKeyword(u, "slide")
    || EndsWithKeyword(u, "slideshow") || EndsWithKeyword(u, "presentation")
    || EndsWithKeyword(u, "ppt") || EndsWithKeyword(u, "pptx")
    || EndsWithKeyword(u, "worship") || EndsWithKeyword(u, "song")
  }

  /** The leftmost position at or after `i` from which the rest satisfies `p`, or `|s|`. */
  function FirstSuffixFrom(p: string -> bool, s: string, i: nat): (j: nat)
    requires i <= |s|
    ensures i <= j <= |s|
    ensures j < |s| ==> p(s[j..])
    ensures forall k :: i <= k < j ==> !p(s[k..])
    decreases |s| - i
  {
    if i == |s| then |s|
    else if p(s[i..]) then i
    else FirstSuffixFrom(p, s, i + 1)
  }

  /**
   * `FILENAME_SUFFIX_REGEX.replace_all(name, "")`: the pattern is anchored at the end, so
   * the leftmost match runs to the end and the name is cut where it starts.
   */
  function StripFilenameSuffix(name: string): (r: string)
    ensures |r| <= |name| && r == name[..|r|]
    ensures |r| < |name| ==> IsFilenameSuffix(name[|r|..])
    ensures forall k :: 0 <= k < |r| ==> !IsFilenameSuffix(name[k..])
  {
    name[..FirstSuffixFrom(IsFilenameSuffix, name, 0)]
  }

  /** `extract_song_name_from_filename`. */
  function SongName(filename: string): (r: string)
    ensures forall i :: 0 <= i < |r| ==> r[i] == ' ' || IsLowerAlphanumeric(r[i])
  {
    ForComparison(StripFilenameSuffix(StripExtension(filename)))
  }

  /** `trim_end` is determined by where the trailing whitespace starts. */
  lemma {:induction false} TrimEndAt(s: string, m: nat)
    requires m <= |s| && (forall i :: m <= i < |s| ==> IsWhitespace(s[i]))
    requires m == 0 || !IsWhitespace(s[m - 1])
    ensures TrimEnd(s) == s[..m]
    decreases |s|
  {
    if |s| > m {
      TrimEndAt(s[..|s| - 1], m);
      assert s[..|s| - 1][..m] == s[..m];
    } else {
      assert s[..m] == s;
    }
  }

  /** A character that cannot end any keyword, in either case. */
  predicate EndsNoKeyword(c: char)
  {
    !LetterMatches(c, 's') && !LetterMatches(c, 'c') && !LetterMatches(c, 'e') && !LetterMatches(c, 'w')
    && !LetterMatches(c, 'n') && !LetterMatches(c, 't') && !LetterMatches(c, 'x') && !LetterMatches(c, 'p')
    && !LetterMatches(c, 'g')
  }

  lemma NoKeywordEndingIn(u: string, kw: string, last: char)
    requires |u| > 0 ==> u[|u| - 1] == last
    requires |kw| > 0 && !LetterMatches(last, kw[|kw| - 1])
    ensures !EndsWithKeyword(u, kw)
  {
    if |kw| <= |u| {
      assert u[|u| - |kw|..][|kw| - 1] == last;
    }
  }

  lemma NoSuffixEndingIn(t: string, last: char)
    requires |TrimEnd(t)| > 0 ==> TrimEnd(t)[|TrimEnd(t)| - 1] == last
    requires EndsNoKeyword(last)
    ensures !IsFilenameSuffix(t)
  {
    var u := TrimEnd(t);
    NoKeywordEndingIn(u, "lyrics", last);
    NoKeywordEndingIn(u, "lyric", last);
    NoKeywordEndingIn(u, "slides", last);
    NoKeywordEndingIn(u, "slide", last);
    NoKeywordEndingIn(u, "slideshow", last);
    NoKeywordEndingIn(u, "presentation", last);
    NoKeywordEndingIn(u, "ppt", last);
    NoKeywordEndingIn(u, "pptx", last);
    NoKeywordEndingIn(u, "worship", last);
    NoKeywordEndingIn(u, "song", last);
  }

  /** A name whose last non-space character cannot end a keyword keeps every character. */
  lemma NameWithoutKeywordEndingKept(name: string)
    requires |TrimEnd(name)| > 0 && EndsNoKeyword(TrimEnd(name)[|TrimEnd(name)| - 1])
    ensures StripFilenameSuffix(name) == name
  {
    var m := |TrimEnd(name)|;
    var last := name[m - 1];
    forall k | 0 <= k < |name| ensures !IsFilenameSuffix(name[k..]) {
      var t := name[k..];
      if k < m {
        TrimEndAt(t, m - k);
        assert TrimEnd(t)[m - k - 1] == last;
      } else {
        TrimEndAt(t, 0);
      }
      NoSuffixEndingIn(t, last);
    }
  }

  // ---------------------------------------------------------------- similarity

  /** The set of words of `s`. */
  function WordSet(s: string): set<string>
  {
    set w | w in SplitWhitespace(s)
  }

  lemma SubsetCard<T>(a: set<T>, b: set<T>)
    requires a <= b
    ensures |a| <= |b|
    ensures a != b ==> |a| < |b|
  {
    assert b == a + (b - a);
    assert a * (b - a) == {};
    if a != b {
      var x :| x in b && x !in a;
      assert x in b - a;
    }
  }

  /** Shorter over longer byte length, the score when one string contains the other. */
  function ContainmentScore(a: string, b: string): (r: real)
    requires |a| > 0 && |b| > 0
    ensures 0.0 < r <= 1.0
  {
    var la, lb := ByteLen(a), ByteLen(b);
    var shorter, longer := if la < lb then la else lb, if la < lb then lb else la;
    RatioBounds(shorter, longer);
    shorter as real / longer as real
  }

  lemma RatioBounds(x: nat, y: nat)
    requires 0 < x <= y
    ensures 0.0 < x as real / y as real <= 1.0
  {
    var q := x as real / y as real;
    assert q * y as real == x as real;
  }

  /** Shared words over all words, the Jaccard index of the word sets. */
  function JaccardScore(a: string, b: string): (r: real)
    ensures 0.0 <= r <= 1.0
  {
    var wa, wb := WordSet(a), WordSet(b);
    if |wa| == 0 || |wb| == 0 then 0.0
    else
      SubsetCard(wa * wb, wa + wb);
      SubsetCard(wa, wa + wb);
      RatioInUnit(|wa * wb|, |wa + wb|);
      |wa * wb| as real / |wa + wb| as real
  }

  lemma RatioInUnit(x: nat, y: nat)
    requires x <= y && 0 < y
    ensures 0.0 <= x as real / y as real <= 1.0
  {
    assert x as real <= y as real;
  }

  /** `calculate_similarity`: exact match, then containment by byte length, then word-set Jaccard index. */
  function Similarity(a: string, b: string): (r: real)
    ensures 0.0 <= r <= 1.0
    ensures (|a| == 0 || |b| == 0) ==> r == 0.0
    ensures |a| > 0 && a == b ==> r == 1.0
  {
    if |a| == 0 || |b| == 0 then 0.0
    else if a == b then 1.0
    else if Contains(a, b) || Contains(b, a) then ContainmentScore(a, b)
    else JaccardScore(a, b)
  }

  /** The score does not depend on the order of its arguments. */
  lemma SimilaritySymmetric(a: string, b: string)
    ensures Similarity(a, b) == Similarity(b, a)
  {
    assert WordSet(a) * WordSet(b) == WordSet(b) * WordSet(a);
    assert WordSet(a) + WordSet(b) == WordSet(b) + WordSet(a);
  }

  /** A proper substring is shorter in bytes. */
  lemma ContainedIsShorter(a: string, b: string)
    requires Contains(a, b) && a != b
    ensures ByteLen(b) < ByteLen(a)
  {
    ContainsIffOccurs(a, b);
    var i :| OccursAt(a, b, i);
    var pre, post := a[..i], a[i + |b|..];
    assert a == pre + b + post;
    ByteLenAppend(pre, b);
    ByteLenAppend(pre + b, post);
    assert |pre| + |post| > 0;
  }

  lemma RatioOne(x: nat, y: nat)
    requires 0 < y
    ensures x as real / y as real == 1.0 <==> x == y
  {
    if x as real / y as real == 1.0 {
      assert x as real == 1.0 * y as real;
    }
  }

  /**
   * A score of 1 means equal strings, or strings neither of which contains the other
   * with the same non-empty set of words.
   */
  lemma SimilarityOneIff(a: string, b: string)
    ensures Similarity(a, b) == 1.0 <==>
      |a| > 0 && |b| > 0 &&
      (a == b || (!Contains(a, b) && !Contains(b, a) && |WordSet(a)| > 0 && WordSet(a) == WordSet(b)))
  {
    if |a| > 0 && |b| > 0 && a != b {
      if Contains(a, b) {
        ContainedIsShorter(a, b);
        assert ContainmentScore(a, b) == ByteLen(b) as real / ByteLen(a) as real;
        RatioOne(ByteLen(b), ByteLen(a));
      } else if Contains(b, a) {
        ContainedIsShorter(b, a);
        assert ContainmentScore(a, b) == ByteLen(a) as real / ByteLen(b) as real;
        RatioOne(ByteLen(a), ByteLen(b));
      } else {
        var wa, wb := WordSet(a), WordSet(b);
        if |wa| > 0 && |wb| > 0 {
          RatioOne(|wa * wb|, |wa + wb|);
          SubsetCard(wa * wb, wa + wb);
          if wa * wb == wa + wb {
            assert wa == wb;
          }
        }
      }
    }
  }

  // ---------------------------------------------------------------- title test

  /** `is_likely_title`: a comparison form of 2 to 60 bytes scoring at least 0.7 against the song name. */
  predicate IsLikelyTitle(text: string, song: string)
  {
    var n := ForComparison(text);
    2 <= ByteLen(n) <= 60 && Similarity(n, song) >= 0.7
  }

  /** A title needs a non-empty song name and a comparison form of 2 to 60 bytes. */
  lemma LikelyTitleBounds(text: string, song: string)
    requires IsLikelyTitle(text, song)
    ensures |song| > 0 && 2 <= ByteLen(ForComparison(text)) <= 60
  {
  }

  /** A text whose comparison form is the song name, of 2 to 60 bytes, is a title. */
  lemma ExactTitleIsLikely(text: string, song: string)
    requires ForComparison(text) == song && 2 <= ByteLen(song) <= 60
    ensures IsLikelyTitle(text, song)
  {
  }

  /** The title test ignores case. */
  lemma LikelyTitleIgnoresCase(text: string, song: string)
    ensures IsLikelyTitle(ToLowerString(text), song) == IsLikelyTitle(text, song)
  {
    ForComparisonIgnoresCase(text);
  }
}

=== FILE: src/types.dfy ===
/** The shared document model (crates/core/src/types.rs) and format detection. */
module Types {
  import opened Wrappers
  import opened Bytes
  import opened Chars
  import opened Strings
  import opened Seqs
  import StableSort

  datatype PresentationFormat = Pptx | Ppt

  /** One run of text; positions are present for shapes of the modern format. */
  datatype SlideText = SlideText(text: string, y: Option<int>, x: Option<int>)

  datatype ExtractedSlide = ExtractedSlide(number: nat, lines: seq<SlideText>, notes: Option<string>)

  datatype Presentation = Presentation(
    filename: string,
    format: PresentationFormat,
    slides: seq<ExtractedSlide>,
    notes: Option<seq<string>>)

  const ZIP_SIGNATURE: seq<byte> := [0x50, 0x4B, 0x03, 0x04]
  const CFB_SIGNATURE: seq<byte> := [0xD0, 0xCF, 0x11, 0xE0, 0xA1, 0xB1, 0x1A, 0xE1]

  /** `Presentation::new`: an empty presentation. */
  function NewPresentation(filename: string, format: PresentationFormat): (p: Presentation)
    ensures p.filename == filename && p.format == format
    ensures p.slides == [] && p.notes == None
    ensures AllLines(p) == []
  {
    Presentation(filename, format, [], None)
  }

  /** `Presentation::add_slide`: appends one slide and changes nothing else. */
  function AddSlide(p: Presentation, slide: ExtractedSlide): (q: Presentation)
    ensures q.slides == p.slides + [slide]
    ensures q.filename == p.filename && q.format == p.format && q.notes == p.notes
  {
    p.(slides := p.slides + [slide])
  }

  /** The texts of a slide's lines, in order. */
  function LineTexts(slide: ExtractedSlide): (r: seq<string>)
    ensures |r| == |slide.lines|
    ensures forall i :: 0 <= i < |r| ==> r[i] == slide.lines[i].text
  {
    seq(|slide.lines|, i requires 0 <= i < |slide.lines| => slide.lines[i].text)
  }

  /** `Presentation::all_lines`: every slide's line texts, slide after slide. */
  function AllLines(p: Presentation): seq<string>
  {
    FlatMap(LineTexts, p.slides)
  }

  /** Adding a slide appends exactly that slide's lines to `all_lines`. */
  lemma AllLinesAddSlide(p: Presentation, slide: ExtractedSlide)
    ensures AllLines(AddSlide(p, slide)) == AllLines(p) + LineTexts(slide)
  {
    FlatMapAppend(LineTexts, p.slides, [slide]);
    assert FlatMap(LineTexts, [slide]) == LineTexts(slide) + FlatMap(LineTexts, []);
  }

  /** A presentation built by adding slides in turn lists all their lines in that order. */
  lemma {:induction false} AllLinesOfBuilt(filename: string, format: PresentationFormat, slides: seq<ExtractedSlide>)
    ensures AllLines(Build(filename, format, slides)) == FlatMap(LineTexts, slides)
    ensures Build(filename, format, slides).slides == slides
  {
    if |slides| > 0 {
      var init := slides[..|slides| - 1];
      AllLinesOfBuilt(filename, format, init);
      AllLinesAddSlide(Build(filename, format, init), slides[|slides| - 1]);
      FlatMapAppend(LineTexts, init, [slides[|slides| - 1]]);
      assert init + [slides[|slides| - 1]] == slides;
    }
  }

  lemma {:induction false} BuildKeepsHeader(filename: string, format: PresentationFormat, slides: seq<ExtractedSlide>)
    ensures var p := Build(filename, format, slides);
      p.filename == filename && p.format == format && p.notes == None
  {
    if |slides| > 0 {
      BuildKeepsHeader(filename, format, slides[..|slides| - 1]);
    }
  }

  /** `Presentation::new` followed by `add_slide` for each slide in order. */
  function Build(filename: string, format: PresentationFormat, slides: seq<ExtractedSlide>): Presentation
  {
    if |slides| == 0 then NewPresentation(filename, format)
    else AddSlide(Build(filename, format, slides[..|slides| - 1]), slides[|slides| - 1])
  }

  /** `ExtractedSlide::new`. */
  function NewSlide(number: nat): (s: ExtractedSlide)
    ensures s.number == number && s.lines == [] && s.notes == None
  {
    ExtractedSlide(number, [], None)
  }

  /** `ExtractedSlide::add_line`: appends a line without position. */
  function AddLine(s: ExtractedSlide, text: string): (r: ExtractedSlide)
    ensures r.lines == s.lines + [SlideText(text, None, None)]
    ensures r.number == s.number && r.notes == s.notes
    ensures LineTexts(r) == LineTexts(s) + [text]
  {
    s.(lines := s.lines + [SlideText(text, None, None)])
  }

  /** `ExtractedSlide::add_line_with_position`: appends a line at (x, y). */
  function AddLineWithPosition(s: ExtractedSlide, text: string, y: int, x: int): (r: ExtractedSlide)
    ensures r.lines == s.lines + [SlideText(text, Some(y), Some(x))]
    ensures r.number == s.number && r.notes == s.notes
    ensures LineTexts(r) == LineTexts(s) + [text]
  {
    s.(lines := s.lines + [SlideText(text, Some(y), Some(x))])
  }

  /** `Option::partial_cmp` on coordinates, as "at most": a missing coordinate sorts first. */
  predicate CoordLeq(a: Option<int>, b: Option<int>)
  {
    match (a, b)
    case (None, _) => true
    case (Some(_), None) => false
    case (Some(u), Some(v)) => u <= v
  }

  /** The comparator of `sort_by_position`: by y, then by x. */
  predicate PositionLeq(a: SlideText, b: SlideText)
  {
    if a.y == b.y then CoordLeq(a.x, b.x) else CoordLeq(a.y, b.y)
  }

  lemma PositionLeqIsTotalPreorder()
    ensures StableSort.TotalPreorder(PositionLeq)
  {
  }

  /** `ExtractedSlide::sort_by_position`: lines in reading order, ties kept in discovery order. */
  function SortByPosition(s: ExtractedSlide): (r: ExtractedSlide)
    ensures multiset(r.lines) == multiset(s.lines)
    ensures r.number == s.number && r.notes == s.notes
    ensures StableSort.Sorted(PositionLeq, r.lines)
  {
    PositionLeqIsTotalPreorder();
    StableSort.SortSorted(PositionLeq, s.lines);
    s.(lines := StableSort.Sort(PositionLeq, s.lines))
  }

  /** Lines at the same position keep their relative order. */
  lemma SortByPositionStable(s: ExtractedSlide, k: SlideText)
    ensures StableSort.Class(PositionLeq, k, SortByPosition(s).lines) == StableSort.Class(PositionLeq, k, s.lines)
  {
    PositionLeqIsTotalPreorder();
    StableSort.SortStable(PositionLeq, k, s.lines);
  }

  predicate IsNonBlank(t: string)
  {
    Trim(t) != ""
  }

  lemma NonBlankIffNotAllWhitespace(t: string)
    ensures IsNonBlank(t) <==> !AllWhitespace(t)
  {
  }

  /** `ExtractedSlide::non_empty_lines`: the texts that are not blank after trimming, in order. */
  function NonEmptyLines(s: ExtractedSlide): (r: seq<string>)
    ensures forall i :: 0 <= i < |r| ==> !AllWhitespace(r[i])
  {
    var r := Filter(IsNonBlank, LineTexts(s));
    forall i | 0 <= i < |r| ensures !AllWhitespace(r[i]) {
      NonBlankIffNotAllWhitespace(r[i]);
    }
    r
  }

  /** Every line that is not all whitespace is kept. */
  lemma NonEmptyLinesKeepsNonBlank(s: ExtractedSlide, i: nat)
    requires i < |s.lines| && !AllWhitespace(s.lines[i].text)
    ensures s.lines[i].text in NonEmptyLines(s)
  {
    var texts := LineTexts(s);
    NonBlankIffNotAllWhitespace(texts[i]);
    assert IsNonBlank(texts[i]);
  }

  /**
   * The kept texts follow the lines in order and with multiplicity: a new
   * slide keeps none, and each added line adds itself unless it is all whitespace.
   */
  lemma NonEmptyLinesOfNew(number: nat)
    ensures NonEmptyLines(NewSlide(number)) == []
  {
  }

  lemma NonEmptyLinesAddLine(s: ExtractedSlide, t: string)
    ensures NonEmptyLines(AddLine(s, t)) == NonEmptyLines(s) + if AllWhitespace(t) then [] else [t]
  {
    FilterAppend(IsNonBlank, LineTexts(s), [t]);
    NonBlankIffNotAllWhitespace(t);
    assert Filter(IsNonBlank, [t]) == if IsNonBlank(t) then [t] else [] by {
      FilterCons(IsNonBlank, t, []);
    }
  }

  lemma NonEmptyLinesAddLineWithPosition(s: ExtractedSlide, t: string, y: int, x: int)
    ensures NonEmptyLines(AddLineWithPosition(s, t, y, x)) == NonEmptyLines(s) + if AllWhitespace(t) then [] else [t]
  {
    FilterAppend(IsNonBlank, LineTexts(s), [t]);
    NonBlankIffNotAllWhitespace(t);
    assert Filter(IsNonBlank, [t]) == if IsNonBlank(t) then [t] else [] by {
      FilterCons(IsNonBlank, t, []);
    }
  }

  /** `PresentationFormat::from_extension`, case-insensitive. */
  function FromExtension(ext: string): (r: Option<PresentationFormat>)
    ensures r == Some(Pptx) <==> ToLowerString(ext) == "pptx"
    ensures r == Some(Ppt) <==> ToLowerString(ext) == "ppt"
    ensures r == None <==> ToLowerString(ext) != "pptx" && ToLowerString(ext) != "ppt"
  {
    var lower := ToLowerString(ext);
    if lower == "pptx" then Some(Pptx)
    else if lower == "ppt" then Some(Ppt)
    else None
  }

  /** Only an ASCII spelling of "pptx" or "ppt", in any case mix, names a format. */
  lemma FromExtensionIsAsciiCaseless(ext: string)
    ensures FromExtension(ext) == Some(Pptx) <==> |ext| == 4 && ext[0] in "pP" && ext[1] in "pP" && ext[2] in "tT" && ext[3] in "xX"
    ensures FromExtension(ext) == Some(Ppt) <==> |ext| == 3 && ext[0] in "pP" && ext[1] in "pP" && ext[2] in "tT"
  {
    var lower := ToLowerString(ext);
    if |ext| == 4 && lower == "pptx" {
      assert ToLower(ext[0]) == 'p' && ToLower(ext[1]) == 'p' && ToLower(ext[2]) == 't' && ToLower(ext[3]) == 'x';
    }
    if |ext| == 3 && lower == "ppt" {
      assert ToLower(ext[0]) == 'p' && ToLower(ext[1]) == 'p' && ToLower(ext[2]) == 't';
    }
  }

  /** `PresentationFormat::from_magic`: the zip signature wins, then the compound-file one. */
  function FromMagic(bytes: seq<byte>): (r: Option<PresentationFormat>)
    ensures |bytes| < 4 ==> r == None
    ensures r == Some(Pptx) <==> ZIP_SIGNATURE <= bytes
    ensures r == Some(Ppt) <==> CFB_SIGNATURE <= bytes
    ensures r == None <==> !(ZIP_SIGNATURE <= bytes) && !(CFB_SIGNATURE <= bytes)
  {
    if |bytes| < 4 then None
    else if ZIP_SIGNATURE <= bytes then
      assert bytes[0] == 0x50;
      Some(Pptx)
    else if |bytes| >= 8 && CFB_SIGNATURE <= bytes then Some(Ppt)
    else None
  }
}

=== FILE: src/utf16.dfy ===
/**
 * UTF-16LE decoding as `extract_unicode_text` does it
 * (crates/ppt/src/parser.rs): code units are read little-endian and decoded
 * until the first NUL or the first ill-formed unit, whichever comes first.
 */
module Utf16 {
  import opened Bytes

  type unit = u: int | 0 <= u < 0x1_0000

  predicate IsHighSurrogate(u: unit) { 0xD800 <= u < 0xDC00 }
  predicate IsLowSurrogate(u: unit) { 0xDC00 <= u < 0xE000 }

  /** Pairs of bytes read as little-endian code units (`chunks_exact(2)`). */
  function Units(bs: seq<byte>): (us: seq<unit>)
    requires |bs| % 2 == 0
    ensures |us| == |bs| / 2
    ensures forall k :: 0 <= k < |us| ==> us[k] == ReadU16Le(bs, 2 * k)
  {
    seq(|bs| / 2, k requires 0 <= k < |bs| / 2 => ReadU16Le(bs, 2 * k))
  }

  function PairValue(hi: unit, lo: unit): (c: char)
    requires IsHighSurrogate(hi) && IsLowSurrogate(lo)
    ensures c as int >= 0x1_0000
  {
    (0x1_0000 + (hi - 0xD800) * 0x400 + (lo - 0xDC00)) as char
  }

  /**
   * `decode_utf16(..).take_while(ok and not NUL)`: the characters up to the
   * first NUL or ill-formed unit.
   */
  function DecodePrefix(us: seq<unit>): (s: string)
    ensures '\0' !in s
    ensures |s| <= |us|
  {
    if |us| == 0 then ""
    else if IsHighSurrogate(us[0]) then
      if |us| >= 2 && IsLowSurrogate(us[1]) then [PairValue(us[0], us[1])] + DecodePrefix(us[2..])
      else ""
    else if IsLowSurrogate(us[0]) || us[0] == 0 then ""
    else [us[0] as char] + DecodePrefix(us[1..])
  }

  function EncodeChar(c: char): (us: seq<unit>)
    ensures 1 <= |us| <= 2
    ensures |us| == 1 <==> c as int < 0x1_0000
  {
    var v := c as int;
    if v < 0x1_0000 then [v]
    else [0xD800 + (v - 0x1_0000) / 0x400, 0xDC00 + (v - 0x1_0000) % 0x400]
  }

  function Encode(s: string): (us: seq<unit>)
    ensures |s| <= |us| <= 2 * |s|
  {
    if |s| == 0 then [] else EncodeChar(s[0]) + Encode(s[1..])
  }

  /** One character's units decode back to it, ahead of whatever follows. */
  lemma DecodeEncodeChar(c: char, tail: seq<unit>)
    requires c != '\0'
    ensures DecodePrefix(EncodeChar(c) + tail) == [c] + DecodePrefix(tail)
  {
    var us := EncodeChar(c) + tail;
    var v := c as int;
    if v < 0x1_0000 {
      assert us[0] == v && us[1..] == tail;
    } else {
      var q := (v - 0x1_0000) / 0x400;
      var r := (v - 0x1_0000) % 0x400;
      assert us[0] == 0xD800 + q && us[1] == 0xDC00 + r;
      assert us[2..] == tail;
      assert 0x1_0000 + q * 0x400 + r == v;
    }
  }

  /** A NUL-free string survives encoding then decoding when a NUL, a stray low surrogate or the end follows it. */
  lemma {:induction false} DecodeEncode(s: string, rest: seq<unit>)
    requires '\0' !in s
    requires |rest| == 0 || rest[0] == 0 || IsLowSurrogate(rest[0])
    ensures DecodePrefix(Encode(s) + rest) == s
  {
    if |s| == 0 {
      assert Encode(s) + rest == rest;
    } else {
      var tail := Encode(s[1..]) + rest;
      assert Encode(s) + rest == EncodeChar(s[0]) + tail;
      DecodeEncodeChar(s[0], tail);
      DecodeEncode(s[1..], rest);
      assert s == [s[0]] + s[1..];
    }
  }

  /** The little-endian bytes of a sequence of units. */
  function UnitBytes(us: seq<unit>): (bs: seq<byte>)
    ensures |bs| == 2 * |us|
  {
    if |us| == 0 then [] else WriteU16Le(us[0]) + UnitBytes(us[1..])
  }

  lemma ReadShift(pre: seq<byte>, bs: seq<byte>, off: nat)
    requires off + 2 <= |bs|
    ensures ReadU16Le(pre + bs, |pre| + off) == ReadU16Le(bs, off)
  {
    assert (pre + bs)[|pre| + off] == bs[off] && (pre + bs)[|pre| + off + 1] == bs[off + 1];
  }

  lemma {:induction false} UnitAt(us: seq<unit>, k: nat)
    requires k < |us|
    ensures ReadU16Le(UnitBytes(us), 2 * k) == us[k]
  {
    if k == 0 {
      ReadWriteU16([], us[0], UnitBytes(us[1..]));
      assert [] + WriteU16Le(us[0]) + UnitBytes(us[1..]) == UnitBytes(us);
    } else {
      UnitAt(us[1..], k - 1);
      ReadShift(WriteU16Le(us[0]), UnitBytes(us[1..]), 2 * (k - 1));
    }
  }

  /** Writing units as bytes and reading them back gives the same units. */
  lemma UnitsOfUnitBytes(us: seq<unit>)
    ensures Units(UnitBytes(us)) == us
  {
    forall k | 0 <= k < |us| ensures Units(UnitBytes(us))[k] == us[k] {
      UnitAt(us, k);
    }
  }
}

=== FILE: src/worker_wasm.dfy ===
/**
 * The worker binding's own logic (crates/worker-wasm/src/lib.rs): the size
 * check and format detection that open `extract_presentation_impl`, and
 * `format_for_propresenter_impl`, which puts an optional title block in
 * front of the formatter's text and counts the output slides.
 */
module WorkerWasm {
  import opened Wrappers
  import opened Bytes
  import opened Chars
  import opened Strings
  import opened Seqs
  import opened Types
  import opened ProPresenter

  const TOO_SMALL: string := "File too small to be a valid presentation"
  const UNDETECTED: string := "Could not detect file format"

  /** Bytes needed before the magic numbers are looked at. */
  const MIN_SIZE: nat := 8

  // ------------------------------------------------------------ detection

  /**
   * `filename.rsplit('.').next()`: the longest suffix without a '.', that is
   * the text after the last '.', or the whole name when it has none.
   */
  function ExtensionOf(filename: string): (r: string)
    ensures '.' !in r
    ensures EndsWith(filename, r)
    ensures |r| < |filename| ==> filename[|filename| - |r| - 1] == '.'
  {
    if '.' in filename then
      var i := LastIndexOf(filename, '.');
      assert filename[|filename| - |filename[i + 1..]|..] == filename[i + 1..];
      filename[i + 1..]
    else filename
  }

  /** The extension of "stem.ext" is "ext", whatever dots the stem holds. */
  lemma ExtensionOfName(stem: string, ext: string)
    requires '.' !in ext
    ensures ExtensionOf(stem + "." + ext) == ext
  {
    var name := stem + "." + ext;
    var r := ExtensionOf(name);
    assert name[|stem|] == '.';
    assert r == name[|name| - |r|..] == ext;
  }

  /** The magic numbers are looked for in the first eight bytes. */
  lemma PrefixOfHead(data: seq<byte>, sig: seq<byte>)
    requires |data| >= MIN_SIZE && |sig| <= MIN_SIZE
    ensures sig <= data[..MIN_SIZE] <==> sig <= data
  {
  }

  /**
   * The prelude of `extract_presentation_impl`: reject input under eight
   * bytes, then trust the magic numbers, then the file name's extension.
   */
  function DetectFormat(data: seq<byte>, filename: string): (r: Result<PresentationFormat, string>)
    ensures |data| < MIN_SIZE <==> r == Err(TOO_SMALL)
    ensures r.Err? ==> r.error == TOO_SMALL || r.error == UNDETECTED
    ensures |data| >= MIN_SIZE && ZIP_SIGNATURE <= data ==> r == Ok(Pptx)
    ensures |data| >= MIN_SIZE && CFB_SIGNATURE <= data ==> r == Ok(Ppt)
    ensures |data| >= MIN_SIZE && !(ZIP_SIGNATURE <= data) && !(CFB_SIGNATURE <= data) ==>
      (match FromExtension(ExtensionOf(filename))
       case Some(f) => r == Ok(f)
       case None => r == Err(UNDETECTED))
  {
    if |data| < MIN_SIZE then Err(TOO_SMALL)
    else
      PrefixOfHead(data, ZIP_SIGNATURE);
      PrefixOfHead(data, CFB_SIGNATURE);
      match FromMagic(data[..MIN_SIZE]).OrElse(FromExtension(ExtensionOf(filename)))
      case Some(f) => Ok(f)
      case None => Err(UNDETECTED)
  }

  /** Without a known signature, the name decides: "pptx" or "ppt" in any letter case. */
  lemma DetectFromName(data: seq<byte>, stem: string, ext: string)
    requires |data| >= MIN_SIZE && !(ZIP_SIGNATURE <= data) && !(CFB_SIGNATURE <= data)
    requires '.' !in ext
    ensures ToLowerString(ext) == "pptx" ==> DetectFormat(data, stem + "." + ext) == Ok(Pptx)
    ensures ToLowerString(ext) == "ppt" ==> DetectFormat(data, stem + "." + ext) == Ok(Ppt)
    ensures ToLowerString(ext) != "pptx" && ToLowerString(ext) != "ppt" ==>
      DetectFormat(data, stem + "." + ext) == Err(UNDETECTED)
  {
    ExtensionOfName(stem, ext);
  }

  // ------------------------------------------------------------ ProPresenter output

  datatype FormatResult = FormatResult(text: string, slideCount: nat)

  /** A present, non-empty title; an empty one counts as none. */
  predicate HasTitle(title: Option<string>)
  {
    title.Some? && title.value != ""
  }

  /** The title slide, as the blocks of the output see it. */
  function TitleBlock(title: Option<string>): seq<seq<string>>
  {
    if HasTitle(title) then [[title.value]] else []
  }

  /** The text built around the formatter's output `lyrics`. */
  function OutputText(lyrics: string, title: Option<string>): string
  {
    if HasTitle(title) then
      if lyrics == "" then title.value + "\n" else title.value + "\n\n" + lyrics + "\n"
    else if lyrics == "" then "" else lyrics + "\n"
  }

  /** The lyric slide count: ceil(|lines| / k) for the formatter's clamped k. */
  function LyricSlideCount(n: nat, k: Positive): nat
  {
    if n == 0 then 0 else CeilDiv(n, k)
  }

  /**
   * `format_for_propresenter_impl`, with the lyric slides counted for the
   * lines-per-slide value the formatter actually uses.
   */
  function FormatForProPresenter(lines: seq<string>, linesPerSlide: nat, title: Option<string>): (r: FormatResult)
    ensures r.slideCount == |TitleBlock(title)| + |SplitIntoSlides(lines, linesPerSlide)|
    ensures !HasTitle(title) ==> r.text == FormatWithNewline(WithLinesPerSlide(New(), linesPerSlide), lines)
    ensures HasTitle(title) ==> StartsWith(r.text, title.value + "\n") && r.text[|r.text| - 1] == '\n'
  {
    var f := WithLinesPerSlide(New(), linesPerSlide);
    var lyrics := Format(f, lines);
    CeilDivStep(0, f.linesPerSlide);
    var count := (if HasTitle(title) then 1 else 0) + LyricSlideCount(|lines|, f.linesPerSlide);
    var text := OutputText(lyrics, title);
    assert HasTitle(title) && lyrics != "" ==> text == title.value + "\n" + ("\n" + lyrics + "\n");
    FormatResult(text, count)
  }

  /** The slides a reader of the output sees: its lines, in blocks separated by empty lines. */
  function Blocks(text: string): seq<seq<string>>
  {
    if text == "" then [] else Group(Lines(text))
  }

  /** A text ended by a newline has the lines of the text before it. */
  lemma LinesOfTerminated(x: string)
    requires '\r' !in x
    ensures Lines(x + "\n") == Split(x, '\n')
  {
    assert x + "\n" == x + ['\n'] + "";
    SplitAround(x, "", '\n');
    assert '\r' !in x + "\n";
    LinesWithoutCr(x + "\n");
    var p := Split(x + "\n", '\n');
    assert p == Split(x, '\n') + [""];
    assert p[..|p| - 1] == Split(x, '\n');
  }

  /** The formatter's text, for plain lines, holds no carriage return. */
  lemma FormatKeepsOutCr(f: Formatter, lines: seq<string>)
    requires |lines| > 0
    requires forall i :: 0 <= i < |lines| ==> IsPlainLine(lines[i])
    ensures '\r' !in Format(f, lines)
  {
    var cs := Chunks(lines, f.linesPerSlide);
    FormatLines(f, lines);
    ChunkLines(lines, f.linesPerSlide);
    assert forall i, j :: 0 <= i < |cs| && 0 <= j < |cs[i]| ==> '\r' !in cs[i][j] by {
      forall i, j | 0 <= i < |cs| && 0 <= j < |cs[i]| ensures '\r' !in cs[i][j] {
        assert IsPlainLine(cs[i][j]);
      }
    }
    SeparatedKeepsOut(cs, '\r');
    SplitContains(Format(f, lines), '\n', '\r');
  }

  /** The blocks of the lyrics, followed by the ending newline, are the chunks. */
  lemma LyricBlocks(f: Formatter, lines: seq<string>)
    requires |lines| > 0
    requires forall i :: 0 <= i < |lines| ==> IsPlainLine(lines[i])
    ensures Group(Lines(Format(f, lines) + "\n")) == Chunks(lines, f.linesPerSlide)
    ensures Split(Format(f, lines), '\n') == Separated(Chunks(lines, f.linesPerSlide))
  {
    FormatKeepsOutCr(f, lines);
    LinesOfTerminated(Format(f, lines));
    FormatRoundTrip(f, lines);
    FormatLines(f, lines);
  }

  /** The lines of a title, a blank line and a text ended by a newline. */
  lemma {:induction false} TitledLines(t: string, x: string)
    requires IsPlainLine(t) && '\r' !in x
    ensures Lines(t + "\n\n" + x + "\n") == [t] + [""] + Split(x, '\n')
  {
    var z := "" + ['\n'] + x;
    var y := t + ['\n'] + z;
    assert t + "\n\n" + x + "\n" == y + "\n";
    assert Lines(y + "\n") == Split(y, '\n') by {
      assert '\r' !in y;
      LinesOfTerminated(y);
    }
    assert Split(z, '\n') == [""] + Split(x, '\n') by {
      SplitAround("", x, '\n');
    }
    assert Split(y, '\n') == [t] + Split(z, '\n') by {
      SplitAround(t, z, '\n');
      SplitNoSeparator(t, '\n');
    }
  }

  /** The blocks of a title block followed by the lyrics. */
  lemma TitledBlocks(f: Formatter, lines: seq<string>, t: string)
    requires |lines| > 0
    requires forall i :: 0 <= i < |lines| ==> IsPlainLine(lines[i])
    requires IsPlainLine(t)
    ensures Group(Lines(t + "\n\n" + Format(f, lines) + "\n")) == [[t]] + Chunks(lines, f.linesPerSlide)
  {
    var cs := Chunks(lines, f.linesPerSlide);
    LyricBlocks(f, lines);
    FormatKeepsOutCr(f, lines);
    TitledLines(t, Format(f, lines));
    GroupAround([t], Separated(cs));
    GroupNoEmpty([t]);
    ChunkLines(lines, f.linesPerSlide);
    GroupSeparated(cs);
  }

  /** The blocks of a title alone. */
  lemma TitleOnlyBlocks(t: string)
    requires IsPlainLine(t)
    ensures Blocks(t + "\n") == [[t]]
  {
    LinesOfTerminated(t);
    SplitNoSeparator(t, '\n');
    GroupNoEmpty([t]);
  }

  /**
   * Read back as blank-line-separated blocks, the output is the title slide
   * (when there is a title) followed by the lyric slides, and the slide count
   * is the number of blocks.
   */
  lemma OutputBlocks(lines: seq<string>, linesPerSlide: nat, title: Option<string>)
    requires forall i :: 0 <= i < |lines| ==> IsPlainLine(lines[i])
    requires HasTitle(title) ==> IsPlainLine(title.value)
    ensures var r := FormatForProPresenter(lines, linesPerSlide, title);
      && Blocks(r.text) == TitleBlock(title) + Chunks(lines, Clamp(linesPerSlide))
      && |Blocks(r.text)| == r.slideCount
  {
    var f := WithLinesPerSlide(New(), linesPerSlide);
    var lyrics := Format(f, lines);
    var r := FormatForProPresenter(lines, linesPerSlide, title);
    ChunksCount(lines, f.linesPerSlide);
    FormatEmptyIff(f, lines);
    if |lines| == 0 {
      assert Chunks(lines, f.linesPerSlide) == [];
      if HasTitle(title) {
        TitleOnlyBlocks(title.value);
      }
    } else {
      assert lines != [""] by {
        assert IsPlainLine(lines[0]);
      }
      assert lyrics != "";
      if HasTitle(title) {
        TitledBlocks(f, lines, title.value);
        assert r.text == title.value + "\n\n" + lyrics + "\n";
      } else {
        LyricBlocks(f, lines);
        assert r.text == lyrics + "\n";
      }
    }
  }

  // ------------------------------------------------------------ the count as written

  /** `usize` on the 32-bit WebAssembly target the binding is built for. */
  const WASM_USIZE_MODULUS: nat := 0x1_0000_0000

  /**
   * The lyric slide count as line 165 computes it: the unclamped value
   * divides, so 0 panics (None); the sum wraps around in a release build.
   */
  function LyricSlideCountAsWritten(n: nat, linesPerSlide: nat): (r: Option<nat>)
    requires n < WASM_USIZE_MODULUS && linesPerSlide < WASM_USIZE_MODULUS
    ensures r.None? <==> n > 0 && linesPerSlide == 0
    ensures r.Some? ==> r.value < WASM_USIZE_MODULUS
  {
    if n == 0 then Some(0)
    else if linesPerSlide == 0 then None
    else Some(((n + linesPerSlide - 1) % WASM_USIZE_MODULUS) / linesPerSlide)
  }

  /** `format_for_propresenter_impl` as written; None where it panics. */
  function FormatForProPresenterAsWritten(lines: seq<string>, linesPerSlide: nat, title: Option<string>)
    : (r: Option<FormatResult>)
    requires |lines| < WASM_USIZE_MODULUS && linesPerSlide < WASM_USIZE_MODULUS
    ensures r.None? <==> |lines| > 0 && linesPerSlide == 0
    ensures r.Some? ==> r.value.text == FormatForProPresenter(lines, linesPerSlide, title).text
  {
    var f := WithLinesPerSlide(New(), linesPerSlide);
    var text := OutputText(Format(f, lines), title);
    match LyricSlideCountAsWritten(|lines|, linesPerSlide)
    case None => None
    case Some(n) => Some(FormatResult(text, (if HasTitle(title) then 1 else 0) + n))
  }

  /** Where it neither divides by zero nor wraps, the code as written agrees with the model. */
  lemma AsWrittenAgrees(lines: seq<string>, linesPerSlide: nat, title: Option<string>)
    requires 0 < linesPerSlide < WASM_USIZE_MODULUS && |lines| + linesPerSlide - 1 < WASM_USIZE_MODULUS
    ensures FormatForProPresenterAsWritten(lines, linesPerSlide, title) == Some(FormatForProPresenter(lines, linesPerSlide, title))
  {
    var n := |lines|;
    assert (n + linesPerSlide - 1) % WASM_USIZE_MODULUS == n + linesPerSlide - 1;
    assert LyricSlideCountAsWritten(n, linesPerSlide) == Some(LyricSlideCount(n, Clamp(linesPerSlide)));
  }

  /** A lines-per-slide of 0 with any lyrics panics, though the text uses one line per slide. */
  lemma AsWrittenPanicsOnZero(line: string)
    requires line == "Only line"
    ensures FormatForProPresenterAsWritten([line], 0, None) == None
    ensures FormatForProPresenter([line], 0, None) == FormatResult("Only line\n", 1)
  {
    var f := WithLinesPerSlide(New(), 0);
    assert Chunks([line], 1) == [[line]];
    assert Format(f, [line]) == line;
    CeilDivStep(1, 1);
  }

  /**
   * A lines-per-slide near the top of `usize` wraps the sum to 0: two lines
   * make one block of text but are counted as no slide.
   */
  lemma AsWrittenWrapsCount(a: string, b: string)
    requires a == "Line one" && b == "Line two"
    ensures FormatForProPresenterAsWritten([a, b], WASM_USIZE_MODULUS - 1, None).value.slideCount == 0
    ensures FormatForProPresenter([a, b], WASM_USIZE_MODULUS - 1, None).slideCount == 1
    ensures |Blocks(FormatForProPresenter([a, b], WASM_USIZE_MODULUS - 1, None).text)| == 1
  {
    var k := WASM_USIZE_MODULUS - 1;
    assert (2 + k - 1) % WASM_USIZE_MODULUS == 0;
    CeilDivStep(2, k);
    assert IsPlainLine(a) && IsPlainLine(b);
    OutputBlocks([a, b], k, None);
  }
}

=== FILE: src/wrappers.dfy ===
/** Option and Result, the two failure-carrying shapes the extraction code returns. */
module Wrappers {

  /** An optional value: Rust's `Option<T>`. */
  datatype Option<+T> = None | Some(value: T) {

    /** Returns the value in Some, or `default` for None (`unwrap_or`). */
    function GetOr(default: T): T {
      match this
      case Some(v) => v
      case None => default
    }

    /** `a.or_else(|| b)` with an already evaluated `b`. */
    function OrElse(other: Option<T>): Option<T> {
      if Some? then this else other
    }
  }

  /** A success value or an error: Rust's `Result<T, E>`. */
  datatype Result<+T, +E> = Ok(value: T) | Err(error: E) {

    predicate IsFailure() {
      Err?
    }

    function PropagateFailure<U>(): Result<U, E>
      requires Err?
    {
      Err(error)
    }

    function Extract(): T
      requires Ok?
    {
      value
    }
  }
}

=== FILE: src/xml_events.dfy ===
/**
 * The XML input of the modern parser, as the tokenizer delivers it: a
 * sequence of events with element names and attributes already split out.
 * Text events arrive unescaped and trimmed (the reader runs with
 * `trim_text(true)`); anything the parser ignores (comments, declarations,
 * CDATA, processing instructions) is `Other`; a syntax error is `Malformed`.
 */
module XmlEvents {
  import opened Wrappers

  datatype Attr = Attr(key: string, value: string)

  datatype XmlEvent =
    | Start(name: string, attrs: seq<Attr>)
    | Empty(name: string, attrs: seq<Attr>)
    | Text(text: string)
    | End(name: string)
    | Other
    | Malformed

  /** The value of the last attribute named `key`, if any. */
  function LastValue(attrs: seq<Attr>, key: string): (r: Option<string>)
    ensures r.None? <==> forall i :: 0 <= i < |attrs| ==> attrs[i].key != key
  {
    if |attrs| == 0 then None
    else if attrs[|attrs| - 1].key == key then Some(attrs[|attrs| - 1].value)
    else LastValue(attrs[..|attrs| - 1], key)
  }

  /**
   * The source's attribute loop for one key: start from `cur` and overwrite
   * it with every attribute named `key`, in order.
   */
  function AssignAttr(attrs: seq<Attr>, key: string, cur: string): string
  {
    if |attrs| == 0 then cur
    else AssignAttr(attrs[1..], key, if attrs[0].key == key then attrs[0].value else cur)
  }

  /** The loop leaves the last matching value, or `cur` when nothing matches. */
  lemma {:induction false} AssignAttrIsLast(attrs: seq<Attr>, key: string, cur: string)
    ensures AssignAttr(attrs, key, cur) == LastValue(attrs, key).GetOr(cur)
  {
    if |attrs| > 0 {
      var next := if attrs[0].key == key then attrs[0].value else cur;
      AssignAttrIsLast(attrs[1..], key, next);
      LastValueCons(attrs, key);
    }
  }

  lemma {:induction false} LastValueCons(attrs: seq<Attr>, key: string)
    requires |attrs| > 0
    ensures LastValue(attrs, key) ==
      match LastValue(attrs[1..], key)
      case Some(v) => Some(v)
      case None => if attrs[0].key == key then Some(attrs[0].value) else None
  {
    if |attrs| > 1 {
      var init := attrs[..|attrs| - 1];
      assert init[1..] == attrs[1..][..|attrs[1..]| - 1];
      assert init[0] == attrs[0];
      assert attrs[1..][|attrs[1..]| - 1] == attrs[|attrs| - 1];
      if attrs[|attrs| - 1].key != key {
        LastValueCons(init, key);
      }
    } else {
      assert attrs[..0] == [];
    }
  }

  /** `String::new()` overwritten by the attribute loop: the value, or "" when absent. */
  function AttrValue(attrs: seq<Attr>, key: string): (r: string)
    ensures r == LastValue(attrs, key).GetOr("")
  {
    AssignAttrIsLast(attrs, key, "");
    AssignAttr(attrs, key, "")
  }
}
